=== FILE: README.md ===
# crawler4j core, modelled in Dafny

This project models the core of crawler4j, a Java web crawler. The model covers five pieces:

- The URL canonicalizer (`URLCanonicalizer`). It turns a possibly relative link into one canonical
  absolute URL. Along the way it:
  - lower-cases the scheme and host;
  - squashes "//" and drops leading "/../" segments;
  - drops the default port and the fragment;
  - keeps query parameters in first-seen order, with the last value for each name;
  - removes session parameters;
  - percent-encodes names and values as RFC 3986 does.
- `WebURL`. It splits a URL into domain, sub-domain and path. Two `WebURL`s are equal, and hash the
  same, by their URL string alone.
- robots.txt path rules (`PathRule`). A pattern using `*`, a final `$` and the `\*` escape is
  compiled into an anchored regular expression, which a whole path is matched against.
- Page download (`Page`, `PageFetcher`):
  - the politeness delay between requests;
  - redirects and other statuses;
  - the size limit, using the Content-Length header when the entity announces no length;
  - the bounded, truncating read of the body into a growable byte buffer;
  - what `Page.load` records.
- Parsing (`Parser.parse`). Binary content is refused or passed through; plain text is decoded.
  For HTML, the anchors become the outgoing links: filtered, canonicalized, without duplicates and
  capped.

Library behaviour the core relies on is taken as given functions, gathered in the datatypes
`Canonicalizer.UrlLibrary` and `Parsers.ParserLibrary`. These are `java.net.URL` parsing and
resolution, `URI.normalize`, charset conversion, the HTML parser and language identification. Other
environment inputs are parameters:

- the clock readings around the politeness sleep;
- the HTTP response;
- the request URI;
- the list of two-label public suffixes.

`java.net.URLDecoder` and `URLEncoder` are modelled concretely, on UTF-8 bytes, because what the
canonicalizer proves rests on them.

Files:

- `wrappers.dfy`: `Option`.
- `strings.dfy`: the `java.lang.String` operations used. `indexOf`, `replace`, `split`, `trim` and
  `toLowerCase` are modelled over characters, apart from the ASCII-only case mapping noted below.
  Java counts positions in UTF-16 code units, so positions differ after a character above U+FFFF;
  where that matters is noted below.
- `percent.dfy`: the URL decoder, the URL encoder and RFC 3986 encoding.
- `canonicalizer.dfy`: the canonicalizer.
- `canonicalizer_examples.dfy`: the canonicalizer on its unit-test inputs.
- `weburl.dfy`: `WebURL`.
- `pathrule.dfy`: `PathRule`.
- `page.dfy`: `Page` and its byte buffer.
- `fetcher.dfy`: `PageFetcher.fetchPage`.
- `parser.dfy`: `Parser.parse`.

Facts about the code that a reader might not expect:

- Canonicalization is not idempotent for a query holding a bare "=" pair. `a=b&=&c=d` canonicalizes
  to `a=b&&c=d`, because the '&' is written whenever the text built so far is non-empty, even before
  an empty item. Canonicalizing that result again gives `a=b&c=d`.
  `CanonicalizerExamples.EmptyPairWritten` proves the first step.
- Both header lookups for the content length, `Content-Length` and then `Content-length`
  (PageFetcher.java:356-359), are case-insensitive, so the fallback never finds anything that the
  first lookup missed (`Fetcher.LengthFallbackFindsNothingNew`).
- The comment at PathRule.java:59 says escaped `*` and `$` characters are handled, but the test at
  PathRule.java:61 compares the backslash itself with '$', so only `\*` is an escape. Any other
  backslash, `\$` included, is a literal backslash.
- A redirect status without a Location header is not an error: the result is returned with no
  moved-to URL.
- A content body that is too big closes the response but does not abort the request: the `finally`
  block aborts only when there is no entity.
- A malformed percent escape does not make canonicalization fail. `percentEncodeRfc3986` catches the
  decoder's exception and returns the text with only its '+' escaped
  (`CanonicalizerExamples.BrokenEscapeKept`).

## Model

| member | source | states |
|---|---|---|
| Strings.StartsWith | crawler4j/src/main/java/edu/uci/ics/crawler4j/url/URLCanonicalizer.java:90 | `String.startsWith`: the text begins with the prefix; no contract of its own, used by StripParents and PrefixKeepsNoStart |
| Strings.ReplaceAll | crawler4j/src/main/java/edu/uci/ics/crawler4j/url/URLCanonicalizer.java:81-86 | `String.replace`: every leftmost non-overlapping occurrence replaced, scanning from the start; no contract of its own, stated by ReplaceAbsent, ReplaceShrinks, ReplaceNoPatternLeft, ReplaceKeepsNoDoubleSlash and ReplaceCharRemoves |
| Strings.IndexOf | crawler4j/src/main/java/edu/uci/ics/crawler4j/url/WebURL.java:78-80 | the result is -1 or an occurrence at or after `from`, and no occurrence lies between `from` and the result |
| Strings.ContainsChar | crawler4j/src/main/java/edu/uci/ics/crawler4j/url/URLCanonicalizer.java:243 | `contains` of a one-character string is membership of that character |
| Strings.ReplaceAbsent | crawler4j/src/main/java/edu/uci/ics/crawler4j/url/URLCanonicalizer.java:243 | `replace` of a pattern that does not occur changes nothing |
| Strings.ReplaceShrinks | crawler4j/src/main/java/edu/uci/ics/crawler4j/url/URLCanonicalizer.java:83-88 | replacing "//" by "/" shortens the path whenever "//" occurs, so the loop ends |
| Strings.ReplaceNoPatternLeft | crawler4j/src/main/java/edu/uci/ics/crawler4j/url/URLCanonicalizer.java:81 | replacing a pattern by non-empty text that shares no character with it leaves no occurrence (no backslash after `replace("\\", "/")`) |
| Strings.ReplaceKeepsNoDoubleSlash | crawler4j/src/main/java/edu/uci/ics/crawler4j/url/URLCanonicalizer.java:238 | replacing slash-free text by non-empty slash-free text creates no "//" and no new leading '/' |
| Strings.ReplaceCharRemoves | crawler4j/src/main/java/edu/uci/ics/crawler4j/url/URLCanonicalizer.java:238 | after replacing a character by text without it, the character is gone |
| Strings.NoDoubleSlashIff | crawler4j/src/main/java/edu/uci/ics/crawler4j/url/URLCanonicalizer.java:83 | `indexOf("//") < 0` is the same as no two consecutive slashes |
| Strings.SplitAll | crawler4j/src/main/java/edu/uci/ics/crawler4j/url/URLCanonicalizer.java:155 | splitting gives at least one piece, and no piece contains the separator |
| Strings.JoinSplitAll | crawler4j/src/main/java/edu/uci/ics/crawler4j/url/URLCanonicalizer.java:155 | joining the pieces with the separator gives the string back |
| Strings.SplitAllNoSeparator | crawler4j/src/main/java/edu/uci/ics/crawler4j/url/WebURL.java:83 | text without the separator is one piece |
| Strings.SplitAllJoin | crawler4j/src/main/java/edu/uci/ics/crawler4j/url/URLCanonicalizer.java:155 | splitting joined separator-free pieces gives the pieces back, empty ones included |
| Strings.DropTrailingEmpty | crawler4j/src/main/java/edu/uci/ics/crawler4j/url/WebURL.java:83 | the result is a prefix of the input, ends in a non-empty piece, and only empty pieces were dropped |
| Strings.JavaSplit | crawler4j/src/main/java/edu/uci/ics/crawler4j/url/WebURL.java:83 | no piece `split` returns contains the separator |
| Strings.JavaSplitJoin | crawler4j/src/main/java/edu/uci/ics/crawler4j/url/WebURL.java:83 | `split` of two or more joined labels, the last non-empty, gives the labels back |
| Strings.SplitOnce | crawler4j/src/main/java/edu/uci/ics/crawler4j/url/URLCanonicalizer.java:167 | `split("=", 2)` gives one piece (the text) exactly when there is no '=', otherwise a name without '=' and a value, around the first '=' |
| Strings.DropLeadingEmpty | crawler4j/src/main/java/edu/uci/ics/crawler4j/url/URLCanonicalizer.java:218-220 | the remaining items are empty or start with a non-empty item |
| Strings.JoinSkipLeadingEmpty | crawler4j/src/main/java/edu/uci/ics/crawler4j/url/URLCanonicalizer.java:218-228 | the StringBuilder loop that appends the separator when the text so far is non-empty: the items joined, with no separator for leading empty items; no contract of its own, stated by DropLeadingEmpty and JoinSkipLeadingEmptySnoc |
| Strings.JoinSkipLeadingEmptySnoc | crawler4j/src/main/java/edu/uci/ics/crawler4j/url/URLCanonicalizer.java:218-228 | one more turn of the "append '&' when the builder is non-empty, then the item" loop |
| Strings.ToLower | crawler4j/src/main/java/edu/uci/ics/crawler4j/url/URLCanonicalizer.java:65 | same length, each character lower-cased |
| Strings.ToLowerIsLower | crawler4j/src/main/java/edu/uci/ics/crawler4j/url/URLCanonicalizer.java:65 | the result has no upper-case letter, and lower-casing twice is lower-casing once |
| Strings.Trim | crawler4j/src/main/java/edu/uci/ics/crawler4j/url/URLCanonicalizer.java:95 | `String.trim`: the text without leading and trailing characters up to U+0020; no contract of its own, its bounds are TrimStart's and TrimEnd's and its effect on the path is stated by TrimShape |
| Strings.TrimStart | crawler4j/src/main/java/edu/uci/ics/crawler4j/url/URLCanonicalizer.java:95 | `trim`'s start index lies between the given start and the end |
| Strings.TrimEnd | crawler4j/src/main/java/edu/uci/ics/crawler4j/url/URLCanonicalizer.java:95 | `trim`'s end index lies between the start and the given length |
| Strings.NatToString | crawler4j/src/main/java/edu/uci/ics/crawler4j/fetcher/PageFetcher.java:365 | `Integer.toString` of a non-negative number is a non-empty string of digits |
| Percent.IsHexDigit | crawler4j/src/main/java/edu/uci/ics/crawler4j/url/URLCanonicalizer.java:244 | the hex digits the decoder accepts (ASCII only); no contract of its own, used by EscapeValue |
| Percent.Utf8 | crawler4j/src/main/java/edu/uci/ics/crawler4j/url/URLCanonicalizer.java:244 | one to four bytes, one byte exactly for ASCII, and that byte is the code |
| Percent.HexChar | crawler4j/src/main/java/edu/uci/ics/crawler4j/url/URLCanonicalizer.java:245 | the encoder's hex digit has the given value and is none of '%', '+' and '*' |
| Percent.EscapeValue | crawler4j/src/main/java/edu/uci/ics/crawler4j/url/URLCanonicalizer.java:244 | two ASCII hex digits after '%' give their byte; a second character that is not one makes the decoder throw |
| Percent.Escape | crawler4j/src/main/java/edu/uci/ics/crawler4j/url/URLCanonicalizer.java:245 | an escape is three characters: '%' and two characters that are not '%', '+' or '*' |
| Percent.UrlDecode | crawler4j/src/main/java/edu/uci/ics/crawler4j/url/URLCanonicalizer.java:244 | `URLDecoder.decode(s, "UTF-8")`: '+' a space, "%XY" its byte, other characters their UTF-8 bytes, None where a '%' lacks two hex digits; no contract of its own, its round trip with the encoder is DecodeRfc3986Encode |
| Percent.UrlEncode | crawler4j/src/main/java/edu/uci/ics/crawler4j/url/URLCanonicalizer.java:245 | `URLEncoder.encode` in UTF-8, byte by byte: unreserved and '*' kept, space to '+', the rest "%XY"; no contract of its own, its rewriting is stated by RewriteEncoderOutput |
| Percent.Rfc3986Encode | crawler4j/src/main/java/edu/uci/ics/crawler4j/url/URLCanonicalizer.java:241-250 | the RFC 3986 percent-encoding of bytes, the reference that percentEncodeRfc3986 is proved to meet; stated by DecodeRfc3986Encode and Rfc3986EncodeHasNoPlus |
| Percent.ConcatMapAppend | crawler4j/src/main/java/edu/uci/ics/crawler4j/url/URLCanonicalizer.java:245 | byte-by-byte encoding distributes over concatenation |
| Percent.Rfc3986EncodeHasNoPlus | crawler4j/src/main/java/edu/uci/ics/crawler4j/url/URLCanonicalizer.java:243-246 | the RFC 3986 encoding never contains '+' |
| Percent.DecodeRfc3986Encode | crawler4j/src/main/java/edu/uci/ics/crawler4j/url/URLCanonicalizer.java:244-246 | round trip: the URL decoder gives back exactly the bytes that were RFC 3986 encoded |
| Canonicalizer.Squash | crawler4j/src/main/java/edu/uci/ics/crawler4j/url/URLCanonicalizer.java:83-88 | every run of slashes squashed to one, an independent description of where the `replace("//", "/")` loop ends; stated by SquashHasNoDoubleSlash, SquashFixed and ReplaceDoubleSlashSquash |
| Canonicalizer.SquashHasNoDoubleSlash | crawler4j/src/main/java/edu/uci/ics/crawler4j/url/URLCanonicalizer.java:83-88 | the independent "runs of slashes become one" description leaves no "//" |
| Canonicalizer.SquashFixed | crawler4j/src/main/java/edu/uci/ics/crawler4j/url/URLCanonicalizer.java:83-88 | text without "//" is its own squash: the loop stops at a fixed point |
| Canonicalizer.ReplaceDoubleSlashSquash | crawler4j/src/main/java/edu/uci/ics/crawler4j/url/URLCanonicalizer.java:86 | one `replace("//", "/")` pass does not change where squashing ends, so the loop computes the squash |
| Canonicalizer.StripParents | crawler4j/src/main/java/edu/uci/ics/crawler4j/url/URLCanonicalizer.java:90-93 | the result does not start with "/../" and is no longer than the input |
| Canonicalizer.StripParentsRemovesSegments | crawler4j/src/main/java/edu/uci/ics/crawler4j/url/URLCanonicalizer.java:90-93 | the input is some number of "/.." segments followed by the result |
| Canonicalizer.StripParentsShape | crawler4j/src/main/java/edu/uci/ics/crawler4j/url/URLCanonicalizer.java:90-93 | stripping keeps the absence of "//", and a changed path starts with '/' |
| Canonicalizer.TrimShape | crawler4j/src/main/java/edu/uci/ics/crawler4j/url/URLCanonicalizer.java:95 | trimming keeps the absence of "//", and only cuts the end of text that does not start with a blank |
| Canonicalizer.CleanPath | crawler4j/src/main/java/edu/uci/ics/crawler4j/url/URLCanonicalizer.java:83-111 | the path after squashing, stripping leading "/..", trimming, and "/" for an empty result; no contract of its own, stated by CleanPathShape |
| Canonicalizer.NormalizePath | crawler4j/src/main/java/edu/uci/ics/crawler4j/url/URLCanonicalizer.java:237-239 | `normalizePath`: "%7E" to "~", then space to "%20"; no contract of its own, stated by NormalizePathShape |
| Canonicalizer.CleanPathShape | crawler4j/src/main/java/edu/uci/ics/crawler4j/url/URLCanonicalizer.java:83-111 | the cleaned path is non-empty and has no "//"; it starts with "/../" only if a leading blank hid that prefix from the loop |
| Canonicalizer.NormalizePathShape | crawler4j/src/main/java/edu/uci/ics/crawler4j/url/URLCanonicalizer.java:237-239 | `normalizePath` leaves no space and no "//", and no "%7E" when the input had no space |
| Canonicalizer.DecodeKeepingPlus | crawler4j/src/main/java/edu/uci/ics/crawler4j/url/URLCanonicalizer.java:243-244 | URL-decoding with '+' read as a literal plus; no contract of its own, DecodeAfterPlusEscape proves it is what escaping '+' then decoding does |
| Canonicalizer.DecodeAfterPlusEscape | crawler4j/src/main/java/edu/uci/ics/crawler4j/url/URLCanonicalizer.java:243-244 | escaping '+' as "%2B" and then URL-decoding is decoding with '+' read as a literal plus |
| Canonicalizer.DecodeAtEscape | crawler4j/src/main/java/edu/uci/ics/crawler4j/url/URLCanonicalizer.java:243-244 | the step of that equality at a well-formed '%' escape |
| Canonicalizer.DecodeAtPlusAfterPercent | crawler4j/src/main/java/edu/uci/ics/crawler4j/url/URLCanonicalizer.java:243-244 | "%+" makes both sides fail |
| Canonicalizer.DecodeAtPlusSecondAfterPercent | crawler4j/src/main/java/edu/uci/ics/crawler4j/url/URLCanonicalizer.java:243-244 | "%x+" makes both sides fail |
| Canonicalizer.DecodeAtShortPercent | crawler4j/src/main/java/edu/uci/ics/crawler4j/url/URLCanonicalizer.java:243-244 | a '%' one or two characters from the end makes both sides fail |
| Canonicalizer.RewriteEncoderByte | crawler4j/src/main/java/edu/uci/ics/crawler4j/url/URLCanonicalizer.java:245-246 | the '+' and '*' rewrites turn the encoder's output for one byte into its RFC 3986 form, "%7E" aside |
| Canonicalizer.RewriteTildeToken | crawler4j/src/main/java/edu/uci/ics/crawler4j/url/URLCanonicalizer.java:246 | the "%7E" rewrite acts on one encoded byte at a time |
| Canonicalizer.ReplaceSkipsEscape | crawler4j/src/main/java/edu/uci/ics/crawler4j/url/URLCanonicalizer.java:246 | an escape other than "%7E" passes through the "%7E" rewrite unchanged |
| Canonicalizer.RewriteEncoderOutput | crawler4j/src/main/java/edu/uci/ics/crawler4j/url/URLCanonicalizer.java:245-246 | the three rewrites of the URL encoder's output give exactly the RFC 3986 encoding of the same bytes |
| Canonicalizer.PercentEncodeRfc3986 | crawler4j/src/main/java/edu/uci/ics/crawler4j/url/URLCanonicalizer.java:241-250 | `percentEncodeRfc3986` step by step, the catch returning the '+'-escaped text; no contract of its own, its meaning is stated by PercentEncodeMeaning |
| Canonicalizer.RewriteEncoded | crawler4j/src/main/java/edu/uci/ics/crawler4j/url/URLCanonicalizer.java:246 | the three replaces of the encoder's output; no contract of its own, stated by RewriteEncoderOutput |
| Canonicalizer.PercentEncodeMeaning | crawler4j/src/main/java/edu/uci/ics/crawler4j/url/URLCanonicalizer.java:241-250 | in UTF-8, `percentEncodeRfc3986` is the RFC 3986 encoding of the text read with '+' as a plus; in another charset, the encoder's output for that text with '+', '*' and "%7E" rewritten; text that does not decode comes back with '+' escaped |
| Canonicalizer.PercentEncodeIdempotent | crawler4j/src/main/java/edu/uci/ics/crawler4j/url/URLCanonicalizer.java:241-250 | encoding an encoded name or value again changes nothing (UTF-8) |
| Canonicalizer.KeyIndex | crawler4j/src/main/java/edu/uci/ics/crawler4j/url/URLCanonicalizer.java:156 | the position of a name in the insertion-ordered map, or -1 when it is absent |
| Canonicalizer.PairEntry | crawler4j/src/main/java/edu/uci/ics/crawler4j/url/URLCanonicalizer.java:167-181 | a pair with '=' is its name (free of '='), "=" and its value; a pair without '=' has an empty value |
| Canonicalizer.PairEntryOf | crawler4j/src/main/java/edu/uci/ics/crawler4j/url/URLCanonicalizer.java:167-181 | "k=v" with k free of '=' gives back (k, v) |
| Canonicalizer.KeysOf | crawler4j/src/main/java/edu/uci/ics/crawler4j/url/URLCanonicalizer.java:158-184 | the name each pair puts, pair by pair (none for an empty pair) |
| Canonicalizer.FirstKey | crawler4j/src/main/java/edu/uci/ics/crawler4j/url/URLCanonicalizer.java:158-184 | the first position holding a name, or -1 when none does |
| Canonicalizer.LastKey | crawler4j/src/main/java/edu/uci/ics/crawler4j/url/URLCanonicalizer.java:158-184 | the last position holding a name, or -1 when none does |
| Canonicalizer.FirstIndex | crawler4j/src/main/java/edu/uci/ics/crawler4j/url/URLCanonicalizer.java:158-184 | the first pair with that name, or -1 |
| Canonicalizer.LastIndex | crawler4j/src/main/java/edu/uci/ics/crawler4j/url/URLCanonicalizer.java:158-184 | the last pair with that name, or -1 |
| Canonicalizer.Put | crawler4j/src/main/java/edu/uci/ics/crawler4j/url/URLCanonicalizer.java:173-181 | `LinkedHashMap.put`: a new name goes to the end, an existing one keeps its place and takes the new value; no contract of its own, stated by PutKeys, PutEntry and PutDistinct |
| Canonicalizer.ParamsOf | crawler4j/src/main/java/edu/uci/ics/crawler4j/url/URLCanonicalizer.java:155-184 | the map after the pairs in order, empty pairs skipped; no contract of its own, stated by ParamsKeys, ParamsValues, ParamsOrder and ParamsDistinct |
| Canonicalizer.PutKeys | crawler4j/src/main/java/edu/uci/ics/crawler4j/url/URLCanonicalizer.java:176-181 | after `put`, a name is present exactly when it was put or was already there |
| Canonicalizer.PutEntry | crawler4j/src/main/java/edu/uci/ics/crawler4j/url/URLCanonicalizer.java:176-181 | `put` leaves the new entry under the put name, and every other entry where it was |
| Canonicalizer.PutDistinct | crawler4j/src/main/java/edu/uci/ics/crawler4j/url/URLCanonicalizer.java:176-181 | `put` keeps names distinct |
| Canonicalizer.ParamsDistinct | crawler4j/src/main/java/edu/uci/ics/crawler4j/url/URLCanonicalizer.java:147-187 | the parameter map holds each name once |
| Canonicalizer.ParameterMap | crawler4j/src/main/java/edu/uci/ics/crawler4j/url/URLCanonicalizer.java:147-187 | `createParameterMap`: None for a missing or empty query, else the insertion-ordered map of its '&'-pieces; no contract of its own, stated by ParamsKeys, ParamsValues, ParamsOrder and ParamsDistinct |
| Canonicalizer.ParamsKeys | crawler4j/src/main/java/edu/uci/ics/crawler4j/url/URLCanonicalizer.java:147-187 | the map holds exactly the names of the non-empty pairs |
| Canonicalizer.ParamsValues | crawler4j/src/main/java/edu/uci/ics/crawler4j/url/URLCanonicalizer.java:147-187 | each name maps to the value of the last pair with that name |
| Canonicalizer.ParamsOrder | crawler4j/src/main/java/edu/uci/ics/crawler4j/url/URLCanonicalizer.java:147-187 | names are ordered by their first pair |
| Canonicalizer.CreateParameterMap | crawler4j/src/main/java/edu/uci/ics/crawler4j/url/URLCanonicalizer.java:147-187 | the loop over the '&'-pieces builds the parameter map, whose keys, values and order the lemmas above give; none for a missing or empty query |
| Canonicalizer.WrittenConcat | crawler4j/src/main/java/edu/uci/ics/crawler4j/url/URLCanonicalizer.java:209-232 | writing out distributes over concatenation of maps |
| Canonicalizer.WrittenKeepsOrder | crawler4j/src/main/java/edu/uci/ics/crawler4j/url/URLCanonicalizer.java:209-232 | with nothing dropped, every entry is written, in map order |
| Canonicalizer.RenderedConcat | crawler4j/src/main/java/edu/uci/ics/crawler4j/url/URLCanonicalizer.java:209-232 | the same for the query's own rendering |
| Canonicalizer.IsSessionKey | crawler4j/src/main/java/edu/uci/ics/crawler4j/url/URLCanonicalizer.java:211-214 | "jsessionid", "phpsessid" or "aspsessionid" after lower-casing; no contract of its own, used by SessionParamDropped |
| Canonicalizer.RenderParam | crawler4j/src/main/java/edu/uci/ics/crawler4j/url/URLCanonicalizer.java:224-231 | one entry written: the encoded name, then "=" and the encoded value when the value is not empty; no contract of its own, used by RenderedKeepsOrder |
| Canonicalizer.Written | crawler4j/src/main/java/edu/uci/ics/crawler4j/url/URLCanonicalizer.java:209-232 | the entries in map order, the dropped ones left out and the rest written; no contract of its own, stated by WrittenConcat and WrittenKeepsOrder |
| Canonicalizer.Rendered | crawler4j/src/main/java/edu/uci/ics/crawler4j/url/URLCanonicalizer.java:209-232 | the written entries without the session parameters; no contract of its own, stated by RenderedConcat, SessionParamDropped and RenderedKeepsOrder |
| Canonicalizer.SessionParamDropped | crawler4j/src/main/java/edu/uci/ics/crawler4j/url/URLCanonicalizer.java:211-214 | a session parameter (any case) anywhere in the map has no effect on the query |
| Canonicalizer.RenderedKeepsOrder | crawler4j/src/main/java/edu/uci/ics/crawler4j/url/URLCanonicalizer.java:209-232 | without session parameters, each entry is written as encoded name, then "=" and the encoded value when there is one, in map order |
| Canonicalizer.QueryText | crawler4j/src/main/java/edu/uci/ics/crawler4j/url/URLCanonicalizer.java:199-235 | `canonicalize(params, charset)`: the written-out entries without session parameters, joined by '&'; no contract of its own, stated by SessionParamDropped and RenderedKeepsOrder |
| Canonicalizer.QueryPart | crawler4j/src/main/java/edu/uci/ics/crawler4j/url/URLCanonicalizer.java:97-107 | "?" and the canonical parameters, or "" when there is no map, an empty map or empty canonical text; no contract of its own, used by CanonicalShape |
| Canonicalizer.CanonicalizeQuery | crawler4j/src/main/java/edu/uci/ics/crawler4j/url/URLCanonicalizer.java:199-235 | the loop builds the written-out parameters joined by '&', with the dropping and order the lemmas above give |
| Canonicalizer.AuthorityHost | crawler4j/src/main/java/edu/uci/ics/crawler4j/url/URLCanonicalizer.java:128-130 | `java.net.URL` brackets a host holding ':' that is not yet bracketed; no contract of its own, part of ExternalForm |
| Canonicalizer.ExternalForm | crawler4j/src/main/java/edu/uci/ics/crawler4j/url/URLCanonicalizer.java:128-130 | `URL.toExternalForm` of the rebuilt URL: scheme, "://", host, ":" and the port when kept, path and query; no contract of its own, used by CanonicalURL |
| Canonicalizer.CanonicalFromParts | crawler4j/src/main/java/edu/uci/ics/crawler4j/url/URLCanonicalizer.java:65-130 | what getCanonicalURL builds from the parsed URL, None where it returns null; no contract of its own, stated by CanonicalShape and FragmentIgnored |
| Canonicalizer.CanonicalURL | crawler4j/src/main/java/edu/uci/ics/crawler4j/url/URLCanonicalizer.java:58-137 | `getCanonicalURL` as a value: None when resolving or parsing fails, else the external form of CanonicalFromParts; no contract of its own, the method GetCanonicalURL is proved equal to it |
| Canonicalizer.GetCanonicalURL | crawler4j/src/main/java/edu/uci/ics/crawler4j/url/URLCanonicalizer.java:58-137 | the method, with both path loops, returns the canonical URL whose shape CanonicalShape states, or null |
| Canonicalizer.GetCanonicalURLIn | crawler4j/src/main/java/edu/uci/ics/crawler4j/url/URLCanonicalizer.java:54-56 | the two-argument overload canonicalizes in UTF-8 |
| Canonicalizer.GetCanonicalURLOf | crawler4j/src/main/java/edu/uci/ics/crawler4j/url/URLCanonicalizer.java:50-52 | the one-argument overload has no context and uses UTF-8 |
| Canonicalizer.ReplaceKeepsNonEmpty | crawler4j/src/main/java/edu/uci/ics/crawler4j/url/URLCanonicalizer.java:237-239 | replacing with non-empty text never empties a path |
| Canonicalizer.CanonicalShape | crawler4j/src/main/java/edu/uci/ics/crawler4j/url/URLCanonicalizer.java:58-137 | null exactly when the host is empty or URI cannot parse the path; otherwise the lower-cased scheme and host, the port kept exactly when it is not the default, a non-empty path with no "//" and no space, and the query part built from the query |
| Canonicalizer.FragmentIgnored | crawler4j/src/main/java/edu/uci/ics/crawler4j/url/URLCanonicalizer.java:58-137 | the fragment has no effect on the canonical form |
| CanonicalizerExamples.Ascii | crawler4j/src/test/java/edu/uci/ics/crawler4j/tests/URLCanonicalizerTest.java:49-51 | ASCII text has one byte per character |
| CanonicalizerExamples.DecodeAscii | crawler4j/src/main/java/edu/uci/ics/crawler4j/url/URLCanonicalizer.java:244 | ASCII text without '%' decodes to its own bytes |
| CanonicalizerExamples.EncodePlain | crawler4j/src/main/java/edu/uci/ics/crawler4j/url/URLCanonicalizer.java:245-246 | unreserved text is its own encoding |
| CanonicalizerExamples.EncodeAround | crawler4j/src/main/java/edu/uci/ics/crawler4j/url/URLCanonicalizer.java:245-246 | plain text, then one byte encoded on its own, then the rest |
| CanonicalizerExamples.AsciiEncoded | crawler4j/src/main/java/edu/uci/ics/crawler4j/url/URLCanonicalizer.java:241-250 | ASCII text without '%' is encoded byte by byte |
| CanonicalizerExamples.FooBarBazEncoded | crawler4j/src/test/java/edu/uci/ics/crawler4j/tests/URLCanonicalizerTest.java:49-51 | the bytes of "foo/bar+baz" encode to "foo%2Fbar%2Bbaz" |
| CanonicalizerExamples.FooBarBazBytes | crawler4j/src/test/java/edu/uci/ics/crawler4j/tests/URLCanonicalizerTest.java:49-51 | the bytes of "foo/bar+baz" around its '/' and '+' |
| CanonicalizerExamples.SlashAndPlusEscaped | crawler4j/src/test/java/edu/uci/ics/crawler4j/tests/URLCanonicalizerTest.java:49-51 | "foo/bar+baz" is encoded as "foo%2Fbar%2Bbaz" |
| CanonicalizerExamples.PlainUnchanged | crawler4j/src/main/java/edu/uci/ics/crawler4j/url/URLCanonicalizer.java:241-250 | unreserved ASCII text is left as it is |
| CanonicalizerExamples.PlusEscaped | crawler4j/src/test/java/edu/uci/ics/crawler4j/tests/URLCanonicalizerTest.java:53-54 | "a+b" is encoded as "a%2Bb" |
| CanonicalizerExamples.SpaceEscaped | crawler4j/src/test/java/edu/uci/ics/crawler4j/tests/URLCanonicalizerTest.java:108-109 | "a b" is encoded as "a%20b" |
| CanonicalizerExamples.BrokenEscapeKept | crawler4j/src/test/java/edu/uci/ics/crawler4j/tests/URLCanonicalizerTest.java:111-113 | "100%" fails to decode and is kept as it is |
| CanonicalizerExamples.ParentsAboveRootDropped | crawler4j/src/test/java/edu/uci/ics/crawler4j/tests/URLCanonicalizerTest.java:95-96 | "/../../a.html" becomes "/a.html" |
| CanonicalizerExamples.RenderPlain | crawler4j/src/main/java/edu/uci/ics/crawler4j/url/URLCanonicalizer.java:224-228 | a plain name and value are written as "k" or "k=v" |
| CanonicalizerExamples.PlainPairsWritten | crawler4j/src/main/java/edu/uci/ics/crawler4j/url/URLCanonicalizer.java:224-228 | ("a","b"), ("","") and ("c","d") are written "a=b", "" and "c=d" |
| CanonicalizerExamples.NoSessionKeys | crawler4j/src/main/java/edu/uci/ics/crawler4j/url/URLCanonicalizer.java:211-214 | none of "a", "" and "c" is a session parameter |
| CanonicalizerExamples.PairsRenderedEach | crawler4j/src/main/java/edu/uci/ics/crawler4j/url/URLCanonicalizer.java:209-232 | the three entries are written one by one, in order |
| CanonicalizerExamples.PairsRendered | crawler4j/src/main/java/edu/uci/ics/crawler4j/url/URLCanonicalizer.java:209-232 | the written entries are ["a=b", "", "c=d"] |
| CanonicalizerExamples.ItemsJoined | crawler4j/src/main/java/edu/uci/ics/crawler4j/url/URLCanonicalizer.java:218-220 | an empty item after a non-empty one leaves "&&" |
| CanonicalizerExamples.EmptyPairWritten | crawler4j/src/main/java/edu/uci/ics/crawler4j/url/URLCanonicalizer.java:199-235 | the parameters that "a=b&=&c=d" puts, (a, b), ("", "") and (c, d), are written "a=b&&c=d": the bare "=" leaves an empty item |
| WebUrls.DomainStart | crawler4j/src/main/java/edu/uci/ics/crawler4j/url/WebURL.java:78 | two past the first "//", or 1 when there is none; no contract of its own, used by DecomposeDefined and NoSlashNoPath |
| WebUrls.DomainEnd | crawler4j/src/main/java/edu/uci/ics/crawler4j/url/WebURL.java:79-80 | the first '/' strictly after the start, else the length; no contract of its own, used by DecomposeDefined and PathPart |
| WebUrls.HostDomain | crawler4j/src/main/java/edu/uci/ics/crawler4j/url/WebURL.java:83-94 | the domain kept of a host: the host for at most two labels, else the last two labels, or three after a listed suffix; no contract of its own, stated by ShortHost and LongHost |
| WebUrls.HostSubDomain | crawler4j/src/main/java/edu/uci/ics/crawler4j/url/WebURL.java:95-104 | the leading labels joined by '.', leading empty labels leaving no '.'; no contract of its own, stated by LongHost and HostRoundTrip, and computed by SplitDomain |
| WebUrls.PathAfterHost | crawler4j/src/main/java/edu/uci/ics/crawler4j/url/WebURL.java:106-113 | the text after the host up to its first '?'; no contract of its own, stated by PathPart |
| WebUrls.Decompose | crawler4j/src/main/java/edu/uci/ics/crawler4j/url/WebURL.java:75-115 | `setURL`'s decomposition into domain, sub-domain and path, None where the substring throws; no contract of its own, stated by DecomposeDefined, ShortHost, LongHost, HostRoundTrip and PathPart |
| WebUrls.DecomposeDefined | crawler4j/src/main/java/edu/uci/ics/crawler4j/url/WebURL.java:75-115 | `setURL` throws only on the empty string; otherwise the host region ends at the end or at a '/' it does not contain |
| WebUrls.ShortHost | crawler4j/src/main/java/edu/uci/ics/crawler4j/url/WebURL.java:82-86 | a host of at most two labels is the domain, with no sub-domain |
| WebUrls.LongHost | crawler4j/src/main/java/edu/uci/ics/crawler4j/url/WebURL.java:84-104 | a longer host: the domain is the last two labels, or three when the last two are a listed suffix, and the sub-domain joins the labels before them |
| WebUrls.JoinAppend | crawler4j/src/main/java/edu/uci/ics/crawler4j/url/WebURL.java:84-104 | joining two non-empty runs of labels |
| WebUrls.SplitWithoutEmptyLabels | crawler4j/src/main/java/edu/uci/ics/crawler4j/url/WebURL.java:83 | with no empty label, `split` keeps every piece |
| WebUrls.HostRoundTrip | crawler4j/src/main/java/edu/uci/ics/crawler4j/url/WebURL.java:82-104 | for hosts without empty labels, sub-domain "." domain (or the domain alone) is the host |
| WebUrls.PathPart | crawler4j/src/main/java/edu/uci/ics/crawler4j/url/WebURL.java:106-113 | the path is what follows the host up to its first '?', and contains no '?' |
| WebUrls.NoSlashNoPath | crawler4j/src/main/java/edu/uci/ics/crawler4j/url/WebURL.java:78-81 | with no '/' after the domain start the path is empty |
| WebUrls.Int32 | crawler4j/src/main/java/edu/uci/ics/crawler4j/url/WebURL.java:231-234 | the wrap-around lies in int range |
| WebUrls.CharUnits | crawler4j/src/main/java/edu/uci/ics/crawler4j/url/WebURL.java:231-234 | a character below U+10000 is one code unit; any other is a high and a low surrogate from which it comes back |
| WebUrls.Utf16 | crawler4j/src/main/java/edu/uci/ics/crawler4j/url/WebURL.java:231-234 | a string has between one and two code units per character |
| WebUrls.UnitsHash | crawler4j/src/main/java/edu/uci/ics/crawler4j/url/WebURL.java:231-234 | the int hash of code units lies in int range |
| WebUrls.StringHash | crawler4j/src/main/java/edu/uci/ics/crawler4j/url/WebURL.java:231-234 | `String.hashCode` of the UTF-16 code units lies in int range |
| WebUrls.Int32Step | crawler4j/src/main/java/edu/uci/ics/crawler4j/url/WebURL.java:231-234 | wrapping at each step or only at the end gives the same hash |
| WebUrls.ModShift | crawler4j/src/main/java/edu/uci/ics/crawler4j/url/WebURL.java:231-234 | shifting by a multiple of 2^32 keeps the remainder |
| WebUrls.StringHashIsPolyHash | crawler4j/src/main/java/edu/uci/ics/crawler4j/url/WebURL.java:231-234 | the hash is the polynomial hash of the string's UTF-16 code units modulo 2^32, as a signed value |
| WebUrls.UnitsHashIsPolyHash | crawler4j/src/main/java/edu/uci/ics/crawler4j/url/WebURL.java:231-234 | the hash of code units is their polynomial hash modulo 2^32, as a signed value |
| WebUrls.SupplementaryHash | crawler4j/src/main/java/edu/uci/ics/crawler4j/url/WebURL.java:231-234 | U+1F600 is hashed as its surrogates D83D DE00, giving 1772899 |
| WebUrls.Int32InRange | crawler4j/src/main/java/edu/uci/ics/crawler4j/url/WebURL.java:231-234 | a value already in int range is not changed by the wrap-around |
| WebUrls.Utf16Pair | crawler4j/src/main/java/edu/uci/ics/crawler4j/url/WebURL.java:231-234 | two characters below U+10000 are two code units |
| WebUrls.UnitsHashPair | crawler4j/src/main/java/edu/uci/ics/crawler4j/url/WebURL.java:231-234 | the hash of two code units a, b is the int value of 31·a + b |
| WebUrls.HashCollision | crawler4j/src/main/java/edu/uci/ics/crawler4j/url/WebURL.java:231-248 | "Aa" and "BB" hash alike but are different URLs: hashing does not decide equality |
| WebUrls.SplitDomain | crawler4j/src/main/java/edu/uci/ics/crawler4j/url/WebURL.java:83-104 | the label loops compute the domain and sub-domain that ShortHost, LongHost and HostRoundTrip describe |
| WebUrls.WebURL.constructor | crawler4j/src/main/java/edu/uci/ics/crawler4j/url/WebURL.java:41-53 | every field starts null |
| WebUrls.WebURL.SetURL | crawler4j/src/main/java/edu/uci/ics/crawler4j/url/WebURL.java:75-115 | the URL is stored; domain, sub-domain and path are set from the decomposition, or left as they were when it throws |
| WebUrls.WebURL.GetAttribute | crawler4j/src/main/java/edu/uci/ics/crawler4j/url/WebURL.java:224-229 | the attribute's value, or "" when there is no map or no such name |
| WebUrls.WebURL.HashCode | crawler4j/src/main/java/edu/uci/ics/crawler4j/url/WebURL.java:231-234 | `hashCode`: None exactly where a null URL makes it throw `NullPointerException`, otherwise the String hash of the URL (StringHash, whose meaning StringHashIsPolyHash states), in int range |
| WebUrls.WebURL.Equals | crawler4j/src/main/java/edu/uci/ics/crawler4j/url/WebURL.java:236-248 | `equals`: the same object, or another WebURL with the same non-null URL; no contract of its own, stated by EqualsByUrl and EqualsAgreesWithHash |
| WebUrls.EqualsByUrl | crawler4j/src/main/java/edu/uci/ics/crawler4j/url/WebURL.java:236-248 | `equals` is reflexive; for distinct objects it holds exactly when both URLs are the same non-null string; it is symmetric where the URL is set |
| WebUrls.EqualsAgreesWithHash | crawler4j/src/main/java/edu/uci/ics/crawler4j/url/WebURL.java:231-248 | equal objects have equal hashes (both throw or both give the same value), and an object with a URL hashes to the String hash of it |
| PathRules.TokensText | crawler4j/src/main/java/edu/uci/ics/crawler4j/robotstxt/PathRule.java:37-133 | the tokens' texts one after another; no contract of its own, stated by TokensTextConcat |
| PathRules.Terminated | crawler4j/src/main/java/edu/uci/ics/crawler4j/robotstxt/PathRule.java:81-106 | a final '*' or '$' ends the pattern, so no ".*" follows; no contract of its own, stated by TerminatedCons and FlushEnds |
| PathRules.Regex | crawler4j/src/main/java/edu/uci/ics/crawler4j/robotstxt/PathRule.java:37-133 | the expression text: '^' then each token's text (`\Q…\E`, ".+", ".*", "$"); no contract of its own, stated by TokensTextConcat and the PathRuleTest lemmas |
| PathRules.Lex | crawler4j/src/main/java/edu/uci/ics/crawler4j/robotstxt/PathRule.java:52-111 | the units the scan reads: `\*` a literal '*', another backslash itself, '*' a wildcard, a final '$' the anchor; no contract of its own, stated by LexLiteral, LexWild and LexPlain |
| PathRules.Group | crawler4j/src/main/java/edu/uci/ics/crawler4j/robotstxt/PathRule.java:107-120 | runs of literal units become one quoted literal, the others their own token; no contract of its own, stated by GroupChars and GroupFlush |
| PathRules.Compile | crawler4j/src/main/java/edu/uci/ics/crawler4j/robotstxt/PathRule.java:34-134 | `robotsPatternToRegexp` as a value: "^$" for the empty pattern, else the grouped units and ".*" unless terminated; the scan RobotsPatternToRegexp is proved equal to it |
| PathRules.GroupChars | crawler4j/src/main/java/edu/uci/ics/crawler4j/robotstxt/PathRule.java:107-120 | literal characters before a non-literal unit form one quoted literal |
| PathRules.GroupCharsCons | crawler4j/src/main/java/edu/uci/ics/crawler4j/robotstxt/PathRule.java:107-111 | one more literal character joins the quoted literal |
| PathRules.LexLiteral | crawler4j/src/main/java/edu/uci/ics/crawler4j/robotstxt/PathRule.java:56-68 | reading a literal character (an escaped '*', a lone backslash, or another character) |
| PathRules.LexWild | crawler4j/src/main/java/edu/uci/ics/crawler4j/robotstxt/PathRule.java:69-106 | reading a wildcard or the final anchor |
| PathRules.GroupFlush | crawler4j/src/main/java/edu/uci/ics/crawler4j/robotstxt/PathRule.java:114-120 | flushing the quote buffer before a wildcard or anchor |
| PathRules.TerminatedCons | crawler4j/src/main/java/edu/uci/ics/crawler4j/robotstxt/PathRule.java:81-106 | only the last unit decides whether the pattern is terminated |
| PathRules.LiteralStep | crawler4j/src/main/java/edu/uci/ics/crawler4j/robotstxt/PathRule.java:107-111 | a literal step keeps the scan invariant |
| PathRules.FlushGroups | crawler4j/src/main/java/edu/uci/ics/crawler4j/robotstxt/PathRule.java:114-120 | a flush keeps the grouping of the whole pattern |
| PathRules.FlushEnds | crawler4j/src/main/java/edu/uci/ics/crawler4j/robotstxt/PathRule.java:81-106 | a final '*' or '$' is the last character and terminates the pattern |
| PathRules.FlushStep | crawler4j/src/main/java/edu/uci/ics/crawler4j/robotstxt/PathRule.java:69-106 | a wildcard or anchor step keeps the scan invariant |
| PathRules.ScanStart | crawler4j/src/main/java/edu/uci/ics/crawler4j/robotstxt/PathRule.java:48-52 | the invariant holds before the scan |
| PathRules.ScanEnd | crawler4j/src/main/java/edu/uci/ics/crawler4j/robotstxt/PathRule.java:114-126 | after the scan, the last literal and ".*" (unless terminated) complete the compiled pattern |
| PathRules.FlushQuote | crawler4j/src/main/java/edu/uci/ics/crawler4j/robotstxt/PathRule.java:114-120 | a non-empty quote buffer becomes one quoted literal |
| PathRules.RobotsPatternToRegexp | crawler4j/src/main/java/edu/uci/ics/crawler4j/robotstxt/PathRule.java:34-134 | the one-pass scan builds the compiled pattern, whose meaning CompiledMatchesRule states |
| PathRules.LexHeadE | crawler4j/src/main/java/edu/uci/ics/crawler4j/robotstxt/PathRule.java:52-111 | a literal 'E' unit is read from an 'E' of the pattern |
| PathRules.NoQuoteEndItemsCons | crawler4j/src/main/java/edu/uci/ics/crawler4j/robotstxt/PathRule.java:52-111 | a unit in front of units without a backslash-'E' pair adds one only as a backslash before an 'E' |
| PathRules.LexNoQuoteEnd | crawler4j/src/main/java/edu/uci/ics/crawler4j/robotstxt/PathRule.java:52-111 | a pattern without a backslash followed by 'E' reads to units without that pair |
| PathRules.GroupHead | crawler4j/src/main/java/edu/uci/ics/crawler4j/robotstxt/PathRule.java:107-120 | a leading literal starts with the first unit's character |
| PathRules.GroupNoQuoteEnd | crawler4j/src/main/java/edu/uci/ics/crawler4j/robotstxt/PathRule.java:107-120 | grouping such units yields literals without a backslash-'E' pair |
| PathRules.QuotedLiteralsIntact | crawler4j/src/main/java/edu/uci/ics/crawler4j/robotstxt/PathRule.java:34-134 | for a pattern without a backslash followed by 'E', no compiled literal contains "\E", so each `\Q...\E` quotes exactly its literal |
| PathRules.QuoteEndTokens | crawler4j/src/main/java/edu/uci/ics/crawler4j/robotstxt/PathRule.java:34-134 | "/a\E" compiles to the literal "/a\E" and ".*" |
| PathRules.QuoteEndInLiteral | crawler4j/src/main/java/edu/uci/ics/crawler4j/robotstxt/PathRule.java:34-134 | the expression text of "/a\E" is `^\Q/a\E\E.*`, whose quote ends early |
| PathRules.TokensMatch | crawler4j/src/main/java/edu/uci/ics/crawler4j/robotstxt/PathRule.java:164-166 | `Matcher.matches()` of the compiled tokens over the whole path, '.' not matching line terminators; no contract of its own, stated by CompiledMatchesRule |
| PathRules.ItemsMatch | crawler4j/src/main/java/edu/uci/ics/crawler4j/robotstxt/PathRule.java:20-30 | the robots.txt reading of the units, independent of regular expressions: '*' any sequence, the final '$' the end; no contract of its own, the reference of GroupMatch |
| PathRules.RuleMatches | crawler4j/src/main/java/edu/uci/ics/crawler4j/robotstxt/PathRule.java:20-30 | whether a robots.txt pattern matches a path, the empty pattern only the empty path; no contract of its own, the reference of CompiledMatchesRule |
| PathRules.StarMatch | crawler4j/src/main/java/edu/uci/ics/crawler4j/robotstxt/PathRule.java:86-89 | ".*" covers some run, then the rest matches |
| PathRules.PlusMatch | crawler4j/src/main/java/edu/uci/ics/crawler4j/robotstxt/PathRule.java:86-89 | ".+" covers some non-empty run, then the rest matches |
| PathRules.TrailingStar | crawler4j/src/main/java/edu/uci/ics/crawler4j/robotstxt/PathRule.java:124-126 | the implicit ".*" matches exactly the runs |
| PathRules.LiteralCons | crawler4j/src/main/java/edu/uci/ics/crawler4j/robotstxt/PathRule.java:107-120 | a quoted literal is matched one character at a time |
| PathRules.GroupMatch | crawler4j/src/main/java/edu/uci/ics/crawler4j/robotstxt/PathRule.java:52-126 | the tokens of the units, with the implicit ".*" when open, match exactly what the robots.txt reading of the units matches |
| PathRules.GroupMatchChar | crawler4j/src/main/java/edu/uci/ics/crawler4j/robotstxt/PathRule.java:107-120 | the same for units that start with a literal |
| PathRules.GroupMatchStar | crawler4j/src/main/java/edu/uci/ics/crawler4j/robotstxt/PathRule.java:69-90 | the same for units that start with a wildcard |
| PathRules.CompiledMatchesRule | crawler4j/src/main/java/edu/uci/ics/crawler4j/robotstxt/PathRule.java:34-145 | matching a path against the compiled pattern is the robots.txt reading of the pattern |
| PathRules.TerminalUnitsLast | crawler4j/src/main/java/edu/uci/ics/crawler4j/robotstxt/PathRule.java:81-106 | a final '*' and the anchor occur only as the last unit |
| PathRules.LexPlain | crawler4j/src/main/java/edu/uci/ics/crawler4j/robotstxt/PathRule.java:91-111 | characters other than '*', '\\' and a final '$' are literals; a '$' that is not last is literal |
| PathRules.CharsThen | crawler4j/src/main/java/edu/uci/ics/crawler4j/robotstxt/PathRule.java:107-111 | literal units match their characters in order at the start of the path |
| PathRules.PlainPatternIsPrefix | crawler4j/src/main/java/edu/uci/ics/crawler4j/robotstxt/PathRule.java:34-134 | a pattern without special characters matches, case-sensitively, exactly the paths that start with it followed by any run |
| PathRules.FinalStarIsPrefix | crawler4j/src/main/java/edu/uci/ics/crawler4j/robotstxt/PathRule.java:81-85 | a final '*' means the same as leaving it out |
| PathRules.FinalDollarIsExact | crawler4j/src/main/java/edu/uci/ics/crawler4j/robotstxt/PathRule.java:91-106 | a final '$' makes the rule match only that exact path |
| PathRules.OpenItemsExtend | crawler4j/src/main/java/edu/uci/ics/crawler4j/robotstxt/PathRule.java:124-126 | units without an anchor, matched open, go on matching with a run appended |
| PathRules.OpenRuleExtends | crawler4j/src/main/java/edu/uci/ics/crawler4j/robotstxt/PathRule.java:124-126 | an unterminated rule is a prefix rule: what it matches it still matches with any run appended |
| PathRules.EmptyPatternMatchesOnlyEmpty | crawler4j/src/main/java/edu/uci/ics/crawler4j/robotstxt/PathRule.java:43-46 | the empty pattern matches only the empty path |
| PathRules.PathRule.constructor | crawler4j/src/main/java/edu/uci/ics/crawler4j/robotstxt/PathRule.java:153-156 | the rule keeps its type and the compiled pattern of its text |
| PathRules.PathRule.Matches | crawler4j/src/main/java/edu/uci/ics/crawler4j/robotstxt/PathRule.java:164-166 | the rule matches a path exactly as the robots.txt reading of its pattern does |
| PathRules.MatchesRobotsPattern | crawler4j/src/main/java/edu/uci/ics/crawler4j/robotstxt/PathRule.java:143-145 | compiling and matching is the robots.txt reading of the pattern |
| PathRules.TokensTextConcat | crawler4j/src/main/java/edu/uci/ics/crawler4j/robotstxt/PathRule.java:52-133 | the text of consecutive tokens is the concatenation of their texts |
| PathRules.GifUnits | crawler4j/src/test/java/edu/uci/ics/crawler4j/tests/PathRuleTest.java:14-16 | "/*.gif$" reads as '/', a wildcard, ".gif" and the anchor |
| PathRules.GifGroups | crawler4j/src/test/java/edu/uci/ics/crawler4j/tests/PathRuleTest.java:14-16 | those units group to a literal, ".+", a literal and "$", terminated |
| PathRules.GifTokens | crawler4j/src/test/java/edu/uci/ics/crawler4j/tests/PathRuleTest.java:14-16 | the tokens of "/*.gif$" |
| PathRules.GifText | crawler4j/src/test/java/edu/uci/ics/crawler4j/tests/PathRuleTest.java:14-16 | the text of those tokens |
| PathRules.GifPattern | crawler4j/src/test/java/edu/uci/ics/crawler4j/tests/PathRuleTest.java:14-16 | "/*.gif$" compiles to "^\Q/\E.+\Q.gif\E$" |
| PathRules.EmptyPattern | crawler4j/src/test/java/edu/uci/ics/crawler4j/tests/PathRuleTest.java:24-26 | "" compiles to "^$" |
| PathRules.EscapedStarTokens | crawler4j/src/test/java/edu/uci/ics/crawler4j/tests/PathRuleTest.java:34-36 | "\*.htm" gives a literal "*.htm" and ".*" |
| PathRules.EscapedStarPattern | crawler4j/src/test/java/edu/uci/ics/crawler4j/tests/PathRuleTest.java:34-36 | "\*.htm" compiles to "^\Q*.htm\E.*" |
| PathRules.FinalStarTokens | crawler4j/src/test/java/edu/uci/ics/crawler4j/tests/PathRuleTest.java:44-46 | "/fish*" gives a literal "/fish" and ".*" |
| PathRules.FinalStarPattern | crawler4j/src/test/java/edu/uci/ics/crawler4j/tests/PathRuleTest.java:44-46 | "/fish*" compiles to "^\Q/fish\E.*" |
| PathRules.LoneBackslashTokens | crawler4j/src/test/java/edu/uci/ics/crawler4j/tests/PathRuleTest.java:54-56 | a lone backslash is a literal, followed by ".*" |
| PathRules.LoneBackslashPattern | crawler4j/src/test/java/edu/uci/ics/crawler4j/tests/PathRuleTest.java:54-56 | "\" compiles to "^\Q\\E.*" |
| PathRules.FishIsAnchored | crawler4j/src/main/java/edu/uci/ics/crawler4j/robotstxt/PathRule.java:143-145 | "/fish" matches "/fish.html" but neither "/Fish.html" nor "/a/fish" |
| Pages.Concat | crawler4j/src/main/java/edu/uci/ics/crawler4j/crawler/Page.java:158-174 | the body bytes the reads return, in order; no contract of its own, stated by ConcatSnoc and ConcatPrefix |
| Pages.Overflows | crawler4j/src/main/java/edu/uci/ics/crawler4j/crawler/Page.java:160-162 | the body is longer than a positive maxBytes, which sets `truncated`; no contract of its own, used by BoundedRead |
| Pages.ConcatSnoc | crawler4j/src/main/java/edu/uci/ics/crawler4j/crawler/Page.java:158-174 | the body up to chunk i + 1 is the body up to i and chunk i |
| Pages.ConcatPrefix | crawler4j/src/main/java/edu/uci/ics/crawler4j/crawler/Page.java:158-174 | the bytes of the first chunks come first in the body |
| Pages.Cap | crawler4j/src/main/java/edu/uci/ics/crawler4j/crawler/Page.java:158-174 | a prefix of the body, at most maxBytes long when maxBytes is positive, shorter than the body exactly when a positive maxBytes is exceeded |
| Pages.BoundedRead | crawler4j/src/main/java/edu/uci/ics/crawler4j/crawler/Page.java:153-176 | what is read is a prefix of the body; on a page not yet truncated it is the whole body unless it overflows, and then exactly maxBytes long |
| Pages.InitialCapacity | crawler4j/src/main/java/edu/uci/ics/crawler4j/crawler/Page.java:138-153 | the capacity is the smaller of maxBytes and the int cast of the announced length (4096 when that is not positive); negative exactly when maxBytes is |
| Pages.CapAtOverflow | crawler4j/src/main/java/edu/uci/ics/crawler4j/crawler/Page.java:160-167 | a chunk that overflows keeps the bytes before it and exactly as many of its own as fit |
| Pages.ByteArrayBuffer.Contents | crawler4j/src/main/java/edu/uci/ics/crawler4j/crawler/Page.java:153 | the bytes appended so far, as many as the buffer's length |
| Pages.ByteArrayBuffer.constructor | crawler4j/src/main/java/edu/uci/ics/crawler4j/crawler/Page.java:153 | an empty buffer of the given capacity |
| Pages.ByteArrayBuffer.Expand | crawler4j/src/main/java/edu/uci/ics/crawler4j/crawler/Page.java:167 | a fresh array of twice the capacity, or the needed length when more, with the same contents |
| Pages.ByteArrayBuffer.Append | crawler4j/src/main/java/edu/uci/ics/crawler4j/crawler/Page.java:167 | the bytes go after the contents; the array grows only when they do not fit |
| Pages.Page.constructor | crawler4j/src/main/java/edu/uci/ics/crawler4j/crawler/Page.java:111-113 | a page for a URL with no content and not truncated |
| Pages.Page.ToByteArray | crawler4j/src/main/java/edu/uci/ics/crawler4j/crawler/Page.java:128-178 | no entity gives no bytes; a negative maxBytes fails; otherwise the bounded read of the body, and the page becomes truncated exactly when it overflows (and stays so) |
| Pages.Page.Load | crawler4j/src/main/java/edu/uci/ics/crawler4j/crawler/Page.java:190-227 | content type and encoding from the headers, the charset's name (UTF-8 when it cannot be determined), then the bounded body |
| Pages.TruncatedPageReadsOneChunk | crawler4j/src/main/java/edu/uci/ics/crawler4j/crawler/Page.java:158-174 | on a page already truncated only the first chunk of a later body is read |
| Fetcher.IsRedirect | crawler4j/src/main/java/edu/uci/ics/crawler4j/fetcher/PageFetcher.java:317-322 | the statuses fetchPage treats as redirects; no contract of its own, stated by RedirectStatuses |
| Fetcher.RedirectStatuses | crawler4j/src/main/java/edu/uci/ics/crawler4j/fetcher/PageFetcher.java:317-322 | the redirect statuses are the 3xx codes up to 308 other than 304, 305 and 306, and none is a success |
| Fetcher.Named | crawler4j/src/main/java/edu/uci/ics/crawler4j/fetcher/PageFetcher.java:325 | header names compare ignoring case; no contract of its own, used by FirstHeaderIndex, LastHeaderIndex and LengthFallbackFindsNothingNew |
| Fetcher.HeaderValue | crawler4j/src/main/java/edu/uci/ics/crawler4j/fetcher/PageFetcher.java:325 | the value of the header found, or None when there is none; no contract of its own, part of FirstHeader and LastHeader |
| Fetcher.FirstHeaderIndex | crawler4j/src/main/java/edu/uci/ics/crawler4j/fetcher/PageFetcher.java:325 | the first header with that name in any case, or -1 |
| Fetcher.LastHeaderIndex | crawler4j/src/main/java/edu/uci/ics/crawler4j/fetcher/PageFetcher.java:354-368 | the last header with that name in any case, or -1 |
| Fetcher.FirstHeader | crawler4j/src/main/java/edu/uci/ics/crawler4j/fetcher/PageFetcher.java:325 | `getFirstHeader`'s value, or None; no contract of its own, its index is stated by FirstHeaderIndex |
| Fetcher.LastHeader | crawler4j/src/main/java/edu/uci/ics/crawler4j/fetcher/PageFetcher.java:356-359 | `getLastHeader`'s value, or None; no contract of its own, its index is stated by LastHeaderIndex |
| Fetcher.LengthFallbackFindsNothingNew | crawler4j/src/main/java/edu/uci/ics/crawler4j/fetcher/PageFetcher.java:354-368 | the "Content-length" lookup finds exactly what the "Content-Length" lookup found |
| Fetcher.ParseInt | crawler4j/src/main/java/edu/uci/ics/crawler4j/fetcher/PageFetcher.java:365 | a parsed value lies in int range and comes from text that is more than a lone sign |
| Fetcher.DigitsOfNat | crawler4j/src/main/java/edu/uci/ics/crawler4j/fetcher/PageFetcher.java:365 | the decimal text of n is all digits and denotes n |
| Fetcher.ParseIntRoundTrip | crawler4j/src/main/java/edu/uci/ics/crawler4j/fetcher/PageFetcher.java:365 | `Integer.parseInt` reads back what `Integer.toString` writes, for either sign |
| Fetcher.ParseDigits | crawler4j/src/main/java/edu/uci/ics/crawler4j/fetcher/PageFetcher.java:365 | the non-negative half of the round trip |
| Fetcher.ParseNegated | crawler4j/src/main/java/edu/uci/ics/crawler4j/fetcher/PageFetcher.java:365 | the negative half of the round trip |
| Fetcher.DownloadSize | crawler4j/src/main/java/edu/uci/ics/crawler4j/fetcher/PageFetcher.java:350-370 | the size fetchPage checks: the content length, else the parsed last length header, -1 when there is none, None when it does not parse; no contract of its own, stated by DownloadSizeMeaning and computed by ReadSize |
| Fetcher.DownloadSizeMeaning | crawler4j/src/main/java/edu/uci/ics/crawler4j/fetcher/PageFetcher.java:350-370 | the size is the announced length, else the parsed last Content-Length header (any case), and -1 only when neither exists |
| Fetcher.NextStamp | crawler4j/src/main/java/edu/uci/ics/crawler4j/fetcher/PageFetcher.java:292-307 | the new stamp is at least the old one plus the delay and at least the clock; without waiting it is the current time |
| Fetcher.ReadSize | crawler4j/src/main/java/edu/uci/ics/crawler4j/fetcher/PageFetcher.java:350-370 | the size computation returns what DownloadSizeMeaning describes |
| Fetcher.PageFetcher.constructor | crawler4j/src/main/java/edu/uci/ics/crawler4j/fetcher/PageFetcher.java:89-97 | no fetch yet: the last fetch time is 0 |
| Fetcher.PageFetcher.Wait | crawler4j/src/main/java/edu/uci/ics/crawler4j/fetcher/PageFetcher.java:292-307 | the stamp becomes the clock after sleeping out the rest of the delay |
| Fetcher.PageFetcher.FetchPage | crawler4j/src/main/java/edu/uci/ics/crawler4j/fetcher/PageFetcher.java:283-402 | politeness stamp; failures; redirects carry the canonical Location resolved against the URL; other non-2xx statuses record nothing more; 2xx records the fetched URL and enforces the size limit; the request is aborted exactly when there is no entity |
| Fetcher.PolitenessSpacing | crawler4j/src/main/java/edu/uci/ics/crawler4j/fetcher/PageFetcher.java:292-307 | two successive polite fetches leave stamps at least the delay apart, for a clock that does not run backwards across the sleep |
| Parsers.Blank | crawler4j/src/main/java/edu/uci/ics/crawler4j/parser/Parser.java:172-177 | a null href or one that is empty once trimmed; no contract of its own, stated by FilteredHrefs |
| Parsers.Passes | crawler4j/src/main/java/edu/uci/ics/crawler4j/parser/Parser.java:172-182 | an anchor that is neither blank nor unfollowable reaches the canonicalizer; no contract of its own, stated by FilteredHrefs and AnyPassesMeaning |
| Parsers.Unfollowable | crawler4j/src/main/java/edu/uci/ics/crawler4j/parser/Parser.java:179-181 | hrefs holding "javascript:", "mailto:" or '@' once trimmed and lower-cased; no contract of its own, stated by FilteredHrefs |
| Parsers.HrefCharset | crawler4j/src/main/java/edu/uci/ics/crawler4j/parser/Parser.java:184-185 | UTF-8 when the page has no or an empty charset, else `Charset.forName`'s outcome; no contract of its own, used by FollowAnchor |
| Parsers.FollowedUrl | crawler4j/src/main/java/edu/uci/ics/crawler4j/parser/Parser.java:171-186 | the canonical URL an anchor contributes when it passes the filters; no contract of its own, stated by CandidateAt and FilteredHrefs |
| Parsers.Collect | crawler4j/src/main/java/edu/uci/ics/crawler4j/parser/Parser.java:168-208 | the link loop as a value: the first anchor per URL, every add counted, stopping once the count exceeds the cap; no contract of its own, stated by CollectSound, CollectComplete and CollectBound |
| Parsers.AnyMeaning | crawler4j/src/main/java/edu/uci/ics/crawler4j/parser/Parser.java:168-208 | searching from the back finds an element exactly when one exists |
| Parsers.AnyPassesMeaning | crawler4j/src/main/java/edu/uci/ics/crawler4j/parser/Parser.java:168-208 | some anchor reaches the canonicalizer exactly when one exists that does |
| Parsers.AnyPassesStep | crawler4j/src/main/java/edu/uci/ics/crawler4j/parser/Parser.java:168-208 | one more anchor adds its own test |
| Parsers.PassingAnchor | crawler4j/src/main/java/edu/uci/ics/crawler4j/parser/Parser.java:184-185 | an anchor that reaches the charset lookup makes some anchor pass |
| Parsers.Candidates | crawler4j/src/main/java/edu/uci/ics/crawler4j/parser/Parser.java:168-208 | one contribution per anchor |
| Parsers.CandidateAt | crawler4j/src/main/java/edu/uci/ics/crawler4j/parser/Parser.java:168-208 | the i-th contribution is the i-th anchor's canonical URL, if it is followed |
| Parsers.CollectBound | crawler4j/src/main/java/edu/uci/ics/crawler4j/parser/Parser.java:189-198 | never more than maxOutgoingLinksToFollow + 1 links (one when the cap is negative) |
| Parsers.CollectKeeps | crawler4j/src/main/java/edu/uci/ics/crawler4j/parser/Parser.java:189-198 | a link already collected stays, with its first anchor |
| Parsers.FirstWithShift | crawler4j/src/main/java/edu/uci/ics/crawler4j/parser/Parser.java:189-198 | the first anchor giving a URL, seen from one anchor earlier |
| Parsers.CollectSound | crawler4j/src/main/java/edu/uci/ics/crawler4j/parser/Parser.java:168-208 | every new link is the canonical URL of a followed anchor and carries the first such anchor |
| Parsers.CollectComplete | crawler4j/src/main/java/edu/uci/ics/crawler4j/parser/Parser.java:168-208 | below the cap no contributed URL is lost |
| Parsers.FilteredHrefs | crawler4j/src/main/java/edu/uci/ics/crawler4j/parser/Parser.java:171-187 | blank hrefs and those naming "javascript:", "mailto:" or holding '@', in any case, give no link; the rest give their canonical URL |
| Parsers.CollectTurn | crawler4j/src/main/java/edu/uci/ics/crawler4j/parser/Parser.java:189-198 | one turn of the link loop, in terms of the state after it |
| Parsers.CollectStep | crawler4j/src/main/java/edu/uci/ics/crawler4j/parser/Parser.java:189-198 | one turn of the link loop: a new URL is added with its anchor, every add counts, and the loop stops once the count passes the cap |
| Parsers.FollowAnchor | crawler4j/src/main/java/edu/uci/ics/crawler4j/parser/Parser.java:170-187 | fails exactly when the anchor passes the filter and the charset is unknown; otherwise its canonical URL, if followed |
| Parsers.CollectLinks | crawler4j/src/main/java/edu/uci/ics/crawler4j/parser/Parser.java:158-209 | the loop fails exactly when the charset is unknown and some anchor needs it; otherwise it builds the links that CollectSound, CollectComplete and CollectBound describe |
| Parsers.Parser.constructor | crawler4j/src/main/java/edu/uci/ics/crawler4j/parser/Parser.java:62-67 | the parser keeps its configuration |
| Parsers.Parser.Parse | crawler4j/src/main/java/edu/uci/ics/crawler4j/parser/Parser.java:82-229 | binary content refused or passed through; text decoded in the page's charset; HTML: charset, trimmed text, title, language, collected links, decoded html, and each failure leaving the parse data as it was |

## Left out

- Coverage instrumentation (the `coverage` arrays and `createFile`) does not affect results and is
  not modelled.
- `PageFetcher` setup: the HTTP client, the connection pool, proxy, credentials, form login and
  `shutDown`. These are configuration of a library, and their tests check only stored settings.
- Concurrency. The politeness block's `synchronized` and `Thread.sleep` are modelled as one
  sequential step. The clock is modelled by `now` and `overshoot` parameters. Because `overshoot` is
  a `nat`, the reading after `Thread.sleep` is at least the reading before it plus the sleep: the
  model assumes a clock that does not run backwards, whereas `new Date().getTime()` is a wall
  clock that can step back, and then two stamps can be closer than the delay.
- `java.net.URL`/`URI` parsing, `UrlResolver.resolveUrl` and `URI.normalize` are given functions of
  `Canonicalizer.UrlLibrary`. The model states what the canonicalizer does with their results.
- Canonicalizer.PercentEncodeRfc3986: decoded text is kept as bytes. For an escape sequence that
  is not valid UTF-8, the model re-encodes the original bytes, whereas Java substitutes U+FFFD.
  Charsets other than UTF-8 go through the given `urlEncode` function, since `URLEncoder` decides
  character by character which bytes of such a charset to escape.
- Canonicalizer.PercentEncodeMeaning: for a charset other than UTF-8 it states the result in terms of
  the given `urlEncode` function, not as an RFC 3986 encoding of concrete bytes.
- Percent.EscapeValue: only ASCII hex digits are accepted. `URLDecoder` uses `Character.digit`,
  which also accepts other Unicode decimal digits and the fullwidth letters A-F and a-f
  (U+FF21-FF26, U+FF41-FF46): '%' followed by two U+0663 (ARABIC-INDIC DIGIT THREE) decodes to 0x33
  in Java and fails in the model.
- Percent.IsHexDigit: ASCII hex digits only, for the same reason.
- Strings.ToLower: only ASCII letters are case-mapped. `String.toLowerCase` and
  `Character.toLowerCase` also map other Unicode letters, and the first depends on the locale.
- The TLD list (`TLDList`) is a parameter: a set of two-label suffixes.
- `Util.hasBinaryContent`, `Util.hasPlainTextContent`, `Net.extractUrls`, charset decoding
  (`new String`), the Tika HTML parser with its content handler, and `LanguageIdentifier` are given
  functions of `Parsers.ParserLibrary`.
- `ContentType.getOrDefault(...).getCharset()` is given as its outcome (`Pages.CharsetLookup`).
- The Java regular-expression engine is replaced by a matcher over the compiled tokens. The
  expression text itself is modelled and proved equal to the expression texts that PathRuleTest
  expects.
- PathRules.RobotsPatternToRegexp: for a pattern with a backslash followed by 'E', the literal holds
  "\E". In Java that ends the `\Q...\E` quote early, so `Pattern.compile` throws or compiles a
  different expression. The model reads the literal as plain text. `QuotedLiteralsIntact` states
  when the quoting is exact, and `QuoteEndInLiteral` shows the text for "/a\E".
- PathRules.PathRule.constructor: the same gap for a pattern with a backslash followed by 'E'. The
  model builds a rule where Java throws or compiles a different expression.
- PathRules.PathRule.Matches: the same gap. For such a pattern the model matches the literal text,
  which Java's compiled expression does not.
- PathRules.MatchesRobotsPattern: the same gap for a pattern with a backslash followed by 'E'.
- Outgoing links: the model keeps them as a map from canonical URL to the first anchor giving it.
  That anchor carries the anchor text and tag. The source instead builds `WebURL` objects with those
  fields; they live in a `HashSet`, which compares by URL, so the map is what that set amounts to.
- `Parser.parse`'s `setMetaTags` and the other plain getters and setters of `Page`, `WebURL`
  (docid, depth, parent, priority, anchor, tag) and `PageFetchResult` hold no logic and are not
  modelled.
- WebUrls.WebURL.Equals: `getClass()` comparison is modelled for `WebURL` objects only, since the
  model has no subclasses.
- Pages.Page.Load: `toByteArray`'s other exception, an `IOException` from the stream, is not
  modelled. The body is given as the chunks the reads return.
- Fetcher.PageFetcher.FetchPage: the response is not kept for later closing, and the `close()` of a
  too-big response is not tracked. Only the `finally` abort is returned.
- Lengths are unbounded integers. The `(int)` cast of the content length is written out
  (`WebUrls.Int32`), and `Integer.parseInt` keeps to int range.
- Fetcher.ParseInt: only ASCII digits are accepted. `Integer.parseInt` reads digits through
  `Character.digit`, so a Content-Length of Arabic-Indic digits such as U+0661 U+0662 U+0663 is 123
  in Java and a bad content length in the model; `DownloadSize` and `FetchPage` inherit this.
- WebUrls.Decompose: positions are counted in characters, where `indexOf` and `substring` count
  UTF-16 code units. They differ when the URL has no "//" and starts with a character above
  U+FFFF: for U+1F600 followed by "/x", Java takes the low surrogate as the domain and "/x" as the
  path, the model "/x" and "". A canonical URL always holds "://", so the crawler does not meet
  such a URL.
- WebUrls.WebURL.SetURL: the same code-unit gap, through `Decompose`.

=== FILE: canonicalizer.dfy ===
/** URLCanonicalizer: the canonical form of a (possibly relative) link. The URL parsing and
    resolution of java.net.URL and UrlResolver and the dot-segment removal of URI.normalize are
    taken as given functions (a `UrlLibrary`); everything the canonicalizer does with their
    results is modelled. */
module Canonicalizer {
  import opened Wrappers
  import opened Strings
  import opened Percent

  /** What java.net.URL exposes of a parsed URL. A port of `None` is Java's -1 ("no port"). */
  datatype UrlParts = UrlParts(
    protocol: string,
    host: string,
    port: Option<nat>,
    defaultPort: Option<nat>,
    path: string,
    query: Option<string>,
    fragment: Option<string>)

  /** The library behaviour the canonicalizer relies on:
      `resolve(context, href)` is `new URL(UrlResolver.resolveUrl(context, href))` (None when it
      throws MalformedURLException), `normalize(p)` is `new URI(p).normalize().toString()` (None
      on URISyntaxException), and `urlEncode(bytes, charset)` is `URLEncoder.encode` in a charset
      other than UTF-8 of the text whose UTF-8 bytes are `bytes` (the encoder decides character by
      character which of that charset's bytes to escape). */
  datatype UrlLibrary = UrlLibrary(
    resolve: (string, string) -> Option<UrlParts>,
    normalize: string -> Option<string>,
    urlEncode: (seq<byte>, string) -> string)

  /** The pieces handed to `new URL(protocol, host, port, file)` at the end. */
  datatype CanonicalUrl = CanonicalUrl(
    protocol: string,
    host: string,
    port: Option<nat>,
    path: string,
    queryString: string)

  /** java.net.URL brackets a host that contains ':' and is not yet bracketed (an IPv6 literal). */
  function AuthorityHost(host: string): string {
    if ':' in host && !StartsWith(host, "[") then "[" + host + "]" else host
  }

  /** URL.toExternalForm of the result: no user info and no fragment. */
  function ExternalForm(c: CanonicalUrl): string {
    c.protocol + "://" + AuthorityHost(c.host)
    + (match c.port case None => "" case Some(p) => ":" + NatToString(p))
    + c.path + c.queryString
  }

  // ---------------------------------------------------------------------------------------
  // The path

  /** Every run of slashes squashed to one slash; `afterSlash` says a slash was just written.
      This is an independent description of where the repeated replace("//", "/") ends. */
  function SquashFrom(s: string, afterSlash: bool): string
    decreases |s|
  {
    if s == [] then []
    else if s[0] == '/' then (if afterSlash then [] else "/") + SquashFrom(s[1..], true)
    else [s[0]] + SquashFrom(s[1..], false)
  }

  function Squash(s: string): string {
    SquashFrom(s, false)
  }

  /** The squashed text has no "//", and does not start with '/' right after a slash. */
  lemma {:induction false} SquashHasNoDoubleSlash(s: string, afterSlash: bool)
    ensures NoDoubleSlash(SquashFrom(s, afterSlash))
    ensures afterSlash && SquashFrom(s, afterSlash) != [] ==> SquashFrom(s, afterSlash)[0] != '/'
    ensures !afterSlash && s != [] ==> SquashFrom(s, afterSlash) != [] && SquashFrom(s, afterSlash)[0] == s[0]
    decreases |s|
  {
    if s != [] {
      SquashHasNoDoubleSlash(s[1..], s[0] == '/');
    }
  }

  /** Text without "//" that does not start with a slash right after one is its own squash. */
  lemma {:induction false} SquashFixed(s: string, afterSlash: bool)
    requires NoDoubleSlash(s)
    requires afterSlash ==> s == [] || s[0] != '/'
    ensures SquashFrom(s, afterSlash) == s
    decreases |s|
  {
    if s != [] {
      SquashFixed(s[1..], s[0] == '/');
      assert [s[0]] + s[1..] == s;
    }
  }

  /** One replace("//", "/") pass does not change where squashing ends. */
  lemma {:induction false} ReplaceDoubleSlashSquash(s: string, afterSlash: bool)
    ensures SquashFrom(ReplaceAll(s, "//", "/"), afterSlash) == SquashFrom(s, afterSlash)
    decreases |s|
  {
    if |s| >= 2 {
      if s[..2] == "//" {
        assert s[0] == '/' && s[1] == '/';
        var t := s[2..];
        ReplaceDoubleSlashSquash(t, true);
        assert ReplaceAll(s, "//", "/") == "/" + ReplaceAll(t, "//", "/");
        assert ("/" + ReplaceAll(t, "//", "/"))[1..] == ReplaceAll(t, "//", "/");
        assert s[1..][1..] == t;
      } else {
        ReplaceDoubleSlashSquash(s[1..], s[0] == '/');
        assert ReplaceAll(s, "//", "/") == [s[0]] + ReplaceAll(s[1..], "//", "/");
        assert ([s[0]] + ReplaceAll(s[1..], "//", "/"))[1..] == ReplaceAll(s[1..], "//", "/");
      }
    } else if |s| == 1 {
      assert ReplaceAll(s, "//", "/") == s;
    }
  }

  /** The while (path.startsWith("/../")) path = path.substring(3) loop as a function: leading
      "/.." segments are dropped while a further segment follows. */
  function StripParents(p: string): (r: string)
    ensures !StartsWith(r, "/../")
    ensures |r| <= |p|
    decreases |p|
  {
    if StartsWith(p, "/../") then StripParents(p[3..]) else p
  }

  /** k copies of `u`. */
  function Repeat(u: string, k: nat): string {
    if k == 0 then "" else u + Repeat(u, k - 1)
  }

  /** How many "/.." segments the loop drops. */
  function ParentCount(p: string): nat
    decreases |p|
  {
    if StartsWith(p, "/../") then 1 + ParentCount(p[3..]) else 0
  }

  /** Only whole "/.." segments are removed. */
  lemma {:induction false} StripParentsRemovesSegments(p: string)
    ensures p == Repeat("/..", ParentCount(p)) + StripParents(p)
    decreases |p|
  {
    if StartsWith(p, "/../") {
      var q := p[3..];
      StripParentsRemovesSegments(q);
      assert p[..3] == "/..";
      assert p == "/.." + q;
    }
  }

  /** Stripping keeps the absence of "//", and a result that is not the input starts with '/'. */
  lemma {:induction false} StripParentsShape(p: string)
    ensures NoDoubleSlash(p) ==> NoDoubleSlash(StripParents(p))
    ensures StripParents(p) == p || (StripParents(p) != [] && StripParents(p)[0] == '/')
    decreases |p|
  {
    if StartsWith(p, "/../") {
      StripParentsShape(p[3..]);
      assert p[..4][3] == '/';
    }
  }

  /** The path the canonicalizer builds from the normalized path, before normalizePath. */
  function CleanPath(normalized: string): string {
    var p := Trim(StripParents(Squash(normalized)));
    if p == "" then "/" else p
  }

  /** normalizePath: "%7E" becomes "~", then a space becomes "%20". */
  function NormalizePath(p: string): string {
    ReplaceAll(ReplaceAll(p, "%7E", "~"), " ", "%20")
  }

  /** Trimming keeps the absence of "//"; on text that does not start with a blank it only cuts
      the end. */
  lemma TrimShape(s: string)
    ensures NoDoubleSlash(s) ==> NoDoubleSlash(Trim(s))
    ensures (s == [] || s[0] > ' ') ==> Trim(s) == s[..TrimEnd(s, 0, |s|)]
  {
  }

  /** The canonical path is never empty and has no "//"; it does not start with "/../" unless
      a leading blank hid that prefix from the loop. */
  lemma CleanPathShape(normalized: string)
    ensures CleanPath(normalized) != ""
    ensures NoDoubleSlash(CleanPath(normalized))
    ensures (normalized == [] || normalized[0] > ' ') ==> !StartsWith(CleanPath(normalized), "/../")
  {
    var sq := Squash(normalized);
    SquashHasNoDoubleSlash(normalized, false);
    StripParentsShape(sq);
    var st := StripParents(sq);
    TrimShape(st);
    if normalized == [] || normalized[0] > ' ' {
      assert st == [] || st[0] > ' ';
      PrefixKeepsNoStart(st, TrimEnd(st, 0, |st|), "/../");
    }
  }

  /** The path written out has no space, no "//", and no "%7E" when the path had no space. */
  lemma NormalizePathShape(p: string)
    requires NoDoubleSlash(p)
    ensures ' ' !in NormalizePath(p)
    ensures NoDoubleSlash(NormalizePath(p))
    ensures ' ' !in p ==> !Contains(NormalizePath(p), "%7E")
  {
    var t := ReplaceAll(p, "%7E", "~");
    ReplaceCharRemoves(t, ' ', "%20");
    ReplaceKeepsNoDoubleSlash(p, "%7E", "~");
    ReplaceKeepsNoDoubleSlash(t, " ", "%20");
    if ' ' !in p {
      ReplaceNoPatternLeft(p, "%7E", "~");
      assert ' ' !in t by {
        ReplaceKeepsAbsentChar(p, "%7E", "~", ' ');
      }
      ReplaceWithoutFirstChar(t, " ", "%20");
    }
  }

  // ---------------------------------------------------------------------------------------
  // Percent-encoding of one query key or value

  /** The name Charset.name() gives UTF-8. */
  const Utf8Name := "UTF-8"

  /** percentEncodeRfc3986: '+' is first protected as "%2B", the text is URL-decoded as UTF-8 and
      URL-encoded in `charset`, and the encoder's output is rewritten ('+' to "%20", '*' to "%2A",
      "%7E" to "~"). When decoding throws, the text as it then stands is returned. */
  function PercentEncodeRfc3986(s: string, charset: string, lib: UrlLibrary): string {
    var plusEscaped := ReplaceAll(s, "+", "%2B");
    match UrlDecode(plusEscaped)
    case None => plusEscaped
    case Some(bytes) =>
      RewriteEncoded(if charset == Utf8Name then UrlEncode(bytes) else lib.urlEncode(bytes, charset))
  }

  /** The rewriting of the encoder's output: '+' to "%20", '*' to "%2A", "%7E" to "~". */
  function RewriteEncoded(encoded: string): string {
    ReplaceAll(ReplaceAll(ReplaceAll(encoded, "+", "%20"), "*", "%2A"), "%7E", "~")
  }

  /** URL-decoding in which '+' is a literal plus: what decoding the text amounts to once every
      '+' has been written "%2B". A '+' right after a '%' thereby spoils that escape. */
  function DecodeKeepingPlus(s: string): Option<seq<byte>>
    decreases |s|
  {
    if s == [] then Some([])
    else if s[0] == '+' then Prepend(['+' as int], DecodeKeepingPlus(s[1..]))
    else if s[0] == '%' then
      if |s| < 3 || s[1] == '+' || s[2] == '+' then None
      else match EscapeValue(s[1], s[2])
        case None => None
        case Some(v) => Prepend([v], DecodeKeepingPlus(s[3..]))
    else Prepend(Utf8(s[0]), DecodeKeepingPlus(s[1..]))
  }

  /** Escaping '+' as "%2B" and then URL-decoding is decoding with '+' kept literal. */
  lemma {:induction false} DecodeAfterPlusEscape(s: string)
    ensures UrlDecode(ReplaceAll(s, "+", "%2B")) == DecodeKeepingPlus(s)
    decreases |s|
  {
    if s != [] {
      var t := s[1..];
      var rt := ReplaceAll(t, "+", "%2B");
      assert s == [s[0]] + t;
      if s[0] == '+' {
        DecodeAfterPlusEscape(t);
        ReplaceLeading("+", t, "%2B");
        assert ReplaceAll(s, "+", "%2B") == "%2B" + rt;
        assert EscapeValue('2', 'B') == Some('+' as int);
        assert ("%2B" + rt)[3..] == rt;
      } else if s[0] == '%' {
        if |s| >= 2 && s[1] == '+' {
          assert s == ['%', '+'] + s[2..];
          DecodeAtPlusAfterPercent(s[2..]);
        } else if |s| < 3 {
          DecodeAtShortPercent(s);
        } else if s[2] == '+' {
          assert s == ['%', s[1], '+'] + s[3..];
          DecodeAtPlusSecondAfterPercent(s[1], s[3..]);
        } else {
          DecodeAfterPlusEscape(s[3..]);
          assert s == ['%', s[1], s[2]] + s[3..];
          DecodeAtEscape(s[1], s[2], s[3..]);
        }
      } else {
        DecodeAfterPlusEscape(t);
        ReplaceSkipsChar(s[0], t, "+", "%2B");
        assert ([s[0]] + rt)[1..] == rt;
      }
    }
  }

  /** The step of the above at a '%' with two characters other than '+' after it. */
  lemma DecodeAtEscape(a: char, b: char, rest: string)
    requires a != '+' && b != '+'
    requires UrlDecode(ReplaceAll(rest, "+", "%2B")) == DecodeKeepingPlus(rest)
    ensures UrlDecode(ReplaceAll(['%', a, b] + rest, "+", "%2B")) == DecodeKeepingPlus(['%', a, b] + rest)
  {
    var s := ['%', a, b] + rest;
    ReplaceSkipsChar(b, rest, "+", "%2B");
    ReplaceSkipsChar(a, [b] + rest, "+", "%2B");
    ReplaceSkipsChar('%', [a] + ([b] + rest), "+", "%2B");
    assert s == ['%'] + ([a] + ([b] + rest));
    var r := ['%'] + ([a] + ([b] + ReplaceAll(rest, "+", "%2B")));
    assert r[1] == a && r[2] == b && r[3..] == ReplaceAll(rest, "+", "%2B");
    assert s[1] == a && s[2] == b && s[3..] == rest;
  }

  /** The step of the above at a '%' followed by a '+': both sides fail. */
  lemma DecodeAtPlusAfterPercent(rest: string)
    ensures UrlDecode(ReplaceAll(['%', '+'] + rest, "+", "%2B")) == None
    ensures DecodeKeepingPlus(['%', '+'] + rest) == None
  {
    var s := ['%', '+'] + rest;
    ReplaceLeading("+", rest, "%2B");
    ReplaceSkipsChar('%', "+" + rest, "+", "%2B");
    assert s == ['%'] + ("+" + rest);
    var r := ['%'] + ("%2B" + ReplaceAll(rest, "+", "%2B"));
    assert |r| >= 3 && r[0] == '%' && r[1] == '%';
  }

  /** The step of the above at a '%' with a '+' two places on: both sides fail. */
  lemma DecodeAtPlusSecondAfterPercent(a: char, rest: string)
    requires a != '+'
    ensures UrlDecode(ReplaceAll(['%', a, '+'] + rest, "+", "%2B")) == None
    ensures DecodeKeepingPlus(['%', a, '+'] + rest) == None
  {
    var s := ['%', a, '+'] + rest;
    ReplaceLeading("+", rest, "%2B");
    ReplaceSkipsChar(a, "+" + rest, "+", "%2B");
    ReplaceSkipsChar('%', [a] + ("+" + rest), "+", "%2B");
    assert s == ['%'] + ([a] + ("+" + rest));
    var r := ['%'] + ([a] + ("%2B" + ReplaceAll(rest, "+", "%2B")));
    assert |r| >= 3 && r[0] == '%' && r[2] == '%';
    assert s[1] == a && s[2] == '+';
  }

  /** The step of the above at a '%' one or two characters from the end: both sides fail. */
  lemma DecodeAtShortPercent(s: string)
    requires 1 <= |s| < 3 && s[0] == '%' && '+' !in s
    ensures UrlDecode(ReplaceAll(s, "+", "%2B")) == None
    ensures DecodeKeepingPlus(s) == None
  {
    ReplaceWithoutFirstChar(s, "+", "%2B");
  }

  /** What the rewriting makes of the encoding of one byte: its RFC 3986 form, before "%7E" is
      turned back into '~'. */
  function Rfc3986OrTildeEscape(b: byte): string {
    if IsPlain(b) then [b as char] else Escape(b)
  }

  /** The first two rewrites act byte by byte. */
  lemma RewriteEncoderByte(b: byte)
    ensures ReplaceAll(ReplaceAll(EncoderByte(b), "+", "%20"), "*", "%2A") == Rfc3986OrTildeEscape(b)
  {
    var e := EncoderByte(b);
    if b == ' ' as int {
      assert e == "+" + "";
      ReplaceLeading("+", "", "%20");
      assert ReplaceAll(e, "+", "%20") == "%20" + ReplaceAll("", "+", "%20") == "%20";
      assert Escape(b) == "%20";
      ReplaceWithoutFirstChar("%20", "*", "%2A");
    } else if b == '*' as int {
      ReplaceWithoutFirstChar(e, "+", "%20");
      ReplaceLeading("*", "", "%2A");
      assert "*" + "" == "*";
      assert Escape(b) == "%2A";
    } else {
      assert '+' !in e && '*' !in e;
      ReplaceWithoutFirstChar(e, "+", "%20");
      ReplaceWithoutFirstChar(e, "*", "%2A");
    }
  }

  /** The "%7E" rewrite acts token by token on escapes and plain characters. */
  lemma RewriteTildeToken(b: byte, rest: string)
    ensures ReplaceAll(Rfc3986OrTildeEscape(b) + rest, "%7E", "~")
         == Rfc3986Byte(b) + ReplaceAll(rest, "%7E", "~")
  {
    var e := Rfc3986OrTildeEscape(b);
    if IsPlain(b) {
      ReplaceSkipsChar(b as char, rest, "%7E", "~");
    } else if b == 0x7E {
      assert e == "%7E";
      ReplaceLeading("%7E", rest, "~");
    } else {
      assert e != "%7E" by {
        assert HexValue(e[1]) == b / 16 && HexValue(e[2]) == b % 16;
      }
      assert e == ['%', e[1], e[2]];
      ReplaceSkipsEscape(e[1], e[2], rest);
    }
  }

  /** An escape other than "%7E" is copied by the "%7E" rewrite. */
  lemma ReplaceSkipsEscape(x: char, y: char, rest: string)
    requires x != '%' && y != '%' && ['%', x, y] != "%7E"
    ensures ReplaceAll(['%', x, y] + rest, "%7E", "~") == ['%', x, y] + ReplaceAll(rest, "%7E", "~")
  {
    var s := ['%', x, y] + rest;
    assert s[..3] == ['%', x, y];
    ReplaceSkipsMismatch(s, "%7E", "~");
    assert s[1..] == [x] + ([y] + rest);
    ReplaceSkipsChar(x, [y] + rest, "%7E", "~");
    ReplaceSkipsChar(y, rest, "%7E", "~");
    assert [s[0]] + ([x] + ([y] + ReplaceAll(rest, "%7E", "~"))) == ['%', x, y] + ReplaceAll(rest, "%7E", "~");
  }

  /** The three rewrites turn URLEncoder's output into the RFC 3986 encoding of the same bytes. */
  lemma {:induction false} RewriteEncoderOutput(bs: seq<byte>)
    ensures ReplaceAll(ReplaceAll(ReplaceAll(UrlEncode(bs), "+", "%20"), "*", "%2A"), "%7E", "~")
         == Rfc3986Encode(bs)
    decreases |bs|
  {
    if bs != [] {
      var b, rest := bs[0], bs[1..];
      RewriteEncoderOutput(rest);
      assert UrlEncode(bs) == EncoderByte(b) + UrlEncode(rest);
      ReplaceCharConcat(EncoderByte(b), UrlEncode(rest), '+', "%20");
      var s1 := ReplaceAll(EncoderByte(b), "+", "%20");
      var r1 := ReplaceAll(UrlEncode(rest), "+", "%20");
      ReplaceCharConcat(s1, r1, '*', "%2A");
      RewriteEncoderByte(b);
      RewriteTildeToken(b, ReplaceAll(r1, "*", "%2A"));
      assert Rfc3986Encode(bs) == Rfc3986Byte(b) + Rfc3986Encode(rest);
    }
  }

  /** percentEncodeRfc3986 in one line: in UTF-8, the RFC 3986 encoding of the text read with '+'
      as a literal plus; in another charset, the rewritten output of the encoder for that text;
      text that is not validly escaped comes back with its '+' as "%2B". */
  lemma PercentEncodeMeaning(s: string, charset: string, lib: UrlLibrary)
    ensures PercentEncodeRfc3986(s, charset, lib) ==
      match DecodeKeepingPlus(s)
      case None => ReplaceAll(s, "+", "%2B")
      case Some(bytes) =>
        if charset == Utf8Name then Rfc3986Encode(bytes) else RewriteEncoded(lib.urlEncode(bytes, charset))
  {
    DecodeAfterPlusEscape(s);
    match UrlDecode(ReplaceAll(s, "+", "%2B"))
    case None =>
    case Some(bytes) =>
      RewriteEncoderOutput(bytes);
  }

  /** Encoding an already encoded key or value changes nothing (for UTF-8). */
  lemma PercentEncodeIdempotent(s: string, lib: UrlLibrary)
    ensures PercentEncodeRfc3986(PercentEncodeRfc3986(s, Utf8Name, lib), Utf8Name, lib)
         == PercentEncodeRfc3986(s, Utf8Name, lib)
  {
    var e := PercentEncodeRfc3986(s, Utf8Name, lib);
    PercentEncodeMeaning(s, Utf8Name, lib);
    PercentEncodeMeaning(e, Utf8Name, lib);
    ReplaceCharRemoves(s, '+', "%2B");
    match DecodeKeepingPlus(s)
    case None =>
      ReplaceWithoutFirstChar(e, "+", "%2B");
      DecodeAfterPlusEscape(e);
    case Some(bytes) =>
      Rfc3986EncodeHasNoPlus(bytes);
      ReplaceWithoutFirstChar(e, "+", "%2B");
      DecodeAfterPlusEscape(e);
      DecodeRfc3986Encode(bytes);
  }

  // ---------------------------------------------------------------------------------------
  // The parameter map

  /** A LinkedHashMap<String, String> as its entries in insertion order. */
  type Param = (string, string)

  /** Where key `k` sits in the map, or -1. */
  function KeyIndex(m: seq<Param>, k: string): (r: int)
    ensures -1 <= r < |m|
    ensures r >= 0 ==> m[r].0 == k
    ensures r < 0 ==> forall i :: 0 <= i < |m| ==> m[i].0 != k
    decreases |m|
  {
    if m == [] then -1 else if m[|m| - 1].0 == k then |m| - 1 else KeyIndex(m[..|m| - 1], k)
  }

  /** LinkedHashMap.put: a new key goes to the end, an existing key keeps its place and takes the
      new value. */
  function Put(m: seq<Param>, k: string, v: string): seq<Param> {
    var i := KeyIndex(m, k);
    if i < 0 then m + [(k, v)] else m[i := (k, v)]
  }

  /** The entry a non-empty "name=value" pair puts: split("=", 2) cuts at the first '='; a pair
      without '=' has an empty value. (A one-token pair never starts with '=', so the source's
      branch for that case is never taken.) */
  function PairEntry(pair: string): (e: Param)
    requires pair != ""
    ensures '=' in pair ==> pair == e.0 + "=" + e.1 && '=' !in e.0
    ensures '=' !in pair ==> e == (pair, "")
  {
    var tokens := SplitOnce(pair, '=');
    if |tokens| == 1 then (tokens[0], "") else (tokens[0], tokens[1])
  }

  /** A pair "k=v" whose name has no '=' gives back the entry (k, v). */
  lemma PairEntryOf(k: string, v: string)
    requires '=' !in k
    ensures PairEntry(k + "=" + v) == (k, v)
  {
    var pair := k + "=" + v;
    assert pair[|k|] == '=';
    var e := PairEntry(pair);
    assert pair == e.0 + "=" + e.1;
    assert e.0 == pair[..|k|] == k;
    assert e.1 == pair[|k| + 1..] == v;
  }

  /** One turn of createParameterMap's loop: empty pairs are skipped. */
  function AddPair(m: seq<Param>, pair: string): seq<Param> {
    if pair == "" then m else Put(m, PairEntry(pair).0, PairEntry(pair).1)
  }

  /** The map after the pairs, in order. */
  function ParamsOf(pairs: seq<string>): seq<Param>
    decreases |pairs|
  {
    if pairs == [] then [] else AddPair(ParamsOf(pairs[..|pairs| - 1]), pairs[|pairs| - 1])
  }

  /** createParameterMap: no map for a missing or empty query, else the map of its '&'-pieces. */
  function ParameterMap(query: Option<string>): Option<seq<Param>> {
    match query
    case None => None
    case Some(q) => if q == "" then None else Some(ParamsOf(JavaSplit(q, '&')))
  }

  /** The name a pair puts into the map; None for an empty pair, which is skipped. */
  function PairKey(pair: string): Option<string> {
    if pair == "" then None else Some(PairEntry(pair).0)
  }

  /** `pair` is a non-empty pair whose name is `k`. */
  predicate Names(pair: string, k: string) {
    PairKey(pair) == Some(k)
  }

  /** The names the pairs put, pair by pair. */
  function KeysOf(pairs: seq<string>): (ks: seq<Option<string>>)
    ensures |ks| == |pairs|
    ensures forall j :: 0 <= j < |pairs| ==> ks[j] == PairKey(pairs[j])
  {
    seq(|pairs|, j requires 0 <= j < |pairs| => PairKey(pairs[j]))
  }

  /** The first position holding `k`, or -1. */
  function FirstKey(ks: seq<Option<string>>, k: string): (f: int)
    ensures -1 <= f < |ks|
    ensures f >= 0 ==> ks[f] == Some(k) && forall j :: 0 <= j < f ==> ks[j] != Some(k)
    ensures f < 0 ==> forall j :: 0 <= j < |ks| ==> ks[j] != Some(k)
    decreases |ks|
  {
    if ks == [] then -1
    else
      var f := FirstKey(ks[..|ks| - 1], k);
      if f >= 0 then f else if ks[|ks| - 1] == Some(k) then |ks| - 1 else -1
  }

  /** The last position holding `k`, or -1. */
  function LastKey(ks: seq<Option<string>>, k: string): (l: int)
    ensures -1 <= l < |ks|
    ensures l >= 0 ==> ks[l] == Some(k) && forall j :: l < j < |ks| ==> ks[j] != Some(k)
    ensures l < 0 ==> forall j :: 0 <= j < |ks| ==> ks[j] != Some(k)
    decreases |ks|
  {
    if ks == [] then -1
    else if ks[|ks| - 1] == Some(k) then |ks| - 1
    else LastKey(ks[..|ks| - 1], k)
  }

  /** The first pair named `k`, or -1. */
  function FirstIndex(pairs: seq<string>, k: string): (f: int)
    ensures -1 <= f < |pairs|
    ensures f >= 0 ==> Names(pairs[f], k) && forall j :: 0 <= j < f ==> !Names(pairs[j], k)
    ensures f < 0 ==> forall j :: 0 <= j < |pairs| ==> !Names(pairs[j], k)
  {
    FirstKey(KeysOf(pairs), k)
  }

  /** The last pair named `k`, or -1. */
  function LastIndex(pairs: seq<string>, k: string): (l: int)
    ensures -1 <= l < |pairs|
    ensures l >= 0 ==> Names(pairs[l], k) && forall j :: l < j < |pairs| ==> !Names(pairs[j], k)
    ensures l < 0 ==> forall j :: 0 <= j < |pairs| ==> !Names(pairs[j], k)
  {
    LastKey(KeysOf(pairs), k)
  }

  /** Dropping the last pair drops its name. */
  lemma KeysOfInit(pairs: seq<string>)
    requires pairs != []
    ensures KeysOf(pairs)[..|pairs| - 1] == KeysOf(pairs[..|pairs| - 1])
  {
  }

  /** FirstIndex one pair at a time. */
  lemma FirstIndexStep(pairs: seq<string>, k: string)
    requires pairs != []
    ensures var f := FirstIndex(pairs[..|pairs| - 1], k);
      FirstIndex(pairs, k) == if f >= 0 then f else if Names(pairs[|pairs| - 1], k) then |pairs| - 1 else -1
  {
    var ks := KeysOf(pairs);
    KeysOfInit(pairs);
    assert FirstIndex(pairs[..|pairs| - 1], k) == FirstKey(ks[..|ks| - 1], k);
    assert Names(pairs[|pairs| - 1], k) <==> ks[|ks| - 1] == Some(k);
  }

  /** LastIndex one pair at a time. */
  lemma LastIndexStep(pairs: seq<string>, k: string)
    requires pairs != []
    ensures LastIndex(pairs, k) ==
      if Names(pairs[|pairs| - 1], k) then |pairs| - 1 else LastIndex(pairs[..|pairs| - 1], k)
  {
    var ks := KeysOf(pairs);
    KeysOfInit(pairs);
    assert LastIndex(pairs[..|pairs| - 1], k) == LastKey(ks[..|ks| - 1], k);
    assert Names(pairs[|pairs| - 1], k) <==> ks[|ks| - 1] == Some(k);
  }

  /** Each name occurs once. */
  predicate DistinctKeys(m: seq<Param>) {
    forall i, j :: 0 <= i < j < |m| ==> m[i].0 != m[j].0
  }

  /** After put, the map holds `k` exactly when `k` was put or was already there. */
  lemma PutKeys(m: seq<Param>, k0: string, v0: string, k: string)
    ensures KeyIndex(Put(m, k0, v0), k) >= 0 <==> (k == k0 || KeyIndex(m, k) >= 0)
  {
    var m' := Put(m, k0, v0);
    var i0 := KeyIndex(m, k0);
    if KeyIndex(m, k) >= 0 {
      assert m'[KeyIndex(m, k)].0 == k;
    }
    if k == k0 {
      assert m'[if i0 < 0 then |m| else i0].0 == k0;
    }
    if KeyIndex(m', k) >= 0 && k != k0 {
      assert m[KeyIndex(m', k)].0 == k;
    }
  }

  /** In a map with distinct names, the entry Put leaves at a position is the new one exactly
      when it carries the new name; any other entry was there before. */
  lemma PutEntry(m: seq<Param>, k0: string, v0: string, i: int)
    requires DistinctKeys(m) && 0 <= i < |Put(m, k0, v0)|
    ensures Put(m, k0, v0)[i].0 == k0 ==> Put(m, k0, v0)[i] == (k0, v0)
    ensures Put(m, k0, v0)[i].0 != k0 ==> i < |m| && Put(m, k0, v0)[i] == m[i]
  {
    var i0 := KeyIndex(m, k0);
    if i0 >= 0 && i != i0 {
      assert m[i].0 != m[i0].0;
    }
  }

  /** Put keeps names distinct. */
  lemma PutDistinct(m: seq<Param>, k0: string, v0: string)
    requires DistinctKeys(m)
    ensures DistinctKeys(Put(m, k0, v0))
  {
  }

  /** The parameter map holds each name once. */
  lemma {:induction false} ParamsDistinct(pairs: seq<string>)
    ensures DistinctKeys(ParamsOf(pairs))
    decreases |pairs|
  {
    if pairs != [] {
      var init, x := pairs[..|pairs| - 1], pairs[|pairs| - 1];
      ParamsDistinct(init);
      if x != "" {
        PutDistinct(ParamsOf(init), PairEntry(x).0, PairEntry(x).1);
      }
    }
  }

  /** The parameter map holds exactly the names of the non-empty pairs. */
  lemma {:induction false} ParamsKeys(pairs: seq<string>, k: string)
    ensures KeyIndex(ParamsOf(pairs), k) >= 0 <==> FirstIndex(pairs, k) >= 0
    decreases |pairs|
  {
    if pairs != [] {
      var init, x := pairs[..|pairs| - 1], pairs[|pairs| - 1];
      ParamsKeys(init, k);
      FirstIndexStep(pairs, k);
      if x != "" {
        PutKeys(ParamsOf(init), PairEntry(x).0, PairEntry(x).1, k);
      }
    }
  }

  /** Each name maps to the value of the last pair with that name. */
  lemma {:induction false} ParamsValues(pairs: seq<string>, i: int)
    requires 0 <= i < |ParamsOf(pairs)|
    ensures var m := ParamsOf(pairs);
      LastIndex(pairs, m[i].0) >= 0 && m[i].1 == PairEntry(pairs[LastIndex(pairs, m[i].0)]).1
    decreases |pairs|
  {
    var init, x := pairs[..|pairs| - 1], pairs[|pairs| - 1];
    var m, m' := ParamsOf(init), ParamsOf(pairs);
    var k := m'[i].0;
    LastIndexStep(pairs, k);
    if x == "" {
      assert m' == m && !Names(x, k);
      ParamsValues(init, i);
    } else {
      var k0, v0 := PairEntry(x).0, PairEntry(x).1;
      ParamsDistinct(init);
      assert m' == Put(m, k0, v0);
      PutEntry(m, k0, v0, i);
      if k == k0 {
        assert Names(x, k) && pairs[|init|] == x;
      } else {
        assert !Names(x, k);
        ParamsValues(init, i);
      }
    }
  }

  /** Names keep the order of their first pairs. */
  lemma {:induction false} ParamsOrder(pairs: seq<string>, i: int, j: int)
    requires 0 <= i < j < |ParamsOf(pairs)|
    ensures var m := ParamsOf(pairs);
      0 <= FirstIndex(pairs, m[i].0) < FirstIndex(pairs, m[j].0)
    decreases |pairs|
  {
    var init, x := pairs[..|pairs| - 1], pairs[|pairs| - 1];
    var m, m' := ParamsOf(init), ParamsOf(pairs);
    ParamsKeys(init, m'[i].0);
    ParamsKeys(init, m'[j].0);
    FirstIndexStep(pairs, m'[i].0);
    FirstIndexStep(pairs, m'[j].0);
    if x == "" {
      ParamsOrder(init, i, j);
    } else {
      var k0, v0 := PairEntry(x).0, PairEntry(x).1;
      var i0 := KeyIndex(m, k0);
      if i0 < 0 && j == |m| {
        assert m'[i] == m[i] && m'[j].0 == k0;
        assert FirstIndex(init, m[i].0) >= 0;
        assert FirstIndex(init, k0) < 0;
      } else {
        assert j < |m| && m'[i].0 == m[i].0 && m'[j].0 == m[j].0;
        ParamsOrder(init, i, j);
      }
    }
  }

  /** createParameterMap, step by step over the '&'-pieces of the query. */
  method CreateParameterMap(queryString: Option<string>) returns (params: Option<seq<Param>>)
    ensures params == ParameterMap(queryString)
  {
    if queryString.None? || queryString.value == "" {
      return None;
    }
    var pairs := JavaSplit(queryString.value, '&');
    var m: seq<Param> := [];
    for i := 0 to |pairs|
      invariant m == ParamsOf(pairs[..i])
    {
      assert pairs[..i + 1][..i] == pairs[..i] && pairs[..i + 1][i] == pairs[i];
      var pair := pairs[i];
      if pair == "" {
        assert ParamsOf(pairs[..i + 1]) == m;
        continue;
      }
      assert ParamsOf(pairs[..i + 1]) == Put(m, PairEntry(pair).0, PairEntry(pair).1);
      var tokens := SplitOnce(pair, '=');
      if |tokens| == 1 {
        if pair[0] == '=' {
          assert false;
        }
        assert PairEntry(pair) == (tokens[0], "");
        m := Put(m, tokens[0], "");
      } else {
        assert PairEntry(pair) == (tokens[0], tokens[1]);
        m := Put(m, tokens[0], tokens[1]);
      }
    }
    assert pairs[..|pairs|] == pairs;
    return Some(m);
  }

  // ---------------------------------------------------------------------------------------
  // The canonical query

  /** The session parameters that are dropped, compared in lower case. */
  predicate IsSessionKey(key: string) {
    var k := ToLower(key);
    k == "jsessionid" || k == "phpsessid" || k == "aspsessionid"
  }

  /** One parameter written out: encoded name, and "=" with the encoded value when the value is
      not empty. */
  function RenderParam(p: Param, charset: string, lib: UrlLibrary): string {
    PercentEncodeRfc3986(p.0, charset, lib)
    + (if p.1 == "" then "" else "=" + PercentEncodeRfc3986(p.1, charset, lib))
  }

  /** The entries in map order, each one whose name `dropped` holds of left out and the rest
      written out by `render`. */
  function Written(params: seq<Param>, dropped: string -> bool, render: Param -> string): seq<string>
    decreases |params|
  {
    if params == [] then []
    else
      var init := Written(params[..|params| - 1], dropped, render);
      var p := params[|params| - 1];
      if dropped(p.0) then init else init + [render(p)]
  }

  /** The written-out parameters, in map order, without the session parameters. */
  function Rendered(params: seq<Param>, charset: string, lib: UrlLibrary): seq<string> {
    Written(params, IsSessionKey, p => RenderParam(p, charset, lib))
  }

  /** canonicalize(params, charset): the written-out parameters joined by '&'. */
  function QueryText(params: seq<Param>, charset: string, lib: UrlLibrary): string {
    JoinSkipLeadingEmpty("&", Rendered(params, charset, lib))
  }

  /** The canonicalize method, step by step over the map's entries. */
  method CanonicalizeQuery(params: seq<Param>, charset: string, lib: UrlLibrary) returns (s: string)
    ensures s == QueryText(params, charset, lib)
  {
    if params == [] {
      return "";
    }
    var sb := "";
    for i := 0 to |params|
      invariant sb == QueryText(params[..i], charset, lib)
    {
      ghost var done := Rendered(params[..i], charset, lib);
      assert params[..i + 1][..i] == params[..i] && params[..i + 1][i] == params[i];
      var key := ToLower(params[i].0);
      if key == "jsessionid" || key == "phpsessid" || key == "aspsessionid" {
        assert Rendered(params[..i + 1], charset, lib) == done;
        continue;
      }
      var name := PercentEncodeRfc3986(params[i].0, charset, lib);
      var item := name + (if params[i].1 == "" then "" else "=" + PercentEncodeRfc3986(params[i].1, charset, lib));
      assert !IsSessionKey(params[i].0) && item == RenderParam(params[i], charset, lib);
      assert Rendered(params[..i + 1], charset, lib) == done + [item];
      JoinSkipLeadingEmptySnoc("&", done, item);
      if |sb| > 0 {
        sb := sb + "&";
      }
      sb := sb + item;
    }
    assert params[..|params|] == params;
    return sb;
  }

  /** Writing out distributes over concatenation of maps. */
  lemma {:induction false} WrittenConcat(a: seq<Param>, b: seq<Param>, dropped: string -> bool, render: Param -> string)
    ensures Written(a + b, dropped, render) == Written(a, dropped, render) + Written(b, dropped, render)
    decreases |b|
  {
    if b == [] {
      assert a + b == a;
    } else {
      var b' := b[..|b| - 1];
      WrittenConcat(a, b', dropped, render);
      assert (a + b)[..|a + b| - 1] == a + b';
      assert (a + b)[|a + b| - 1] == b[|b| - 1];
    }
  }

  /** With no entry dropped, every entry is written out, in map order. */
  lemma {:induction false} WrittenKeepsOrder(params: seq<Param>, dropped: string -> bool, render: Param -> string)
    requires forall i :: 0 <= i < |params| ==> !dropped(params[i].0)
    ensures |Written(params, dropped, render)| == |params|
    ensures forall i :: 0 <= i < |params| ==> Written(params, dropped, render)[i] == render(params[i])
    decreases |params|
  {
    if params != [] {
      var init := params[..|params| - 1];
      assert forall i :: 0 <= i < |init| ==> init[i] == params[i];
      WrittenKeepsOrder(init, dropped, render);
    }
  }

  /** Writing out the query's parameters distributes over concatenation of maps. */
  lemma RenderedConcat(a: seq<Param>, b: seq<Param>, charset: string, lib: UrlLibrary)
    ensures Rendered(a + b, charset, lib) == Rendered(a, charset, lib) + Rendered(b, charset, lib)
  {
    WrittenConcat(a, b, IsSessionKey, p => RenderParam(p, charset, lib));
  }

  /** A session parameter anywhere in the map has no effect on the query. */
  lemma SessionParamDropped(a: seq<Param>, p: Param, b: seq<Param>, charset: string, lib: UrlLibrary)
    requires IsSessionKey(p.0)
    ensures QueryText(a + [p] + b, charset, lib) == QueryText(a + b, charset, lib)
  {
    RenderedConcat(a + [p], b, charset, lib);
    RenderedConcat(a, [p], charset, lib);
    RenderedConcat(a, b, charset, lib);
    assert [p][..0] == [];
  }

  /** Without session parameters every entry is written out, in map order. */
  lemma RenderedKeepsOrder(params: seq<Param>, charset: string, lib: UrlLibrary)
    requires forall i :: 0 <= i < |params| ==> !IsSessionKey(params[i].0)
    ensures |Rendered(params, charset, lib)| == |params|
    ensures forall i :: 0 <= i < |params| ==>
      Rendered(params, charset, lib)[i] == RenderParam(params[i], charset, lib)
  {
    WrittenKeepsOrder(params, IsSessionKey, p => RenderParam(p, charset, lib));
  }

  /** The query string written after the path: "?" and the canonical parameters, or nothing. */
  function QueryPart(query: Option<string>, charset: string, lib: UrlLibrary): string {
    match ParameterMap(query)
    case None => ""
    case Some(params) =>
      if params == [] then ""
      else
        var c := QueryText(params, charset, lib);
        if c == "" then "" else "?" + c
  }

  // ---------------------------------------------------------------------------------------
  // The whole URL

  /** What getCanonicalURL builds from the parsed URL, or None where it returns null. */
  function CanonicalFromParts(u: UrlParts, charset: string, lib: UrlLibrary): Option<CanonicalUrl> {
    var host := ToLower(u.host);
    if host == "" then None
    else match lib.normalize(ReplaceAll(u.path, "\\", "/"))
      case None => None
      case Some(normalized) =>
        Some(CanonicalUrl(
          ToLower(u.protocol),
          host,
          if u.port == u.defaultPort then None else u.port,
          NormalizePath(CleanPath(normalized)),
          QueryPart(u.query, charset, lib)))
  }

  /** getCanonicalURL(href, context, charset) as a value: None stands for null. */
  function CanonicalURL(lib: UrlLibrary, href: string, context: Option<string>, charset: string): Option<string> {
    match lib.resolve(context.GetOr(""), href)
    case None => None
    case Some(u) =>
      match CanonicalFromParts(u, charset, lib)
      case None => None
      case Some(c) => Some(ExternalForm(c))
  }

  /** getCanonicalURL(href, context, charset), with both of its path loops. */
  method GetCanonicalURL(lib: UrlLibrary, href: string, context: Option<string>, charset: string)
    returns (r: Option<string>)
    ensures r == CanonicalURL(lib, href, context, charset)
  {
    var parsed := lib.resolve(if context.None? then "" else context.value, href);
    if parsed.None? {
      return None;
    }
    var u := parsed.value;
    var host := ToLower(u.host);
    if host == "" {
      return None;
    }
    var normalized := lib.normalize(ReplaceAll(u.path, "\\", "/"));
    if normalized.None? {
      return None;
    }
    var path := normalized.value;
    var idx := IndexOf(path, "//", 0);
    while idx >= 0
      invariant idx == IndexOf(path, "//", 0)
      invariant Squash(path) == Squash(normalized.value)
      decreases |path|
    {
      ReplaceShrinks(path, "//", "/");
      ReplaceDoubleSlashSquash(path, false);
      path := ReplaceAll(path, "//", "/");
      idx := IndexOf(path, "//", 0);
    }
    NoDoubleSlashIff(path);
    SquashFixed(path, false);
    while StartsWith(path, "/../")
      invariant StripParents(path) == StripParents(Squash(normalized.value))
      decreases |path|
    {
      path := path[3..];
    }
    assert path == StripParents(Squash(normalized.value));
    path := Trim(path);
    var params := CreateParameterMap(u.query);
    var queryString: string;
    if params.Some? && params.value != [] {
      var canonicalParams := CanonicalizeQuery(params.value, charset, lib);
      queryString := if canonicalParams == "" then "" else "?" + canonicalParams;
    } else {
      queryString := "";
    }
    assert queryString == QueryPart(u.query, charset, lib);
    if path == "" {
      path := "/";
    }
    assert path == CleanPath(normalized.value);
    var port := u.port;
    if port == u.defaultPort {
      port := None;
    }
    var protocol := ToLower(u.protocol);
    r := Some(ExternalForm(CanonicalUrl(protocol, host, port, NormalizePath(path), queryString)));
  }

  /** getCanonicalURL(href, context): UTF-8. */
  method GetCanonicalURLIn(lib: UrlLibrary, href: string, context: Option<string>) returns (r: Option<string>)
    ensures r == CanonicalURL(lib, href, context, Utf8Name)
  {
    r := GetCanonicalURL(lib, href, context, Utf8Name);
  }

  /** getCanonicalURL(url): no context, UTF-8. */
  method GetCanonicalURLOf(lib: UrlLibrary, url: string) returns (r: Option<string>)
    ensures r == CanonicalURL(lib, url, None, Utf8Name)
  {
    r := GetCanonicalURLIn(lib, url, None);
  }

  /** Replacing with non-empty text never empties a string. */
  lemma ReplaceKeepsNonEmpty(s: string, pat: string, rep: string)
    requires |pat| > 0 && rep != [] && s != []
    ensures ReplaceAll(s, pat, rep) != []
  {
  }

  /** What every canonical URL looks like: null exactly for an empty host or a path URI cannot
      parse; otherwise scheme and host in lower case, the default port dropped, a non-empty path
      without "//" or spaces, and a query part that is empty or starts with '?'. */
  lemma CanonicalShape(u: UrlParts, charset: string, lib: UrlLibrary)
    ensures CanonicalFromParts(u, charset, lib).None? <==>
      (u.host == "" || lib.normalize(ReplaceAll(u.path, "\\", "/")).None?)
    ensures CanonicalFromParts(u, charset, lib).Some? ==>
      var c := CanonicalFromParts(u, charset, lib).value;
      && c.protocol == ToLower(u.protocol) && NoUpper(c.protocol)
      && c.host == ToLower(u.host) && NoUpper(c.host) && c.host != ""
      && (u.port != u.defaultPort ==> c.port == u.port)
      && (c.port.Some? ==> c.port == u.port && u.port != u.defaultPort)
      && c.path != "" && NoDoubleSlash(c.path) && ' ' !in c.path
      && c.queryString == QueryPart(u.query, charset, lib)
      && (c.queryString == "" || c.queryString[0] == '?')
  {
    ToLowerIsLower(u.host);
    ToLowerIsLower(u.protocol);
    match lib.normalize(ReplaceAll(u.path, "\\", "/"))
    case None =>
    case Some(normalized) =>
      var p := CleanPath(normalized);
      CleanPathShape(normalized);
      NormalizePathShape(p);
      ReplaceKeepsNonEmpty(p, "%7E", "~");
      ReplaceKeepsNonEmpty(ReplaceAll(p, "%7E", "~"), " ", "%20");
  }

  /** The fragment plays no part in the canonical form. */
  lemma FragmentIgnored(u: UrlParts, fragment: Option<string>, charset: string, lib: UrlLibrary)
    ensures CanonicalFromParts(u.(fragment := fragment), charset, lib) == CanonicalFromParts(u, charset, lib)
  {
  }
}

=== FILE: canonicalizer_examples.dfy ===
/** The canonicalizer on the inputs its unit tests use. Where a test goes through java.net.URL
    and URI.normalize, the lemma states what those library calls return for that input. */
module CanonicalizerExamples {
  import opened Wrappers
  import opened Strings
  import opened Percent
  import opened Canonicalizer

  /** The bytes of ASCII text. */
  function Ascii(s: string): (bs: seq<byte>)
    requires forall i :: 0 <= i < |s| ==> s[i] < 0x80 as char
    ensures |bs| == |s|
  {
    seq(|s|, i requires 0 <= i < |s| => s[i] as int)
  }

  /** ASCII text without '%' decodes, '+' kept literal, to its own bytes. */
  lemma {:induction false} DecodeAscii(s: string)
    requires forall i :: 0 <= i < |s| ==> s[i] < 0x80 as char && s[i] != '%'
    ensures DecodeKeepingPlus(s) == Some(Ascii(s))
    decreases |s|
  {
    if s != [] {
      DecodeAscii(s[1..]);
      assert Ascii(s) == [s[0] as int] + Ascii(s[1..]);
    }
  }

  /** Text of unreserved characters is its own RFC 3986 encoding. */
  lemma {:induction false} EncodePlain(s: string)
    requires forall i :: 0 <= i < |s| ==> s[i] < 0x80 as char && IsPlain(s[i] as int)
    ensures Rfc3986Encode(Ascii(s)) == s
    decreases |s|
  {
    if s != [] {
      EncodePlain(s[1..]);
      assert Ascii(s) == [s[0] as int] + Ascii(s[1..]);
      assert Ascii(s)[1..] == Ascii(s[1..]);
    }
  }

  /** Plain text, one byte, and more bytes: the plain text stays and the byte is encoded on its
      own. */
  lemma EncodeAround(x: string, b: byte, rest: seq<byte>)
    requires forall i :: 0 <= i < |x| ==> x[i] < 0x80 as char && IsPlain(x[i] as int)
    ensures Rfc3986Encode(Ascii(x) + ([b] + rest)) == x + Rfc3986Byte(b) + Rfc3986Encode(rest)
  {
    EncodePlain(x);
    ConcatMapAppend(Rfc3986Byte, Ascii(x), [b] + rest);
    ConcatMapAppend(Rfc3986Byte, [b], rest);
    assert ConcatMap(Rfc3986Byte, [b]) == Rfc3986Byte(b) + ConcatMap(Rfc3986Byte, []);
  }

  /** ASCII text without '%' is encoded byte by byte. */
  lemma AsciiEncoded(s: string, lib: UrlLibrary)
    requires forall i :: 0 <= i < |s| ==> s[i] < 0x80 as char && s[i] != '%'
    ensures PercentEncodeRfc3986(s, Utf8Name, lib) == Rfc3986Encode(Ascii(s))
  {
    PercentEncodeMeaning(s, Utf8Name, lib);
    DecodeAscii(s);
  }

  /** "foo", '/', "bar", '+', "baz" as bytes, RFC 3986 encoded. */
  lemma FooBarBazEncoded(foo: string, bar: string, baz: string)
    requires foo == "foo" && bar == "bar" && baz == "baz"
    ensures Rfc3986Encode(Ascii(foo) + ([47] + (Ascii(bar) + ([43] + Ascii(baz))))) == "foo%2Fbar%2Bbaz"
  {
    EncodeAround(foo, 47, Ascii(bar) + ([43] + Ascii(baz)));
    EncodeAround(bar, 43, Ascii(baz));
    EncodePlain(baz);
    assert Rfc3986Byte(47) == "%2F" && Rfc3986Byte(43) == "%2B";
  }

  /** The bytes of "foo/bar+baz", around its '/' and '+'. */
  lemma FooBarBazBytes(s: string)
    requires s == "foo/bar+baz"
    ensures Ascii(s) == Ascii("foo") + ([47] + (Ascii("bar") + ([43] + Ascii("baz"))))
  {
    assert Ascii(s) == Ascii("foo") + ([47] + (Ascii("bar") + ([43] + Ascii("baz"))));
  }

  /** A '/' in a value is escaped, and a literal '+' becomes "%2B" rather than a space. */
  lemma SlashAndPlusEscaped(s: string, lib: UrlLibrary)
    requires s == "foo/bar+baz"
    ensures PercentEncodeRfc3986(s, Utf8Name, lib) == "foo%2Fbar%2Bbaz"
  {
    AsciiEncoded(s, lib);
    FooBarBazBytes(s);
    FooBarBazEncoded("foo", "bar", "baz");
  }

  /** Text of unreserved ASCII characters is left as it is. */
  lemma PlainUnchanged(s: string, lib: UrlLibrary)
    requires forall i :: 0 <= i < |s| ==> s[i] < 0x80 as char && IsPlain(s[i] as int)
    ensures PercentEncodeRfc3986(s, Utf8Name, lib) == s
  {
    PercentEncodeMeaning(s, Utf8Name, lib);
    DecodeAscii(s);
    EncodePlain(s);
  }

  /** A '+' in a value is a literal plus, escaped as "%2B". */
  lemma PlusEscaped(s: string, lib: UrlLibrary)
    requires s == "a+b"
    ensures PercentEncodeRfc3986(s, Utf8Name, lib) == "a%2Bb"
  {
    AsciiEncoded(s, lib);
    var a, b := "a", "b";
    assert Ascii(s) == Ascii(a) + ([43] + Ascii(b));
    EncodeAround(a, 43, Ascii(b));
    EncodePlain(b);
    assert Rfc3986Byte(43) == "%2B";
  }

  /** A space is escaped as "%20", not as the '+' URLEncoder writes. */
  lemma SpaceEscaped(s: string, lib: UrlLibrary)
    requires s == "a b"
    ensures PercentEncodeRfc3986(s, Utf8Name, lib) == "a%20b"
  {
    AsciiEncoded(s, lib);
    var a, b := "a", "b";
    assert Ascii(s) == Ascii(a) + ([32] + Ascii(b));
    EncodeAround(a, 32, Ascii(b));
    EncodePlain(b);
    assert Rfc3986Byte(32) == "%20";
  }

  /** A '%' that starts no escape makes decoding fail, and the value is kept as it is. */
  lemma BrokenEscapeKept(s: string, lib: UrlLibrary)
    requires s == "100%"
    ensures PercentEncodeRfc3986(s, Utf8Name, lib) == "100%"
  {
    PercentEncodeMeaning(s, Utf8Name, lib);
    assert DecodeKeepingPlus(s[3..]) == None;
    assert DecodeKeepingPlus(s[2..]) == None;
    assert DecodeKeepingPlus(s[1..]) == None;
    assert DecodeKeepingPlus(s) == None;
    ContainsChar(s, '+');
    ReplaceAbsent(s, "+", "%2B");
  }

  /** Leading "/.." segments that would climb above the root are dropped. */
  lemma ParentsAboveRootDropped(p: string)
    requires p == "/../../a.html"
    ensures StripParents(p) == "/a.html"
  {
    assert StartsWith(p, "/../");
    assert p[3..] == "/../a.html";
    assert StartsWith(p[3..], "/../");
    assert p[3..][3..] == "/a.html";
    var q := "/a.html";
    assert q[..4][1] == 'a';
    assert !StartsWith(q, "/../");
    assert StripParents(p[3..][3..]) == q;
    assert StripParents(p[3..]) == q;
  }

  /** Writing out a parameter whose name and value are plain text. */
  lemma RenderPlain(k: string, v: string, lib: UrlLibrary)
    requires forall i :: 0 <= i < |k| ==> k[i] < 0x80 as char && IsPlain(k[i] as int)
    requires forall i :: 0 <= i < |v| ==> v[i] < 0x80 as char && IsPlain(v[i] as int)
    ensures RenderParam((k, v), Utf8Name, lib) == if v == "" then k else k + "=" + v
  {
    PlainUnchanged(k, lib);
    PlainUnchanged(v, lib);
  }

  /** The three parameters of the next example, written out one by one. */
  lemma PlainPairsWritten(lib: UrlLibrary)
    ensures RenderParam(("a", "b"), Utf8Name, lib) == "a=b"
    ensures RenderParam(("", ""), Utf8Name, lib) == ""
    ensures RenderParam(("c", "d"), Utf8Name, lib) == "c=d"
  {
    RenderPlain("a", "b", lib);
    RenderPlain("", "", lib);
    RenderPlain("c", "d", lib);
  }

  /** None of the next example's names is a session parameter. */
  lemma NoSessionKeys(params: seq<Param>)
    requires params == [("a", "b"), ("", ""), ("c", "d")]
    ensures forall i :: 0 <= i < |params| ==> !IsSessionKey(params[i].0)
  {
    assert forall i :: 0 <= i < |params| ==> |ToLower(params[i].0)| <= 1;
  }

  /** The entries of the next example written out, one by one. */
  lemma PairsRenderedEach(params: seq<Param>, lib: UrlLibrary)
    requires params == [("a", "b"), ("", ""), ("c", "d")]
    ensures |Rendered(params, Utf8Name, lib)| == 3
    ensures Rendered(params, Utf8Name, lib)[0] == "a=b"
    ensures Rendered(params, Utf8Name, lib)[1] == ""
    ensures Rendered(params, Utf8Name, lib)[2] == "c=d"
  {
    NoSessionKeys(params);
    RenderedKeepsOrder(params, Utf8Name, lib);
    PlainPairsWritten(lib);
  }

  /** The entries of the next example, none a session parameter, written out in order. */
  lemma PairsRendered(params: seq<Param>, lib: UrlLibrary)
    requires params == [("a", "b"), ("", ""), ("c", "d")]
    ensures Rendered(params, Utf8Name, lib) == ["a=b", "", "c=d"]
  {
    PairsRenderedEach(params, lib);
    var r := Rendered(params, Utf8Name, lib);
    assert r == [r[0], r[1], r[2]];
  }

  /** The items of the next example joined: the empty one leaves "&&". */
  lemma ItemsJoined(xs: seq<string>)
    requires xs == ["a=b", "", "c=d"]
    ensures JoinSkipLeadingEmpty("&", xs) == "a=b&&c=d"
  {
    assert DropLeadingEmpty(xs) == xs;
    assert xs[1..] == ["", "c=d"] && xs[1..][1..] == ["c=d"];
    assert Join("&", xs[1..][1..]) == "c=d";
    assert Join("&", xs[1..]) == "" + "&" + "c=d";
    assert Join("&", xs) == "a=b" + "&" + ("" + "&" + "c=d");
  }

  /** A pair without a name, "=", is kept as an empty entry, which is written out as an empty
      item between two '&'. */
  lemma EmptyPairWritten(params: seq<Param>, lib: UrlLibrary)
    requires params == [("a", "b"), ("", ""), ("c", "d")]
    ensures QueryText(params, Utf8Name, lib) == "a=b&&c=d"
  {
    PairsRendered(params, lib);
    ItemsJoined(Rendered(params, Utf8Name, lib));
  }
}

=== FILE: fetcher.dfy ===
/** PageFetcher.fetchPage: the politeness delay, the branching on the response status, the
    Content-Length fallback and size limit, and the abort of a request that produced no entity.
    The HTTP exchange itself is an input: the request URI HttpGet made of the URL (or its
    refusal), and the response execute returned (or its failure). */
module Fetcher {
  import opened Wrappers
  import opened Strings
  import Canonicalizer
  import Pages

  datatype Header = Header(name: string, value: string)

  /** What execute returned: the status line's code, the entity (null when there is none) and
      every header in order. */
  datatype Response = Response(statusCode: int, entity: Option<Pages.Entity>, headers: seq<Header>)

  /** PageFetchResult as fetchPage leaves it. */
  datatype FetchResult = FetchResult(
    statusCode: int,
    entity: Option<Pages.Entity>,
    responseHeaders: seq<Header>,
    movedToUrl: Option<string>,
    fetchedUrl: Option<string>)

  /** Why fetchPage ended with an exception other than PageBiggerThanMaxSizeException. */
  datatype Failure =
    | RequestRejected     // newHttpUriRequest threw: there is no request
    | ExecuteFailed       // execute threw
    | NoCanonicalUri      // getCanonicalURL of the request URI was null, and equals threw
    | BadContentLength    // Integer.parseInt of the Content-Length value threw

  datatype FetchOutcome =
    | Fetched(result: FetchResult)
    | TooBig(size: int)   // PageBiggerThanMaxSizeException(size)
    | Failed(failure: Failure)

  /** 301, 302, 300, 303, 307 or 308: the statuses fetchPage reads a Location header for. */
  predicate IsRedirect(statusCode: int) {
    statusCode == 301 || statusCode == 302 || statusCode == 300 ||
    statusCode == 303 || statusCode == 307 || statusCode == 308
  }

  /** The redirect statuses are the 3xx codes up to 308 other than 304 Not Modified, 305 Use
      Proxy and the unused 306, and none of them is a success. */
  lemma RedirectStatuses(statusCode: int)
    ensures IsRedirect(statusCode) <==>
      300 <= statusCode <= 308 && statusCode != 304 && statusCode != 305 && statusCode != 306
    ensures IsRedirect(statusCode) ==> !(200 <= statusCode <= 299)
  {
  }

  /** Header names compare with equalsIgnoreCase. */
  predicate Named(h: Header, name: string) {
    ToLower(h.name) == ToLower(name)
  }

  /** getFirstHeader: the index of the first header with that name, or -1. */
  function FirstHeaderIndex(hs: seq<Header>, name: string): (r: int)
    ensures -1 <= r < |hs|
    ensures r >= 0 ==> Named(hs[r], name) && forall j :: 0 <= j < r ==> !Named(hs[j], name)
    ensures r == -1 ==> forall j :: 0 <= j < |hs| ==> !Named(hs[j], name)
    decreases |hs|
  {
    if hs == [] then -1
    else if Named(hs[0], name) then 0
    else
      var r := FirstHeaderIndex(hs[1..], name);
      if r < 0 then -1 else r + 1
  }

  /** getLastHeader: the index of the last header with that name, or -1. */
  function LastHeaderIndex(hs: seq<Header>, name: string): (r: int)
    ensures -1 <= r < |hs|
    ensures r >= 0 ==> Named(hs[r], name) && forall j :: r < j < |hs| ==> !Named(hs[j], name)
    ensures r == -1 ==> forall j :: 0 <= j < |hs| ==> !Named(hs[j], name)
    decreases |hs|
  {
    if hs == [] then -1
    else if Named(hs[|hs| - 1], name) then |hs| - 1
    else LastHeaderIndex(hs[..|hs| - 1], name)
  }

  function HeaderValue(hs: seq<Header>, i: int): Option<string>
    requires -1 <= i < |hs|
  {
    if i < 0 then None else Some(hs[i].value)
  }

  function FirstHeader(hs: seq<Header>, name: string): Option<string> {
    HeaderValue(hs, FirstHeaderIndex(hs, name))
  }

  function LastHeader(hs: seq<Header>, name: string): Option<string> {
    HeaderValue(hs, LastHeaderIndex(hs, name))
  }

  /** Headers found by one spelling of a name are found by any other: the second lookup of
      Content-Length, spelled "Content-length", finds nothing the first one missed. */
  lemma LengthFallbackFindsNothingNew(hs: seq<Header>, a: string, b: string)
    requires a == "Content-Length" && b == "Content-length"
    ensures LastHeader(hs, a).None? ==> LastHeader(hs, b).None?
    ensures LastHeader(hs, a) == LastHeader(hs, b)
  {
    assert ToLower(a) == ToLower(b);
    assert forall h :: Named(h, a) <==> Named(h, b);
    var i, k := LastHeaderIndex(hs, a), LastHeaderIndex(hs, b);
    if i != k {
      if i < k {
        assert Named(hs[k], a);
      } else {
        assert Named(hs[i], b);
      }
    }
  }

  predicate AllDigits(s: string) {
    forall i :: 0 <= i < |s| ==> '0' <= s[i] <= '9'
  }

  /** The number a string of decimal digits denotes. */
  function DigitsValue(s: string): nat
    requires AllDigits(s)
    decreases |s|
  {
    if s == [] then 0 else 10 * DigitsValue(s[..|s| - 1]) + (s[|s| - 1] as int - '0' as int)
  }

  /** Integer.parseInt with ASCII digits: an optional sign, at least one digit and a value in
      int range; None stands for NumberFormatException. */
  function ParseInt(s: string): (r: Option<int>)
    ensures r.Some? ==> -0x8000_0000 <= r.value < 0x8000_0000
    ensures r.Some? ==> s != [] && s != "-" && s != "+"
  {
    if s == [] then None
    else
      var digits := if s[0] == '-' || s[0] == '+' then s[1..] else s;
      if digits == [] || !AllDigits(digits) then None
      else
        var v: int := if s[0] == '-' then 0 - DigitsValue(digits) as int else DigitsValue(digits);
        if -0x8000_0000 <= v < 0x8000_0000 then Some(v) else None
  }

  lemma {:induction false} DigitsOfNat(n: nat)
    ensures AllDigits(NatToString(n)) && DigitsValue(NatToString(n)) == n
    decreases n
  {
    if n >= 10 {
      DigitsOfNat(n / 10);
      var s := NatToString(n);
      assert s[..|s| - 1] == NatToString(n / 10);
    }
  }

  /** Integer.parseInt reads back what Integer.toString writes, for either sign. */
  lemma ParseIntRoundTrip(n: nat)
    requires n < 0x8000_0000
    ensures ParseInt(NatToString(n)) == Some(n)
    ensures ParseInt("-" + NatToString(n)) == Some(-(n as int))
  {
    ParseDigits(n);
    ParseNegated(n);
  }

  lemma ParseDigits(n: nat)
    requires n < 0x8000_0000
    ensures ParseInt(NatToString(n)) == Some(n)
  {
    DigitsOfNat(n);
    var s := NatToString(n);
    assert s[0] != '-' && s[0] != '+';
  }

  lemma ParseNegated(n: nat)
    requires n < 0x8000_0000
    ensures ParseInt("-" + NatToString(n)) == Some(-(n as int))
  {
    DigitsOfNat(n);
    var s := NatToString(n);
    var t := "-" + s;
    assert t[0] == '-' && t[1..] == s;
  }

  /** The size fetchPage checks: the entity's content length, or when that is -1 the last
      Content-Length header (then "Content-length") parsed as an int, or -1 when there is
      none; None when the header does not parse. */
  function DownloadSize(contentLength: int, hs: seq<Header>): Option<int> {
    if contentLength != -1 then Some(contentLength)
    else
      var length :=
        if LastHeader(hs, "Content-Length").Some? then LastHeader(hs, "Content-Length")
        else LastHeader(hs, "Content-length");
      if length.None? then Some(-1) else ParseInt(length.value)
  }

  /** The size is the announced length when there is one, the last Content-Length header
      (whatever the case of its name) otherwise, and -1 only when neither exists. */
  lemma DownloadSizeMeaning(contentLength: int, hs: seq<Header>)
    ensures contentLength != -1 ==> DownloadSize(contentLength, hs) == Some(contentLength)
    ensures contentLength == -1 && LastHeader(hs, "Content-Length").None? ==>
      DownloadSize(contentLength, hs) == Some(-1)
    ensures contentLength == -1 && LastHeader(hs, "Content-Length").Some? ==>
      DownloadSize(contentLength, hs) == ParseInt(LastHeader(hs, "Content-Length").value)
  {
    LengthFallbackFindsNothingNew(hs, "Content-Length", "Content-length");
  }

  /** lastFetchTime after the politeness block, read from a clock that showed `now` before
      and `overshoot` later than the requested sleep after: the previous stamp plus the delay
      when the last fetch is too recent, otherwise the current time. */
  function NextStamp(last: int, now: int, delay: int, overshoot: nat): (t: int)
    ensures t >= last + delay && t >= now
    ensures now - last >= delay ==> t == now + overshoot
  {
    if now - last < delay then now + (delay - (now - last)) + overshoot else now + overshoot
  }

  /** The download size of a fetched entity: its announced length, or when that is -1 the
      Content-Length header (either spelling), parsed; None where parsing throws. */
  method ReadSize(contentLength: int, hs: seq<Header>) returns (size: Option<int>)
    ensures size == DownloadSize(contentLength, hs)
  {
    size := Some(contentLength);
    if contentLength == -1 {
      var length := LastHeader(hs, "Content-Length");
      if length.None? {
        length := LastHeader(hs, "Content-length");
      }
      if length.Some? {
        size := ParseInt(length.value);
      }
    }
  }

  class PageFetcher {
    var lastFetchTime: int
    const politenessDelay: int
    const maxDownloadSize: int
    const lib: Canonicalizer.UrlLibrary

    constructor(politenessDelay: int, maxDownloadSize: int, lib: Canonicalizer.UrlLibrary)
      ensures lastFetchTime == 0 && this.politenessDelay == politenessDelay
      ensures this.maxDownloadSize == maxDownloadSize && this.lib == lib
    {
      lastFetchTime := 0;
      this.politenessDelay := politenessDelay;
      this.maxDownloadSize := maxDownloadSize;
      this.lib := lib;
    }

    /** The politeness wait: the stamp becomes the clock reading after sleeping out what is
        left of the delay (plus however much the sleep overshoots). */
    method Wait(now: int, overshoot: nat)
      modifies this`lastFetchTime
      ensures lastFetchTime == NextStamp(old(lastFetchTime), now, politenessDelay, overshoot)
    {
      if now - lastFetchTime < politenessDelay {
        lastFetchTime := now + (politenessDelay - (now - lastFetchTime)) + overshoot;
      } else {
        lastFetchTime := now + overshoot;
      }
    }

    /** fetchPage for the URL `toFetchURL`. `requestUri` is the URI of the request
        newHttpUriRequest built (None when it threw), `now` and `overshoot` the clock around
        the politeness sleep, `response` what execute returned (None when it threw). */
    method FetchPage(toFetchURL: string, requestUri: Option<string>, now: int, overshoot: nat,
                     response: Option<Response>)
      returns (outcome: FetchOutcome, aborted: bool)
      modifies this`lastFetchTime
      // politeness: a stamp at least the delay after the previous one
      ensures lastFetchTime ==
        if requestUri.Some? && politenessDelay > 0
        then NextStamp(old(lastFetchTime), now, politenessDelay, overshoot)
        else old(lastFetchTime)
      ensures requestUri.Some? && politenessDelay > 0 ==>
        lastFetchTime >= old(lastFetchTime) + politenessDelay && lastFetchTime >= now
      // the finally block
      ensures aborted <==> requestUri.Some? && (response.None? || response.value.entity.None?)
      ensures requestUri.None? ==> outcome == Failed(RequestRejected)
      ensures requestUri.Some? && response.None? ==> outcome == Failed(ExecuteFailed)
      ensures requestUri.Some? && response.Some? ==> var resp := response.value;
        // a normal return keeps the response's status, entity and headers
        (outcome.Fetched? ==>
          outcome.result.statusCode == resp.statusCode && outcome.result.entity == resp.entity &&
          outcome.result.responseHeaders == resp.headers) &&
        // redirects: the canonical Location, resolved against the URL fetched
        (IsRedirect(resp.statusCode) ==>
          (outcome.Fetched? && outcome.result.fetchedUrl == None &&
           outcome.result.movedToUrl ==
             (var loc := FirstHeader(resp.headers, "Location");
              if loc.None? then None
              else Canonicalizer.CanonicalURL(lib, loc.value, Some(toFetchURL), Canonicalizer.Utf8Name)))) &&
        // neither redirect nor success: nothing more is recorded
        (!IsRedirect(resp.statusCode) && !(200 <= resp.statusCode <= 299) ==>
          outcome == Fetched(FetchResult(resp.statusCode, resp.entity, resp.headers, None, None))) &&
        // success: the URL actually fetched, then the size limit
        (200 <= resp.statusCode <= 299 ==> var uri := requestUri.value;
          var canon := Canonicalizer.CanonicalURL(lib, uri, None, Canonicalizer.Utf8Name);
          if uri != toFetchURL && canon.None? then outcome == Failed(NoCanonicalUri)
          else
            var fetched := if uri != toFetchURL && canon != Some(toFetchURL) then uri else toFetchURL;
            var size := if resp.entity.None? then Some(-1)
              else DownloadSize(resp.entity.value.contentLength, resp.headers);
            if size.None? then outcome == Failed(BadContentLength)
            else if resp.entity.Some? && size.value > maxDownloadSize then outcome == TooBig(size.value)
            else outcome == Fetched(FetchResult(resp.statusCode, resp.entity, resp.headers, None, Some(fetched))))
    {
      var result := FetchResult(0, None, [], None, None);
      if requestUri.None? {
        return Failed(RequestRejected), false;
      }
      if politenessDelay > 0 {
        Wait(now, overshoot);
      }
      if response.None? {
        return Failed(ExecuteFailed), true;
      }
      var resp := response.value;
      result := result.(entity := resp.entity, responseHeaders := resp.headers);
      aborted := result.entity.None?;
      var statusCode := resp.statusCode;
      if statusCode == 301 || statusCode == 302 || statusCode == 300 ||
         statusCode == 303 || statusCode == 307 || statusCode == 308 {
        var location := FirstHeader(resp.headers, "Location");
        if location.Some? {
          var movedToUrl := Canonicalizer.GetCanonicalURLIn(lib, location.value, Some(toFetchURL));
          result := result.(movedToUrl := movedToUrl);
        }
      } else if 200 <= statusCode <= 299 {
        result := result.(fetchedUrl := Some(toFetchURL));
        var uri := requestUri.value;
        if uri != toFetchURL {
          var canon := Canonicalizer.GetCanonicalURLOf(lib, uri);
          if canon.None? {
            return Failed(NoCanonicalUri), aborted;
          }
          if canon.value != toFetchURL {
            result := result.(fetchedUrl := Some(uri));
          }
        }
        if result.entity.Some? {
          var size := ReadSize(result.entity.value.contentLength, resp.headers);
          if size.None? {
            return Failed(BadContentLength), aborted;
          }
          if size.value > maxDownloadSize {
            return TooBig(size.value), aborted;
          }
        }
      }
      result := result.(statusCode := statusCode);
      outcome := Fetched(result);
    }
  }

  /** Two fetches in a row that both apply the politeness delay leave stamps at least the
      delay apart, for a clock that does not run backwards across a sleep (`overshoot` is a
      `nat`). */
  method PolitenessSpacing(f: PageFetcher, url: string, uri: string, now1: int, over1: nat,
                           now2: int, over2: nat, r1: Option<Response>, r2: Option<Response>)
    returns (first: int, second: int)
    requires f.politenessDelay > 0
    modifies f
    ensures second - first >= f.politenessDelay
  {
    var o, a := f.FetchPage(url, Some(uri), now1, over1, r1);
    first := f.lastFetchTime;
    o, a := f.FetchPage(url, Some(uri), now2, over2, r2);
    second := f.lastFetchTime;
  }
}

=== FILE: page.dfy ===
/** Page.toByteArray and Page.load: reading an HTTP entity's body into a growable byte buffer,
    bounded by a maximum size, and the fields load fills in. */
module Pages {
  import opened Wrappers
  import opened Percent
  import WebUrls

  /** Length of the read buffer handed to InputStream.read, and the capacity used when the
      entity does not announce a positive length. */
  const ChunkSize := 4096

  /** An HTTP entity as toByteArray and load see it. */
  datatype Entity = Entity(
    contentLength: int,              // getContentLength(): -1 when unknown
    body: seq<seq<byte>>,            // what the successive read(tmpBuff) calls return before -1
    contentType: Option<string>,     // value of the Content-Type header
    contentEncoding: Option<string>) // value of the Content-Encoding header

  /** The outcome of ContentType.getOrDefault(entity).getCharset(). */
  datatype CharsetLookup =
    | Declared(displayName: string)  // a charset was named and is supported
    | Undeclared                     // no charset: getCharset() is null
    | Unparsable                     // parsing the header or naming the charset threw

  /** ExtractedUrlAnchorPair: a link the HTML parser found, with its anchor text and tag. */
  datatype Anchor = Anchor(href: Option<string>, anchor: Option<string>, tag: Option<string>)

  /** The parse data Parser.parse attaches to a page. Outgoing links are kept by their URL:
      the WebURLs of a HashSet are equal exactly when their URLs are. */
  datatype ParseData =
    | BinaryParseData(html: Option<string>, outgoingUrls: set<string>)
    | TextParseData(textContent: string, outgoingUrls: set<string>)
    | HtmlParseData(text: string, title: Option<string>, htmlText: string,
                    outgoingLinks: map<string, Anchor>)

  function Max(a: int, b: int): int { if a < b then b else a }

  /** The body bytes in order: chunks[0] + chunks[1] + ... */
  function Concat(chunks: seq<seq<byte>>): seq<byte>
    decreases |chunks|
  {
    if chunks == [] then [] else Concat(chunks[..|chunks| - 1]) + chunks[|chunks| - 1]
  }

  lemma ConcatSnoc(chunks: seq<seq<byte>>, i: nat)
    requires i < |chunks|
    ensures Concat(chunks[..i + 1]) == Concat(chunks[..i]) + chunks[i]
  {
    assert chunks[..i + 1][..i] == chunks[..i];
  }

  /** The bytes of the first i chunks come first in the body. */
  lemma {:induction false} ConcatPrefix(chunks: seq<seq<byte>>, i: nat)
    requires i <= |chunks|
    ensures Concat(chunks[..i]) <= Concat(chunks)
    decreases |chunks| - i
  {
    if i < |chunks| {
      ConcatPrefix(chunks, i + 1);
      ConcatSnoc(chunks, i);
    } else {
      assert chunks[..i] == chunks;
    }
  }

  /** The first maxBytes bytes of s when maxBytes is positive and s is longer; s otherwise. */
  function Cap(s: seq<byte>, maxBytes: int): (r: seq<byte>)
    ensures r <= s
    ensures maxBytes > 0 ==> |r| <= maxBytes
    ensures |r| < |s| <==> maxBytes > 0 && |s| > maxBytes
  {
    if maxBytes > 0 && |s| > maxBytes then s[..maxBytes] else s
  }

  /** Whether reading a body makes toByteArray set `truncated`. */
  predicate Overflows(chunks: seq<seq<byte>>, maxBytes: int) {
    maxBytes > 0 && |Concat(chunks)| > maxBytes
  }

  /** What toByteArray returns for a body read in `chunks` once the buffer exists. The read loop
      stops after a chunk whenever the `truncated` field is set, and the field is never cleared:
      on a page already marked truncated only the first chunk is read. */
  function BoundedRead(chunks: seq<seq<byte>>, maxBytes: int, wasTruncated: bool): (r: seq<byte>)
    ensures r <= Concat(chunks)
    ensures maxBytes > 0 ==> |r| <= maxBytes
    ensures !wasTruncated ==> (Overflows(chunks, maxBytes) <==> r != Concat(chunks))
    ensures !wasTruncated && Overflows(chunks, maxBytes) ==> |r| == maxBytes
    ensures !wasTruncated && (maxBytes == 0 || |Concat(chunks)| <= maxBytes) ==> r == Concat(chunks)
  {
    if wasTruncated then
      if chunks == [] then []
      else
        ConcatPrefix(chunks, 1);
        assert Concat(chunks[..1]) == chunks[0] by { ConcatSnoc(chunks, 0); }
        Cap(chunks[0], maxBytes)
    else Cap(Concat(chunks), maxBytes)
  }

  /** The (int) cast of the content length, or 4096 when that is not positive, capped at
      maxBytes. ByteArrayBuffer refuses a negative capacity, so this is where a negative
      maxBytes makes the read fail. */
  function InitialCapacity(contentLength: int, maxBytes: int): (c: int)
    ensures c <= maxBytes
    ensures c < 0 <==> maxBytes < 0
    ensures c == 0 <==> maxBytes == 0
    ensures 0 < WebUrls.Int32(contentLength) <= maxBytes ==> c == WebUrls.Int32(contentLength)
    ensures WebUrls.Int32(contentLength) <= 0 && ChunkSize <= maxBytes ==> c == ChunkSize
    ensures maxBytes <= (if WebUrls.Int32(contentLength) <= 0 then ChunkSize else WebUrls.Int32(contentLength))
      ==> c == maxBytes
  {
    var size := WebUrls.Int32(contentLength);
    var readBufferLength := if size <= 0 then ChunkSize else size;
    if readBufferLength < maxBytes then readBufferLength else maxBytes
  }

  /** A read overflowing maxBytes within chunk i keeps the bytes before it and exactly as many
      of that chunk as still fit. */
  lemma CapAtOverflow(chunks: seq<seq<byte>>, i: nat, maxBytes: int)
    requires i < |chunks|
    requires |Concat(chunks[..i])| <= maxBytes < |Concat(chunks[..i])| + |chunks[i]|
    ensures maxBytes - |Concat(chunks[..i])| <= |chunks[i]|
    ensures Overflows(chunks, maxBytes) || maxBytes <= 0
    ensures maxBytes > 0 ==>
      Cap(Concat(chunks), maxBytes) == Concat(chunks[..i]) + chunks[i][..maxBytes - |Concat(chunks[..i])|]
  {
    ConcatPrefix(chunks, i + 1);
    ConcatSnoc(chunks, i);
    var pre, c := Concat(chunks[..i]), chunks[i];
    var whole := Concat(chunks);
    assert whole[..|pre| + |c|] == pre + c;
    if maxBytes > 0 {
      assert whole[..maxBytes] == (pre + c)[..maxBytes];
      assert (pre + c)[..maxBytes] == pre + c[..maxBytes - |pre|];
    }
  }

  /** org.apache.http.util.ByteArrayBuffer: an array that doubles when an append does not fit. */
  class ByteArrayBuffer {
    var buffer: array<byte>
    var len: nat

    ghost predicate Valid()
      reads this
    {
      len <= buffer.Length
    }

    /** The bytes appended so far. */
    function Contents(): (s: seq<byte>)
      reads this, buffer
      requires Valid()
      ensures |s| == len
    {
      buffer[..len]
    }

    constructor(capacity: nat)
      ensures Valid() && Contents() == [] && buffer.Length == capacity && fresh(buffer)
    {
      buffer := new byte[capacity];
      len := 0;
    }

    /** expand: a new array of twice the capacity, or newlen when that is more, holding the
        same bytes. */
    method Expand(newlen: nat)
      requires Valid()
      modifies this
      ensures Valid() && len == old(len) && Contents() == old(Contents())
      ensures fresh(buffer) && buffer.Length == Max(2 * old(buffer.Length), newlen)
    {
      var grown := new byte[Max(2 * buffer.Length, newlen)];
      var i := 0;
      while i < len
        invariant 0 <= i <= len <= buffer.Length <= grown.Length
        invariant grown[..i] == buffer[..i]
        modifies grown
      {
        grown[i] := buffer[i];
        i := i + 1;
      }
      assert grown[..len] == buffer[..len];
      buffer := grown;
    }

    /** append(b, 0, n): the first n bytes of b go after the contents, the array growing when
        they do not fit. */
    method Append(b: seq<byte>, n: nat)
      requires Valid() && n <= |b|
      modifies this, buffer
      ensures Valid() && Contents() == old(Contents()) + b[..n]
      ensures old(len) + n <= old(buffer.Length) ==> buffer == old(buffer)
      ensures old(len) + n > old(buffer.Length) ==>
        fresh(buffer) && buffer.Length == Max(2 * old(buffer.Length), old(len) + n)
    {
      if n == 0 {
        return;
      }
      var newlen := len + n;
      if newlen > buffer.Length {
        Expand(newlen);
      }
      ghost var before := Contents();
      var i := 0;
      while i < n
        invariant 0 <= i <= n && len + n <= buffer.Length
        invariant forall j :: 0 <= j < len ==> buffer[j] == before[j]
        invariant forall j :: 0 <= j < i ==> buffer[len + j] == b[j]
        modifies buffer
      {
        buffer[len + i] := b[i];
        i := i + 1;
      }
      assert buffer[..newlen] == before + b[..n] by {
        forall j | 0 <= j < newlen
          ensures buffer[..newlen][j] == (before + b[..n])[j]
        {
          if j >= len {
            assert buffer[len + (j - len)] == b[j - len];
          }
        }
      }
      len := newlen;
    }
  }

  class Page {
    var url: WebUrls.WebURL
    var contentData: Option<seq<byte>>
    var contentType: Option<string>
    var contentEncoding: Option<string>
    var contentCharset: Option<string>
    var language: Option<string>
    var parseData: Option<ParseData>
    var truncated: bool

    /** A page for a URL: no content yet, not truncated. */
    constructor(url: WebUrls.WebURL)
      ensures this.url == url && !truncated
      ensures contentData == None && contentType == None
      ensures contentEncoding == None && contentCharset == None
      ensures language == None && parseData == None
    {
      this.url := url;
      contentData := None;
      contentType := None;
      contentEncoding := None;
      contentCharset := None;
      language := None;
      parseData := None;
      truncated := false;
    }

    /** toByteArray: no entity gives no bytes; a negative maxBytes makes the buffer's
        constructor throw (None); otherwise the body is read chunk by chunk, and the chunk that
        would take the buffer past a positive maxBytes is cut to what fits, marks the page
        truncated and ends the read. */
    method ToByteArray(entity: Option<Entity>, maxBytes: int) returns (r: Option<seq<byte>>)
      modifies this`truncated
      ensures entity.None? ==> r == Some([]) && truncated == old(truncated)
      ensures entity.Some? && maxBytes < 0 ==> r == None && truncated == old(truncated)
      ensures entity.Some? && maxBytes >= 0 ==>
        r == Some(BoundedRead(entity.value.body, maxBytes, old(truncated))) &&
        truncated == (old(truncated) || Overflows(entity.value.body, maxBytes))
    {
      if entity.None? {
        return Some([]);
      }
      var body := entity.value.body;
      var capacity := InitialCapacity(entity.value.contentLength, maxBytes);
      if capacity < 0 {
        return None;
      }
      var buffer := new ByteArrayBuffer(capacity);
      var i := 0;
      while i < |body|
        invariant 0 <= i <= |body|
        invariant fresh(buffer) && fresh(buffer.buffer) && buffer.Valid()
        invariant buffer.Contents() == Concat(body[..i])
        invariant truncated == old(truncated) && (truncated ==> i == 0)
        invariant maxBytes > 0 ==> |Concat(body[..i])| <= maxBytes
        decreases |body| - i
      {
        var chunk := body[i];
        var dataLength := |chunk|;
        ConcatSnoc(body, i);
        if maxBytes > 0 && buffer.len + dataLength > maxBytes {
          CapAtOverflow(body, i, maxBytes);
          truncated := true;
          dataLength := maxBytes - buffer.len;
        }
        buffer.Append(chunk, dataLength);
        if truncated {
          assert i == 0 || !old(truncated);
          if old(truncated) {
            assert body[..0] == [];
          }
          assert buffer.Contents() == BoundedRead(body, maxBytes, old(truncated));
          break;
        }
        i := i + 1;
      }
      if !truncated {
        assert body[..i] == body;
      }
      r := Some(buffer.Contents());
    }

    /** load: the Content-Type and Content-Encoding header values (or null), the charset's
        name (UTF-8 when determining it threw; left as it was when there is none), then the
        body. When toByteArray throws, the header fields are already set and contentData keeps
        its value. */
    method Load(entity: Entity, maxBytes: int, charset: CharsetLookup) returns (ok: bool)
      modifies this`contentData, this`contentType, this`contentEncoding, this`contentCharset,
        this`truncated
      ensures contentType == entity.contentType && contentEncoding == entity.contentEncoding
      ensures charset.Declared? ==> contentCharset == Some(charset.displayName)
      ensures charset.Undeclared? ==> contentCharset == old(contentCharset)
      ensures charset.Unparsable? ==> contentCharset == Some("UTF-8")
      ensures ok <==> maxBytes >= 0
      ensures ok ==> contentData == Some(BoundedRead(entity.body, maxBytes, old(truncated)))
      ensures !ok ==> contentData == old(contentData)
      ensures truncated == (old(truncated) || (ok && Overflows(entity.body, maxBytes)))
    {
      contentType := entity.contentType;
      contentEncoding := entity.contentEncoding;
      match charset {
        case Declared(name) => contentCharset := Some(name);
        case Undeclared =>
        case Unparsable => contentCharset := Some("UTF-8");
      }
      var data := ToByteArray(Some(entity), maxBytes);
      if data.None? {
        return false;
      }
      contentData := data;
      ok := true;
    }
  }

  /** A page already marked truncated reads only the first chunk of a later body, even one
      that fits. */
  lemma TruncatedPageReadsOneChunk(a: seq<byte>, b: seq<byte>)
    requires a == [1] && b == [2]
    ensures BoundedRead([a, b], 0, true) == [1]
    ensures BoundedRead([a, b], 0, false) == [1, 2]
  {
    ConcatSnoc([a, b], 0);
    ConcatSnoc([a, b], 1);
    assert [a, b][..2] == [a, b];
    assert [a, b][..0] == [];
  }
}

=== FILE: parser.dfy ===
/** Parser.parse: the gate on binary content, the plain-text branch, and in the HTML branch the
    loop that turns the parser's anchors into the page's outgoing links. Content-type tests,
    URL extraction from text, charset decoding, the HTML parser and language identification
    are library behaviour and come in as given functions. */
module Parsers {
  import opened Wrappers
  import opened Strings
  import Canonicalizer
  import Pages
  import Percent

  /** What the HTML parser and its content handler report about a document. */
  datatype HtmlDocument = HtmlDocument(
    bodyText: string,
    title: Option<string>,
    contentEncoding: Option<string>,  // the metadata's Content-Encoding
    baseUrl: Option<string>,          // the href of a <base> element
    anchors: seq<Pages.Anchor>)       // getOutgoingUrls(), in document order

  /** The library behaviour parse relies on. */
  datatype ParserLibrary = ParserLibrary(
    hasBinaryContent: Option<string> -> bool,        // Util.hasBinaryContent(contentType)
    hasPlainTextContent: Option<string> -> bool,     // Util.hasPlainTextContent(contentType)
    binaryToHtml: Option<seq<Percent.byte>> -> Option<string>, // setBinaryContent: the html, or null
    extractUrls: string -> set<string>,              // Net.extractUrls
    defaultDecode: seq<Percent.byte> -> string,        // new String(bytes)
    decode: (seq<Percent.byte>, string) -> Option<string>, // new String(bytes, charset); None: unsupported
    parseHtml: seq<Percent.byte> -> Option<HtmlDocument>,   // the HTML parser; None when it throws
    language: string -> string,                      // LanguageIdentifier.getLanguage
    forName: string -> Option<string>,               // Charset.forName; None when it throws
    urls: Canonicalizer.UrlLibrary)

  /** The crawl configuration parse reads. */
  datatype ParserConfig = ParserConfig(
    includeBinaryContentInCrawling: bool,
    processBinaryContentInCrawling: bool,
    maxOutgoingLinksToFollow: int)

  datatype ParseOutcome =
    | Parsed
    | NotAllowedContent   // NotAllowedContentException
    | ParseError          // ParseException
    | CharsetError        // Charset.forName threw, out of parse

  /** A null href, or one that is empty once trimmed. */
  predicate Blank(href: Option<string>) {
    href.None? || Trim(href.value) == ""
  }

  /** Links the crawler does not follow: scripts, mail addresses and anything with an '@'. */
  predicate Unfollowable(href: string) {
    var lowered := ToLower(Trim(href));
    Contains(lowered, "javascript:") || Contains(lowered, "mailto:") || Contains(lowered, "@")
  }

  /** An anchor that reaches the canonicalizer. */
  predicate Passes(a: Pages.Anchor) {
    !Blank(a.href) && !Unfollowable(a.href.value)
  }

  /** Some element of `xs` satisfies `p`, looking from the back. */
  predicate Any<T>(xs: seq<T>, p: T -> bool)
    decreases |xs|
  {
    xs != [] && (Any(xs[..|xs| - 1], p) || p(xs[|xs| - 1]))
  }

  lemma {:induction false} AnyMeaning<T>(xs: seq<T>, p: T -> bool)
    ensures Any(xs, p) <==> exists j :: 0 <= j < |xs| && p(xs[j])
    decreases |xs|
  {
    if xs != [] {
      var init := xs[..|xs| - 1];
      AnyMeaning(init, p);
      if exists j :: 0 <= j < |xs| && p(xs[j]) {
        var j :| 0 <= j < |xs| && p(xs[j]);
        if j < |init| {
          assert init[j] == xs[j];
        }
      }
      if exists j :: 0 <= j < |init| && p(init[j]) {
        var j :| 0 <= j < |init| && p(init[j]);
        assert xs[j] == init[j];
      }
    }
  }

  /** Some anchor reaches the canonicalizer. */
  predicate AnyPasses(anchors: seq<Pages.Anchor>) {
    Any(anchors, Passes)
  }

  lemma AnyPassesMeaning(anchors: seq<Pages.Anchor>)
    ensures AnyPasses(anchors) <==> exists j :: 0 <= j < |anchors| && Passes(anchors[j])
  {
    AnyMeaning(anchors, Passes);
  }

  /** The anchors up to i + 1: those up to i, and anchor i. */
  lemma AnyPassesStep(anchors: seq<Pages.Anchor>, i: nat)
    requires i < |anchors|
    ensures AnyPasses(anchors[..i + 1]) <==> AnyPasses(anchors[..i]) || Passes(anchors[i])
  {
    assert anchors[..i + 1][..i] == anchors[..i];
  }

  /** An anchor that passes makes some anchor pass. */
  lemma PassingAnchor(anchors: seq<Pages.Anchor>, i: nat)
    requires i < |anchors| && Passes(anchors[i])
    ensures AnyPasses(anchors)
  {
    AnyPassesMeaning(anchors);
  }

  /** The charset hrefs are encoded in: UTF-8 when the page has none (or an empty name),
      otherwise the one Charset.forName finds, None when it throws. */
  function HrefCharset(contentCharset: Option<string>, forName: string -> Option<string>): Option<string> {
    if contentCharset.None? || contentCharset.value == "" then Some(Canonicalizer.Utf8Name)
    else forName(contentCharset.value)
  }

  /** What the link loop resolves and canonicalizes against, and its cap. */
  datatype LinkFilter = LinkFilter(
    context: Option<string>,
    charset: string,
    maxLinks: int,
    urls: Canonicalizer.UrlLibrary)

  /** The canonical URL an anchor contributes, if any. */
  function FollowedUrl(a: Pages.Anchor, f: LinkFilter): Option<string> {
    if Passes(a) then Canonicalizer.CanonicalURL(f.urls, a.href.value, f.context, f.charset) else None
  }

  /** What each anchor contributes, in order. */
  function Candidates(anchors: seq<Pages.Anchor>, f: LinkFilter): (found: seq<Option<string>>)
    ensures |found| == |anchors|
    decreases |anchors|
  {
    if anchors == [] then [] else [FollowedUrl(anchors[0], f)] + Candidates(anchors[1..], f)
  }

  /** The i-th contribution is what the i-th anchor contributes. */
  lemma {:induction false} CandidateAt(anchors: seq<Pages.Anchor>, f: LinkFilter, i: nat)
    requires i < |anchors|
    ensures Candidates(anchors, f)[i] == FollowedUrl(anchors[i], f)
    decreases i
  {
    if i > 0 {
      CandidateAt(anchors[1..], f, i - 1);
    }
  }

  /** The links the loop collects from `anchors`, whose contributions are `found`, after
      collecting `acc` with `count` adds: a URL already present keeps its first anchor, every
      add counts, and the loop ends once the count exceeds the cap. */
  function Collect(anchors: seq<Pages.Anchor>, found: seq<Option<string>>, maxLinks: int,
                   acc: map<string, Pages.Anchor>, count: int): map<string, Pages.Anchor>
    requires |found| == |anchors|
    decreases |anchors|
  {
    if anchors == [] then acc
    else match found[0]
      case None => Collect(anchors[1..], found[1..], maxLinks, acc, count)
      case Some(u) =>
        var added := if u in acc then acc else acc[u := anchors[0]];
        if count + 1 > maxLinks then added else Collect(anchors[1..], found[1..], maxLinks, added, count + 1)
  }

  /** How many anchors contribute a URL. */
  function AcceptedCount(found: seq<Option<string>>): nat
    decreases |found|
  {
    if found == [] then 0 else (if found[0].Some? then 1 else 0) + AcceptedCount(found[1..])
  }

  /** The URLs the anchors contribute. */
  function AcceptedUrls(found: seq<Option<string>>): set<string>
    decreases |found|
  {
    if found == [] then {}
    else (match found[0] case None => {} case Some(u) => {u}) + AcceptedUrls(found[1..])
  }

  /** Never more than maxOutgoingLinksToFollow + 1 links (one when the cap is negative). */
  lemma {:induction false} CollectBound(anchors: seq<Pages.Anchor>, found: seq<Option<string>>,
                                        maxLinks: int, acc: map<string, Pages.Anchor>, count: int)
    requires |found| == |anchors|
    requires |acc| <= count <= Pages.Max(maxLinks, 0)
    ensures |Collect(anchors, found, maxLinks, acc, count)| <= Pages.Max(maxLinks, 0) + 1
    decreases |anchors|
  {
    if anchors != [] {
      match found[0]
      case None => CollectBound(anchors[1..], found[1..], maxLinks, acc, count);
      case Some(u) =>
        var added := if u in acc then acc else acc[u := anchors[0]];
        assert |added| <= |acc| + 1;
        if count + 1 <= maxLinks {
          CollectBound(anchors[1..], found[1..], maxLinks, added, count + 1);
        }
    }
  }

  /** Links collected earlier stay, with their anchors. */
  lemma {:induction false} CollectKeeps(anchors: seq<Pages.Anchor>, found: seq<Option<string>>,
                                        maxLinks: int, acc: map<string, Pages.Anchor>, count: int, u: string)
    requires |found| == |anchors| && u in acc
    ensures u in Collect(anchors, found, maxLinks, acc, count)
    ensures Collect(anchors, found, maxLinks, acc, count)[u] == acc[u]
    decreases |anchors|
  {
    if anchors != [] {
      match found[0]
      case None => CollectKeeps(anchors[1..], found[1..], maxLinks, acc, count, u);
      case Some(v) =>
        var added := if v in acc then acc else acc[v := anchors[0]];
        if count + 1 <= maxLinks {
          CollectKeeps(anchors[1..], found[1..], maxLinks, added, count + 1, u);
        }
    }
  }

  /** The anchor at j is the first to contribute u. */
  predicate FirstWith(found: seq<Option<string>>, j: int, u: string) {
    0 <= j < |found| && found[j] == Some(u) && forall k :: 0 <= k < j ==> found[k] != Some(u)
  }

  lemma FirstWithShift(found: seq<Option<string>>, j: int, u: string)
    requires |found| > 0 && found[0] != Some(u) && FirstWith(found[1..], j, u)
    ensures FirstWith(found, j + 1, u)
  {
    forall k | 0 <= k < j + 1 ensures found[k] != Some(u) {
      if k > 0 {
        assert found[k] == found[1..][k - 1];
      }
    }
  }

  /** Every new link is the canonical URL of an anchor that passed the filter, and it carries
      the first such anchor. */
  lemma {:induction false} CollectSound(anchors: seq<Pages.Anchor>, found: seq<Option<string>>,
                                        maxLinks: int, acc: map<string, Pages.Anchor>, count: int, u: string)
    requires |found| == |anchors|
    requires u in Collect(anchors, found, maxLinks, acc, count) && u !in acc
    ensures exists j :: FirstWith(found, j, u) && Collect(anchors, found, maxLinks, acc, count)[u] == anchors[j]
    decreases |anchors|
  {
    var r := Collect(anchors, found, maxLinks, acc, count);
    match found[0]
    case None =>
      CollectSound(anchors[1..], found[1..], maxLinks, acc, count, u);
      var j :| FirstWith(found[1..], j, u) && r[u] == anchors[1..][j];
      FirstWithShift(found, j, u);
      assert r[u] == anchors[j + 1];
    case Some(v) =>
      var added := if v in acc then acc else acc[v := anchors[0]];
      if v == u {
        CollectKeeps(anchors[1..], found[1..], maxLinks, added, count + 1, u);
        assert FirstWith(found, 0, u);
      } else {
        CollectSound(anchors[1..], found[1..], maxLinks, added, count + 1, u);
        var j :| FirstWith(found[1..], j, u) && r[u] == anchors[1..][j];
        FirstWithShift(found, j, u);
        assert r[u] == anchors[j + 1];
      }
  }

  /** Below the cap nothing is lost: every contributed URL ends up among the links. */
  lemma {:induction false} CollectComplete(anchors: seq<Pages.Anchor>, found: seq<Option<string>>,
                                           maxLinks: int, acc: map<string, Pages.Anchor>, count: int)
    requires |found| == |anchors|
    requires count + AcceptedCount(found) <= maxLinks
    ensures Collect(anchors, found, maxLinks, acc, count).Keys == acc.Keys + AcceptedUrls(found)
    decreases |anchors|
  {
    if anchors != [] {
      match found[0]
      case None => CollectComplete(anchors[1..], found[1..], maxLinks, acc, count);
      case Some(u) =>
        var added := if u in acc then acc else acc[u := anchors[0]];
        assert added.Keys == acc.Keys + {u};
        CollectComplete(anchors[1..], found[1..], maxLinks, added, count + 1);
    }
  }

  /** A blank href, or one that names a script, a mail address or contains '@' in any case,
      contributes nothing. */
  lemma FilteredHrefs(a: Pages.Anchor, f: LinkFilter)
    ensures Blank(a.href) ==> FollowedUrl(a, f) == None
    ensures !Blank(a.href) && Contains(ToLower(Trim(a.href.value)), "javascript:") ==> FollowedUrl(a, f) == None
    ensures !Blank(a.href) && Contains(ToLower(Trim(a.href.value)), "mailto:") ==> FollowedUrl(a, f) == None
    ensures !Blank(a.href) && Contains(ToLower(Trim(a.href.value)), "@") ==> FollowedUrl(a, f) == None
    ensures Passes(a) ==> FollowedUrl(a, f) == Canonicalizer.CanonicalURL(f.urls, a.href.value, f.context, f.charset)
  {
  }

  /** One turn of the link loop, at anchor i, in terms of the state after it: the loop ends
      there when the count has just passed the cap, and goes on with the next anchor
      otherwise. */
  lemma CollectTurn(anchors: seq<Pages.Anchor>, found: seq<Option<string>>, maxLinks: int,
                    acc: map<string, Pages.Anchor>, count: int, i: nat,
                    acc': map<string, Pages.Anchor>, count': int)
    requires |found| == |anchors| && i < |anchors|
    requires found[i].None? ==> acc' == acc && count' == count
    requires found[i].Some? ==>
      acc' == (if found[i].value in acc then acc else acc[found[i].value := anchors[i]]) && count' == count + 1
    ensures found[i].Some? && count' > maxLinks ==> Collect(anchors[i..], found[i..], maxLinks, acc, count) == acc'
    ensures !(found[i].Some? && count' > maxLinks) ==>
      Collect(anchors[i..], found[i..], maxLinks, acc, count) ==
      Collect(anchors[i + 1..], found[i + 1..], maxLinks, acc', count')
  {
    CollectStep(anchors, found, maxLinks, acc, count, i);
  }

  /** One turn of the link loop, at anchor i. */
  lemma CollectStep(anchors: seq<Pages.Anchor>, found: seq<Option<string>>, maxLinks: int,
                    acc: map<string, Pages.Anchor>, count: int, i: nat)
    requires |found| == |anchors| && i < |anchors|
    ensures found[i].None? ==>
      Collect(anchors[i..], found[i..], maxLinks, acc, count) ==
      Collect(anchors[i + 1..], found[i + 1..], maxLinks, acc, count)
    ensures found[i].Some? ==>
      var u := found[i].value;
      var added := if u in acc then acc else acc[u := anchors[i]];
      Collect(anchors[i..], found[i..], maxLinks, acc, count) ==
      if count + 1 > maxLinks then added
      else Collect(anchors[i + 1..], found[i + 1..], maxLinks, added, count + 1)
  {
    assert anchors[i..][0] == anchors[i] && anchors[i..][1..] == anchors[i + 1..];
    assert found[i..][0] == found[i] && found[i..][1..] == found[i + 1..];
  }

  /** One turn of the link loop up to the canonical URL: a blank or unfollowable href gives
      none; otherwise the page's charset is looked up (ok is false when Charset.forName
      throws) and the href canonicalized in it. */
  method FollowAnchor(a: Pages.Anchor, context: Option<string>, contentCharset: Option<string>,
                      maxLinks: int, lib: ParserLibrary)
    returns (ok: bool, url: Option<string>)
    ensures !ok <==> Passes(a) && HrefCharset(contentCharset, lib.forName).None?
    ensures ok ==> url == FollowedUrl(a, LinkFilter(context,
      HrefCharset(contentCharset, lib.forName).GetOr(Canonicalizer.Utf8Name), maxLinks, lib.urls))
  {
    ok, url := true, None;
    if Blank(a.href) {
      return;
    }
    if !Unfollowable(a.href.value) {
      var hrefCharset: string;
      if contentCharset.None? || contentCharset.value == "" {
        hrefCharset := Canonicalizer.Utf8Name;
      } else {
        var named := lib.forName(contentCharset.value);
        if named.None? {
          return false, None;
        }
        hrefCharset := named.value;
      }
      url := Canonicalizer.GetCanonicalURL(lib.urls, a.href.value, context, hrefCharset);
    }
  }

  /** The outgoing-link loop of the HTML branch. None: the page's charset is unknown to
      Charset.forName and some anchor got as far as needing it. */
  method CollectLinks(anchors: seq<Pages.Anchor>, context: Option<string>, contentCharset: Option<string>,
                      maxLinks: int, lib: ParserLibrary)
    returns (links: Option<map<string, Pages.Anchor>>)
    ensures links.None? <==>
      HrefCharset(contentCharset, lib.forName).None? && AnyPasses(anchors)
    ensures links.Some? ==>
      var f := LinkFilter(context, HrefCharset(contentCharset, lib.forName).GetOr(Canonicalizer.Utf8Name),
                          maxLinks, lib.urls);
      links.value == Collect(anchors, Candidates(anchors, f), maxLinks, map[], 0)
  {
    ghost var cs := HrefCharset(contentCharset, lib.forName);
    ghost var f := LinkFilter(context, cs.GetOr(Canonicalizer.Utf8Name), maxLinks, lib.urls);
    ghost var found := Candidates(anchors, f);
    var outgoing: map<string, Pages.Anchor> := map[];
    var urlCount := 0;
    var i := 0;
    while i < |anchors|
      invariant 0 <= i <= |anchors|
      invariant Collect(anchors[i..], found[i..], maxLinks, outgoing, urlCount) ==
        Collect(anchors, found, maxLinks, map[], 0)
      invariant cs.None? ==> !AnyPasses(anchors[..i])
    {
      var ok, url := FollowAnchor(anchors[i], context, contentCharset, maxLinks, lib);
      if !ok {
        PassingAnchor(anchors, i);
        return None;
      }
      AnyPassesStep(anchors, i);
      CandidateAt(anchors, f, i);
      ghost var acc, count := outgoing, urlCount;
      if url.Some? {
        if url.value !in outgoing {
          outgoing := outgoing[url.value := anchors[i]];
        }
        urlCount := urlCount + 1;
        CollectTurn(anchors, found, maxLinks, acc, count, i, outgoing, urlCount);
        if urlCount > maxLinks {
          assert cs.Some?;
          links := Some(outgoing);
          return;
        }
      } else {
        CollectTurn(anchors, found, maxLinks, acc, count, i, outgoing, urlCount);
      }
      i := i + 1;
    }
    assert anchors[i..] == [] && anchors[..i] == anchors;
    links := Some(outgoing);
  }

  class Parser {
    const config: ParserConfig
    const lib: ParserLibrary

    constructor(config: ParserConfig, lib: ParserLibrary)
      ensures this.config == config && this.lib == lib
    {
      this.config := config;
      this.lib := lib;
    }

    /** parse(page, contextURL): sets the page's parse data, and in the HTML branch its charset
        (when it had none) and language. */
    method Parse(page: Pages.Page, contextURL: Option<string>) returns (outcome: ParseOutcome)
      modifies page`parseData, page`contentCharset, page`language
      // binary content: refused, or parsed to html (a placeholder unless it is processed)
      ensures lib.hasBinaryContent(old(page.contentType)) ==>
        page.contentCharset == old(page.contentCharset) && page.language == old(page.language) &&
        (!config.includeBinaryContentInCrawling ==>
          outcome == NotAllowedContent && page.parseData == old(page.parseData)) &&
        (config.includeBinaryContentInCrawling ==>
          var html := if config.processBinaryContentInCrawling then lib.binaryToHtml(old(page.contentData))
                      else Some("<html></html>");
          if html.None? then outcome == ParseError && page.parseData == Some(Pages.BinaryParseData(None, {}))
          else outcome == Parsed && page.parseData == Some(Pages.BinaryParseData(html, lib.extractUrls(html.value))))
      // plain text: decoded in the page's charset, or the platform's when it has none
      ensures !lib.hasBinaryContent(old(page.contentType)) && lib.hasPlainTextContent(old(page.contentType)) ==>
        page.contentCharset == old(page.contentCharset) && page.language == old(page.language) &&
        var data := old(page.contentData);
        var text := if data.None? then None
                    else if old(page.contentCharset).None? then Some(lib.defaultDecode(data.value))
                    else lib.decode(data.value, old(page.contentCharset).value);
        if text.None? then outcome == ParseError && page.parseData == old(page.parseData)
        else outcome == Parsed && page.parseData == Some(Pages.TextParseData(text.value, lib.extractUrls(text.value)))
      // HTML
      ensures !lib.hasBinaryContent(old(page.contentType)) && !lib.hasPlainTextContent(old(page.contentType)) ==>
        var data := old(page.contentData);
        var doc := if data.None? then None else lib.parseHtml(data.value);
        if doc.None? then
          outcome == ParseError && page.parseData == old(page.parseData) &&
          page.contentCharset == old(page.contentCharset) && page.language == old(page.language)
        else
          var d := doc.value;
          var charset := if old(page.contentCharset).None? then d.contentEncoding else old(page.contentCharset);
          var cs := HrefCharset(charset, lib.forName);
          var context := if d.baseUrl.Some? then d.baseUrl else contextURL;
          var f := LinkFilter(context, cs.GetOr(Canonicalizer.Utf8Name), config.maxOutgoingLinksToFollow, lib.urls);
          var links := Collect(d.anchors, Candidates(d.anchors, f), config.maxOutgoingLinksToFollow, map[], 0);
          var html := if charset.None? then Some(lib.defaultDecode(data.value)) else lib.decode(data.value, charset.value);
          page.contentCharset == charset && page.language == Some(lib.language(Trim(d.bodyText))) &&
          if cs.None? && AnyPasses(d.anchors) then
            outcome == CharsetError && page.parseData == old(page.parseData)
          else if html.None? then
            outcome == ParseError && page.parseData == old(page.parseData)
          else
            outcome == Parsed &&
            page.parseData == Some(Pages.HtmlParseData(Trim(d.bodyText), d.title, html.value, links))
    {
      if lib.hasBinaryContent(page.contentType) {
        if !config.includeBinaryContentInCrawling {
          return NotAllowedContent;
        }
        var html: Option<string>;
        if config.processBinaryContentInCrawling {
          html := lib.binaryToHtml(page.contentData);
        } else {
          html := Some("<html></html>");
        }
        page.parseData := Some(Pages.BinaryParseData(html, {}));
        if html.None? {
          return ParseError;
        }
        page.parseData := Some(Pages.BinaryParseData(html, lib.extractUrls(html.value)));
        return Parsed;
      } else if lib.hasPlainTextContent(page.contentType) {
        if page.contentData.None? {
          return ParseError;
        }
        var text: string;
        if page.contentCharset.None? {
          text := lib.defaultDecode(page.contentData.value);
        } else {
          var decoded := lib.decode(page.contentData.value, page.contentCharset.value);
          if decoded.None? {
            return ParseError;
          }
          text := decoded.value;
        }
        page.parseData := Some(Pages.TextParseData(text, lib.extractUrls(text)));
        return Parsed;
      } else {
        if page.contentData.None? {
          return ParseError;
        }
        var data := page.contentData.value;
        var doc := lib.parseHtml(data);
        if doc.None? {
          return ParseError;
        }
        var d := doc.value;
        if page.contentCharset.None? {
          page.contentCharset := d.contentEncoding;
        }
        var text := Trim(d.bodyText);
        page.language := Some(lib.language(text));
        var context := contextURL;
        if d.baseUrl.Some? {
          context := d.baseUrl;
        }
        var links := CollectLinks(d.anchors, context, page.contentCharset, config.maxOutgoingLinksToFollow, lib);
        if links.None? {
          return CharsetError;
        }
        var html: string;
        if page.contentCharset.None? {
          html := lib.defaultDecode(data);
        } else {
          var decoded := lib.decode(data, page.contentCharset.value);
          if decoded.None? {
            return ParseError;
          }
          html := decoded.value;
        }
        page.parseData := Some(Pages.HtmlParseData(text, d.title, html, links.value));
        return Parsed;
      }
    }
  }
}

=== FILE: pathrule.dfy ===
/** PathRule: a robots.txt path pattern compiled, in one left-to-right scan, into an anchored
    regular expression, and the whole-string match of a path against it. The expression is kept
    as a list of tokens, each of which stands for one piece of the regular-expression text; the
    Java regex engine is replaced by a matcher over those tokens. */
module PathRules {
  import opened Strings

  /** One piece of the compiled expression: "\Q...\E", ".+", ".*" or "$". */
  datatype Token = Literal(text: string) | AnyPlus | AnyStar | EndAnchor

  /** The expression text of a token. */
  function TokenText(t: Token): string {
    match t
    case Literal(s) => "\\Q" + s + "\\E"
    case AnyPlus => ".+"
    case AnyStar => ".*"
    case EndAnchor => "$"
  }

  function TokensText(ts: seq<Token>): string
    decreases |ts|
  {
    if ts == [] then "" else TokenText(ts[0]) + TokensText(ts[1..])
  }

  /** The expression string (Pattern.toString()): '^' followed by the tokens. */
  function Regex(ts: seq<Token>): string {
    "^" + TokensText(ts)
  }

  // ---------------------------------------------------------------------------------------
  // What the scan reads

  /** One unit of the pattern: a literal character, a '*' (noting whether it is the final
      character), or a final '$'. */
  datatype Item = Char(c: char) | Star(last: bool) | Dollar

  /** The units of pattern[pos..]: "\*" is a literal '*', any other backslash is itself, a '*'
      is a wildcard, a '$' is an anchor only as the last character. */
  function Lex(p: string, pos: nat): seq<Item>
    decreases |p| - pos
  {
    if pos >= |p| then []
    else if p[pos] == '\\' then
      if pos < |p| - 1 && p[pos + 1] == '*' then [Char('*')] + Lex(p, pos + 2)
      else [Char('\\')] + Lex(p, pos + 1)
    else if p[pos] == '*' then [Star(pos == |p| - 1)] + Lex(p, pos + 1)
    else if p[pos] == '$' && pos == |p| - 1 then [Dollar]
    else [Char(p[pos])] + Lex(p, pos + 1)
  }

  /** A final '*' or '$' ends the pattern: no implicit ".*" is added. */
  predicate Terminated(items: seq<Item>) {
    items != [] && (items[|items| - 1].Dollar? || items[|items| - 1] == Star(true))
  }

  /** The characters of `q` as literal units. */
  function Chars(q: string): seq<Item> {
    seq(|q|, i requires 0 <= i < |q| => Char(q[i]))
  }

  /** Runs of literal characters become one quoted literal; wildcards and the anchor become
      their own tokens. */
  function Group(items: seq<Item>): seq<Token>
    decreases |items|
  {
    if items == [] then []
    else
      var rest := Group(items[1..]);
      match items[0]
      case Char(c) =>
        if rest != [] && rest[0].Literal? then [Literal([c] + rest[0].text)] + rest[1..]
        else [Literal([c])] + rest
      case _ => [WildToken(items[0])] + rest
  }

  /** robotsPatternToRegexp as a value: "^$" for the empty pattern; otherwise the grouped units,
      followed by ".*" unless a final '*' or '$' terminated the pattern. */
  function Compile(p: string): seq<Token> {
    if p == "" then [EndAnchor]
    else Group(Lex(p, 0)) + (if Terminated(Lex(p, 0)) then [] else [AnyStar])
  }

  /** A quoted literal of `q` (none when `q` is empty). */
  function LiteralOf(q: string): seq<Token> {
    if q == "" then [] else [Literal(q)]
  }

  /** Literal characters in front of a non-literal unit form one literal token. */
  lemma {:induction false} GroupChars(q: string, rest: seq<Item>)
    requires rest == [] || !rest[0].Char?
    ensures Group(Chars(q) + rest) == LiteralOf(q) + Group(rest)
    decreases |q|
  {
    if q == "" {
      assert Chars(q) + rest == rest;
    } else {
      GroupChars(q[1..], rest);
      assert [q[0]] + q[1..] == q;
      GroupCharsCons(q[0], q[1..], rest);
    }
  }

  /** One more literal character in front of a run of literals joins its quoted literal. */
  lemma GroupCharsCons(c: char, t: string, rest: seq<Item>)
    requires rest == [] || !rest[0].Char?
    requires Group(Chars(t) + rest) == LiteralOf(t) + Group(rest)
    ensures Group(Chars([c] + t) + rest) == LiteralOf([c] + t) + Group(rest)
  {
    var items := Chars([c] + t) + rest;
    TailOfCons(c, t);
    CharsCons([c] + t, t);
    ConsAssoc(Char(c), Chars(t), rest);
    TailOfCons(Char(c), Chars(t) + rest);
    assert items == [Char(c)] + (Chars(t) + rest);
    GroupCharFront(items);
    var g := Group(rest);
    assert Group(items[1..]) == LiteralOf(t) + g;
    if t == "" {
      assert LiteralOf(t) + g == g;
      assert g == [] || !g[0].Literal?;
      assert [c] + t == [c];
    } else {
      TailOfCons(Literal(t), g);
    }
  }

  /** The token of a wildcard or an anchor. */
  function WildToken(x: Item): Token
    requires !x.Char?
  {
    if x.Dollar? then EndAnchor else if x.last then AnyStar else AnyPlus
  }

  /** The unit the scan reads at `pos` is the literal character `c`, and the next unit starts
      at `next`: an escaped '*', a backslash that escapes nothing, or an ordinary character. */
  predicate LiteralAt(p: string, pos: nat, c: char, next: nat) {
    pos < |p| &&
    if p[pos] == '\\' then
      if pos < |p| - 1 && p[pos + 1] == '*' then c == '*' && next == pos + 2
      else c == '\\' && next == pos + 1
    else p[pos] != '*' && !(p[pos] == '$' && pos == |p| - 1) && c == p[pos] && next == pos + 1
  }

  /** The unit the scan reads at `pos` is the wildcard or anchor `x`. */
  predicate WildAt(p: string, pos: nat, x: Item) {
    pos < |p| &&
    ((p[pos] == '*' && x == Star(pos == |p| - 1)) || (p[pos] == '$' && pos == |p| - 1 && x == Dollar))
  }

  lemma LexLiteral(p: string, pos: nat, c: char, next: nat)
    requires LiteralAt(p, pos, c, next)
    ensures Lex(p, pos) == [Char(c)] + Lex(p, next)
  {
  }

  lemma LexWild(p: string, pos: nat, x: Item)
    requires WildAt(p, pos, x)
    ensures Lex(p, pos) == [x] + Lex(p, pos + 1)
  {
  }

  /** Flushing the buffer `q` in front of a wildcard or anchor `x`. */
  lemma GroupFlush(q: string, x: Item, next: seq<Item>)
    requires !x.Char?
    ensures Group(Chars(q) + ([x] + next)) == LiteralOf(q) + [WildToken(x)] + Group(next)
  {
    GroupChars(q, [x] + next);
    assert ([x] + next)[1..] == next;
  }

  /** What the scan has established after reading the units before `pos`: the emitted tokens
      followed by the grouping of the buffered characters and of the unread units give the
      grouping of the whole pattern, and `terminated` says whether the last unit, once read,
      ended the pattern. */
  predicate Scanned(p: string, pos: nat, q: string, tokens: seq<Token>, terminated: bool) {
    pos <= |p| &&
    tokens + Group(Chars(q) + Lex(p, pos)) == Group(Lex(p, 0)) &&
    (terminated ==> pos == |p| && Terminated(Lex(p, 0))) &&
    (!terminated ==> (Terminated(Lex(p, 0)) <==> Terminated(Lex(p, pos))))
  }

  /** A unit in front of a non-empty rest does not change whether the units end terminated. */
  lemma TerminatedCons(x: Item, r: seq<Item>)
    ensures r != [] ==> (Terminated([x] + r) <==> Terminated(r))
    ensures r == [] ==> (Terminated([x] + r) <==> x.Dollar? || x == Star(true))
  {
    assert ([x] + r)[|[x] + r| - 1] == if r == [] then x else r[|r| - 1];
  }

  /** One step of the scan over a literal character `c`: the character moves from the unread
      units into the quote buffer. */
  lemma LiteralStep(p: string, pos: nat, c: char, next: nat, q: string, tokens: seq<Token>)
    requires LiteralAt(p, pos, c, next)
    requires Scanned(p, pos, q, tokens, false)
    ensures Scanned(p, next, q + [c], tokens, false)
  {
    LexLiteral(p, pos, c, next);
    var rest := Lex(p, next);
    assert Chars(q + [c]) == Chars(q) + [Char(c)];
    assert Chars(q + [c]) + rest == Chars(q) + ([Char(c)] + rest);
    TerminatedCons(Char(c), rest);
  }

  /** Flushing the buffer before a wildcard or anchor keeps the grouping of the whole pattern. */
  lemma FlushGroups(p: string, pos: nat, x: Item, q: string, tokens: seq<Token>)
    requires WildAt(p, pos, x)
    requires tokens + Group(Chars(q) + Lex(p, pos)) == Group(Lex(p, 0))
    ensures tokens + LiteralOf(q) + [WildToken(x)] + Group(Chars("") + Lex(p, pos + 1)) == Group(Lex(p, 0))
  {
    LexWild(p, pos, x);
    var next := Lex(p, pos + 1);
    GroupFlush(q, x, next);
    AppendAssoc(tokens, LiteralOf(q) + [WildToken(x)], Group(next));
    AppendAssoc(tokens, LiteralOf(q), [WildToken(x)]);
    assert Chars("") == [];
    assert Chars("") + next == next;
  }

  /** A final wildcard or anchor ends the units terminated; any other leaves termination to the
      units after it. */
  lemma FlushEnds(p: string, pos: nat, x: Item)
    requires WildAt(p, pos, x)
    ensures (x.Dollar? || x.last) ==> pos + 1 == |p| && Terminated(Lex(p, pos))
    ensures !(x.Dollar? || x.last) ==> (Terminated(Lex(p, pos)) <==> Terminated(Lex(p, pos + 1)))
  {
    LexWild(p, pos, x);
    TerminatedCons(x, Lex(p, pos + 1));
    LexNonEmpty(p, pos + 1);
  }

  /** One step of the scan over a wildcard or anchor `x`: the quote buffer is flushed as a
      literal and the token of `x` follows it; a final unit terminates the scan. */
  lemma FlushStep(p: string, pos: nat, x: Item, q: string, tokens: seq<Token>)
    requires WildAt(p, pos, x)
    requires Scanned(p, pos, q, tokens, false)
    ensures Scanned(p, pos + 1, "", tokens + LiteralOf(q) + [WildToken(x)], x.Dollar? || x.last)
  {
    FlushGroups(p, pos, x, q, tokens);
    FlushEnds(p, pos, x);
  }

  lemma AppendAssoc<T>(a: seq<T>, b: seq<T>, c: seq<T>)
    ensures a + (b + c) == a + b + c
  {
  }

  /** Units remain while characters remain. */
  lemma LexNonEmpty(p: string, pos: nat)
    ensures pos < |p| ==> Lex(p, pos) != []
  {
  }

  /** Before the scan nothing is read. */
  lemma ScanStart(p: string)
    ensures Scanned(p, 0, "", [], false)
  {
    assert Chars("") + Lex(p, 0) == Lex(p, 0);
  }

  /** After the scan the buffered characters form the last literal, and ".*" follows unless the
      pattern was terminated. */
  lemma ScanEnd(p: string, pos: nat, q: string, tokens: seq<Token>, terminated: bool)
    requires p != "" && pos >= |p|
    requires Scanned(p, pos, q, tokens, terminated)
    ensures tokens + LiteralOf(q) + (if terminated then [] else [AnyStar]) == Compile(p)
  {
    GroupChars(q, []);
    assert Chars(q) + [] == Chars(q);
  }

  /** Emitting the quote buffer as a quoted literal when it holds anything. */
  method FlushQuote(tokens: seq<Token>, quoteBuf: string) returns (r: seq<Token>)
    ensures r == tokens + LiteralOf(quoteBuf)
  {
    r := tokens;
    if quoteBuf != "" {
      r := r + [Literal(quoteBuf)];
    }
  }

  /** The scan, as robotsPatternToRegexp performs it: a quote buffer collects literal characters
      and is flushed before each wildcard or final anchor and at the end. */
  method RobotsPatternToRegexp(pattern: string) returns (tokens: seq<Token>)
    ensures tokens == Compile(pattern)
  {
    if pattern == "" {
      return [EndAnchor];
    }
    tokens := [];
    var quoteBuf := "";
    var terminated := false;
    var pos := 0;
    ScanStart(pattern);
    while pos < |pattern|
      invariant Scanned(pattern, pos, quoteBuf, tokens, terminated)
      decreases |pattern| - pos
    {
      var ch := pattern[pos];
      if ch == '\\' {
        var nch := if pos < |pattern| - 1 then pattern[pos + 1] else 0 as char;
        if nch == '*' {
          LiteralStep(pattern, pos, nch, pos + 1 + 1, quoteBuf, tokens);
          quoteBuf := quoteBuf + [nch];
          pos := pos + 1;
        } else {
          LiteralStep(pattern, pos, ch, pos + 1, quoteBuf, tokens);
          quoteBuf := quoteBuf + [ch];
        }
      } else if ch == '*' {
        var last := pos == |pattern| - 1;
        FlushStep(pattern, pos, Star(last), quoteBuf, tokens);
        tokens := FlushQuote(tokens, quoteBuf);
        quoteBuf := "";
        if last {
          terminated := true;
          tokens := tokens + [AnyStar];
        } else {
          tokens := tokens + [AnyPlus];
        }
      } else if ch == '$' && pos == |pattern| - 1 {
        FlushStep(pattern, pos, Dollar, quoteBuf, tokens);
        tokens := FlushQuote(tokens, quoteBuf);
        quoteBuf := "";
        tokens := tokens + [EndAnchor];
        terminated := true;
      } else {
        LiteralStep(pattern, pos, ch, pos + 1, quoteBuf, tokens);
        quoteBuf := quoteBuf + [ch];
      }
      pos := pos + 1;
    }
    ScanEnd(pattern, pos, quoteBuf, tokens, terminated);
    tokens := FlushQuote(tokens, quoteBuf);
    if !terminated {
      tokens := tokens + [AnyStar];
    }
  }

  // ---------------------------------------------------------------------------------------
  // Quoting

  /** No backslash in `s` is followed by 'E', so "\Q" + s + "\E" quotes all of `s`. */
  predicate NoQuoteEnd(s: string) {
    forall i :: 0 <= i < |s| - 1 ==> !(s[i] == '\\' && s[i + 1] == 'E')
  }

  /** No literal backslash unit is followed by a literal 'E' unit. */
  predicate NoQuoteEndItems(items: seq<Item>) {
    forall i :: 0 <= i < |items| - 1 ==> !(items[i] == Char('\\') && items[i + 1] == Char('E'))
  }

  /** A literal 'E' unit is read from an 'E' of the pattern. */
  lemma LexHeadE(p: string, pos: nat)
    ensures Lex(p, pos) != [] && Lex(p, pos)[0] == Char('E') ==> pos < |p| && p[pos] == 'E'
  {
  }

  /** A unit in front of units without a backslash-'E' pair adds none unless it is a backslash
      and an 'E' follows. */
  lemma NoQuoteEndItemsCons(x: Item, r: seq<Item>)
    requires NoQuoteEndItems(r)
    requires x == Char('\\') ==> r == [] || r[0] != Char('E')
    ensures NoQuoteEndItems([x] + r)
  {
    var xr := [x] + r;
    forall i | 0 <= i < |xr| - 1
      ensures !(xr[i] == Char('\\') && xr[i + 1] == Char('E'))
    {
      if i > 0 {
        assert xr[i] == r[i - 1] && xr[i + 1] == r[i];
      }
    }
  }

  /** A pattern without a backslash followed by 'E' reads to units without that pair. */
  lemma {:induction false} LexNoQuoteEnd(p: string, pos: nat)
    requires NoQuoteEnd(p)
    ensures NoQuoteEndItems(Lex(p, pos))
    decreases |p| - pos
  {
    if pos < |p| {
      if p[pos] == '\\' {
        if pos < |p| - 1 && p[pos + 1] == '*' {
          LexNoQuoteEnd(p, pos + 2);
          NoQuoteEndItemsCons(Char('*'), Lex(p, pos + 2));
        } else {
          LexNoQuoteEnd(p, pos + 1);
          LexHeadE(p, pos + 1);
          NoQuoteEndItemsCons(Char('\\'), Lex(p, pos + 1));
        }
      } else if p[pos] == '*' {
        LexNoQuoteEnd(p, pos + 1);
        NoQuoteEndItemsCons(Star(pos == |p| - 1), Lex(p, pos + 1));
      } else if !(p[pos] == '$' && pos == |p| - 1) {
        LexNoQuoteEnd(p, pos + 1);
        NoQuoteEndItemsCons(Char(p[pos]), Lex(p, pos + 1));
      }
    }
  }

  /** A leading literal of the grouping starts with the first unit's character. */
  lemma GroupHead(items: seq<Item>)
    ensures Group(items) != [] && Group(items)[0].Literal? ==>
      items != [] && items[0].Char? && Group(items)[0].text != "" && Group(items)[0].text[0] == items[0].c
  {
  }

  /** Grouping units without a backslash-'E' pair yields literals without one. */
  lemma {:induction false} GroupNoQuoteEnd(items: seq<Item>)
    requires NoQuoteEndItems(items)
    ensures forall t :: t in Group(items) && t.Literal? ==> NoQuoteEnd(t.text)
    decreases |items|
  {
    if items != [] {
      var tail := items[1..];
      assert NoQuoteEndItems(tail) by {
        forall i | 0 <= i < |tail| - 1
          ensures !(tail[i] == Char('\\') && tail[i + 1] == Char('E'))
        {
          assert tail[i] == items[i + 1] && tail[i + 1] == items[i + 2];
        }
      }
      GroupNoQuoteEnd(tail);
      var rest := Group(tail);
      match items[0]
      case Char(c) =>
        if rest != [] && rest[0].Literal? {
          GroupHead(tail);
          var text := [c] + rest[0].text;
          assert rest[0] in rest;
          assert NoQuoteEnd(text) by {
            forall i | 0 <= i < |text| - 1
              ensures !(text[i] == '\\' && text[i + 1] == 'E')
            {
              if i > 0 {
                assert text[i] == rest[0].text[i - 1] && text[i + 1] == rest[0].text[i];
              }
            }
          }
          forall t | t in [Literal(text)] + rest[1..] && t.Literal?
            ensures NoQuoteEnd(t.text)
          {
            if t != Literal(text) {
              assert t in rest;
            }
          }
        } else {
          assert NoQuoteEnd([c]);
        }
      case _ =>
    }
  }

  /** A pattern in which no backslash is followed by 'E' compiles to literals that do not contain
      "\E" either, so each "\Q...\E" of the expression quotes exactly its literal. */
  lemma QuotedLiteralsIntact(p: string)
    requires NoQuoteEnd(p)
    ensures forall t :: t in Compile(p) && t.Literal? ==> NoQuoteEnd(t.text)
  {
    if p != "" {
      LexNoQuoteEnd(p, 0);
      GroupNoQuoteEnd(Lex(p, 0));
    }
  }

  lemma QuoteEndTokens(p: string)
    requires p == "/a\\E"
    ensures Compile(p) == [Literal(p), AnyStar]
  {
    assert Lex(p, 3) == [Char('E')];
    assert Lex(p, 2) == [Char('\\'), Char('E')];
    assert Lex(p, 0) == [Char('/'), Char('a'), Char('\\'), Char('E')];
    var i3, i2, i1 := [Char('E')], [Char('\\'), Char('E')], [Char('a'), Char('\\'), Char('E')];
    var i0 := [Char('/')] + i1;
    assert i2[1..] == i3 && i1[1..] == i2 && i0[1..] == i1 && i3[1..] == [];
    assert ['\\'] + "E" == "\\E" && ['a'] + "\\E" == "a\\E" && ['/'] + "a\\E" == p;
    assert [Literal("E")][1..] == [] && [Literal("\\E")][1..] == [] && [Literal("a\\E")][1..] == [];
    assert Group(i3) == [Literal("E")];
    assert Group(i2) == [Literal("\\E")];
    assert Group(i1) == [Literal("a\\E")];
    assert Group(i0) == [Literal(p)];
    assert !Terminated(i0);
  }

  /** With a backslash followed by 'E' in the pattern the quote ends early: "/a\E" compiles to
      the literal "/a\E", whose expression text carries a second, unmatched "\E". */
  lemma QuoteEndInLiteral(p: string)
    requires p == "/a\\E"
    ensures Compile(p) == [Literal(p), AnyStar]
    ensures Regex(Compile(p)) == "^\\Q/a\\E\\E.*"
    ensures !NoQuoteEnd(p)
  {
    QuoteEndTokens(p);
    assert [Literal(p), AnyStar] == [Literal(p)] + ([AnyStar] + []);
    TokensTextCons(AnyStar, []);
    TokensTextCons(Literal(p), [AnyStar] + []);
    assert p[2] == '\\' && p[3] == 'E';
  }

  // ---------------------------------------------------------------------------------------
  // Matching

  /** The characters that the expression '.' does not match in java.util.regex by default. */
  predicate IsLineTerminator(c: char) {
    c == '\n' || c == '\r' || c == '\U{85}' || c == '\U{2028}' || c == '\U{2029}'
  }

  /** A run of characters that ".*" or ".+" can cover. */
  predicate AnyRun(s: string) {
    forall i :: 0 <= i < |s| ==> !IsLineTerminator(s[i])
  }

  /** Matcher.matches() of the compiled expression: the whole of `s`, from the '^' on, is
      matched by the tokens in order. */
  predicate TokensMatch(ts: seq<Token>, s: string)
    decreases |ts|, |s|
  {
    if ts == [] then s == []
    else match ts[0]
      case Literal(t) => StartsWith(s, t) && TokensMatch(ts[1..], s[|t|..])
      case AnyStar =>
        TokensMatch(ts[1..], s) || (s != [] && !IsLineTerminator(s[0]) && TokensMatch(ts, s[1..]))
      case AnyPlus => s != [] && !IsLineTerminator(s[0]) && TokensMatch([AnyStar] + ts[1..], s[1..])
      case EndAnchor => s == [] && TokensMatch(ts[1..], s)
  }

  /** The robots.txt reading of the units, independent of any regular expression: a literal
      matches itself, a final '*' any run, another '*' any non-empty run, the final '$' the end
      of the path; an unterminated pattern lets any run follow (`open`). */
  predicate ItemsMatch(items: seq<Item>, s: string, open: bool)
    decreases |items|
  {
    if items == [] then (if open then AnyRun(s) else s == [])
    else match items[0]
      case Char(c) => s != [] && s[0] == c && ItemsMatch(items[1..], s[1..], open)
      case Star(last) =>
        exists k :: (if last then 0 else 1) <= k <= |s| && AnyRun(s[..k])
                    && ItemsMatch(items[1..], s[k..], open)
      case Dollar => s == [] && ItemsMatch(items[1..], s, open)
  }

  /** Whether a robots.txt pattern matches a path: the empty pattern matches only the empty
      path. */
  predicate RuleMatches(pattern: string, path: string) {
    if pattern == "" then path == ""
    else ItemsMatch(Lex(pattern, 0), path, !Terminated(Lex(pattern, 0)))
  }

  /** ".*" covers a run and then lets the rest match. */
  lemma {:induction false} StarMatch(ts: seq<Token>, s: string)
    ensures TokensMatch([AnyStar] + ts, s) <==>
            exists k :: 0 <= k <= |s| && AnyRun(s[..k]) && TokensMatch(ts, s[k..])
    decreases |s|
  {
    var st := [AnyStar] + ts;
    assert st[1..] == ts;
    if TokensMatch(st, s) {
      if TokensMatch(ts, s) {
        assert s[..0] == [] && s[0..] == s;
      } else {
        StarMatch(ts, s[1..]);
        var k' :| 0 <= k' <= |s[1..]| && AnyRun(s[1..][..k']) && TokensMatch(ts, s[1..][k'..]);
        RunShift(s, k' + 1);
      }
    }
    if exists k :: 0 <= k <= |s| && AnyRun(s[..k]) && TokensMatch(ts, s[k..]) {
      var k :| 0 <= k <= |s| && AnyRun(s[..k]) && TokensMatch(ts, s[k..]);
      if k == 0 {
        assert s[0..] == s;
      } else {
        StarMatch(ts, s[1..]);
        RunShift(s, k);
      }
    }
  }

  /** A run of k > 0 characters is its first character and a run of k - 1 after it. */
  lemma RunShift(s: string, k: int)
    requires 0 < k <= |s|
    ensures AnyRun(s[..k]) <==> !IsLineTerminator(s[0]) && AnyRun(s[1..][..k - 1])
    ensures s[k..] == s[1..][k - 1..]
  {
    assert s[..k] == [s[0]] + s[1..][..k - 1];
    assert forall i :: 0 < i < k ==> s[..k][i] == s[1..][..k - 1][i - 1];
  }

  /** ".+" covers a non-empty run and then lets the rest match. */
  lemma PlusMatch(ts: seq<Token>, s: string)
    ensures TokensMatch([AnyPlus] + ts, s) <==>
            exists k :: 1 <= k <= |s| && AnyRun(s[..k]) && TokensMatch(ts, s[k..])
  {
    assert ([AnyPlus] + ts)[1..] == ts;
    if s != [] {
      StarMatch(ts, s[1..]);
      if TokensMatch([AnyPlus] + ts, s) {
        var k' :| 0 <= k' <= |s[1..]| && AnyRun(s[1..][..k']) && TokensMatch(ts, s[1..][k'..]);
        RunShift(s, k' + 1);
      }
      if exists k :: 1 <= k <= |s| && AnyRun(s[..k]) && TokensMatch(ts, s[k..]) {
        var k :| 1 <= k <= |s| && AnyRun(s[..k]) && TokensMatch(ts, s[k..]);
        RunShift(s, k);
      }
    }
  }

  /** The implicit ".*" at the end matches exactly the runs. */
  lemma TrailingStar(s: string)
    ensures TokensMatch([AnyStar], s) <==> AnyRun(s)
  {
    StarMatch([], s);
    if AnyRun(s) {
      assert s[..|s|] == s && s[|s|..] == [];
    }
  }

  /** A quoted literal is matched one character at a time. */
  lemma LiteralCons(c: char, t: string, ts: seq<Token>, s: string)
    ensures TokensMatch([Literal([c] + t)] + ts, s) <==>
            s != [] && s[0] == c && TokensMatch([Literal(t)] + ts, s[1..])
  {
    assert ([Literal([c] + t)] + ts)[1..] == ts;
    assert ([Literal(t)] + ts)[1..] == ts;
    if s != [] && |[c] + t| <= |s| {
      assert s[..|[c] + t|] == [s[0]] + s[1..][..|t|];
      assert s[|[c] + t|..] == s[1..][|t|..];
    }
  }

  /** The compiled tokens, followed by the implicit ".*" of an open pattern, match exactly what
      the robots.txt reading of the units matches. */
  lemma {:induction false} GroupMatch(items: seq<Item>, tail: seq<Token>, s: string, open: bool)
    requires tail == (if open then [AnyStar] else [])
    ensures TokensMatch(Group(items) + tail, s) <==> ItemsMatch(items, s, open)
    decreases |items|, 1
  {
    if items == [] {
      assert Group(items) + tail == tail;
      if open {
        TrailingStar(s);
      }
    } else if items[0].Char? {
      GroupMatchChar(items, tail, s, open);
    } else if items[0].Star? {
      GroupMatchStar(items, tail, s, open);
    } else {
      var rest := Group(items[1..]);
      assert Group(items) + tail == [EndAnchor] + (rest + tail);
      assert ([EndAnchor] + (rest + tail))[1..] == rest + tail;
      GroupMatch(items[1..], tail, s, open);
    }
  }

  /** A literal unit matches its character at the front of the path. */
  lemma ItemsMatchChar(items: seq<Item>, s: string, open: bool)
    requires items != [] && items[0].Char?
    ensures ItemsMatch(items, s, open) <==> s != [] && s[0] == items[0].c && ItemsMatch(items[1..], s[1..], open)
  {
  }

  /** A quoted literal of one character matches that character at the front of the path. */
  lemma SingleLiteral(c: char, ts: seq<Token>, s: string)
    ensures TokensMatch([Literal([c])] + ts, s) <==> s != [] && s[0] == c && TokensMatch(ts, s[1..])
  {
    assert ([Literal([c])] + ts)[1..] == ts;
    if s != [] {
      assert StartsWith(s, [c]) <==> s[0] == c;
    }
  }

  /** Grouping a leading literal unit: it joins a following literal, or stands alone. */
  lemma GroupCharFront(items: seq<Item>)
    requires items != [] && items[0].Char?
    ensures var rest := Group(items[1..]);
      Group(items) == if rest != [] && rest[0].Literal? then [Literal([items[0].c] + rest[0].text)] + rest[1..]
                      else [Literal([items[0].c])] + rest
  {
  }

  lemma {:induction false} GroupMatchChar(items: seq<Item>, tail: seq<Token>, s: string, open: bool)
    requires tail == (if open then [AnyStar] else [])
    requires items != [] && items[0].Char?
    ensures TokensMatch(Group(items) + tail, s) <==> ItemsMatch(items, s, open)
    decreases |items|, 0
  {
    var c := items[0].c;
    var rest := Group(items[1..]);
    ItemsMatchChar(items, s, open);
    if s != [] {
      GroupMatch(items[1..], tail, s[1..], open);
    }
    GroupCharFront(items);
    if rest != [] && rest[0].Literal? {
      var t := rest[0].text;
      ConsAssoc(Literal([c] + t), rest[1..], tail);
      ConsAssoc(Literal(t), rest[1..], tail);
      assert [Literal(t)] + rest[1..] == rest;
      LiteralCons(c, t, rest[1..] + tail, s);
    } else {
      ConsAssoc(Literal([c]), rest, tail);
      SingleLiteral(c, rest + tail, s);
    }
  }

  lemma {:induction false} GroupMatchStar(items: seq<Item>, tail: seq<Token>, s: string, open: bool)
    requires tail == (if open then [AnyStar] else [])
    requires items != [] && items[0].Star?
    ensures TokensMatch(Group(items) + tail, s) <==> ItemsMatch(items, s, open)
    decreases |items|, 0
  {
    var last := items[0].last;
    var rest := Group(items[1..]);
    var x := if last then AnyStar else AnyPlus;
    assert Group(items) + tail == [x] + (rest + tail);
    forall k | 0 <= k <= |s| {
      GroupMatch(items[1..], tail, s[k..], open);
    }
    if last {
      StarMatch(rest + tail, s);
    } else {
      PlusMatch(rest + tail, s);
    }
  }

  /** Matching the compiled expression is the robots.txt reading of the pattern. */
  lemma CompiledMatchesRule(pattern: string, path: string)
    ensures TokensMatch(Compile(pattern), path) <==> RuleMatches(pattern, path)
  {
    if pattern != "" {
      var items := Lex(pattern, 0);
      GroupMatch(items, if Terminated(items) then [] else [AnyStar], path, !Terminated(items));
    } else {
      assert Compile(pattern)[1..] == [];
    }
  }

  // ---------------------------------------------------------------------------------------
  // What a pattern matches

  /** A wildcard that ends the pattern, and the anchor, can only be the last unit. */
  lemma {:induction false} TerminalUnitsLast(p: string, pos: nat)
    ensures forall i :: 0 <= i < |Lex(p, pos)| - 1 ==> !Lex(p, pos)[i].Dollar? && Lex(p, pos)[i] != Star(true)
    decreases |p| - pos
  {
    if pos < |p| {
      var next := if p[pos] == '\\' && pos < |p| - 1 && p[pos + 1] == '*' then pos + 2 else pos + 1;
      TerminalUnitsLast(p, next);
    }
  }

  /** A stretch of characters none of which is '*', '\\' or the final '$' is read as literal
      units; in particular a '$' that is not last is a literal. */
  lemma {:induction false} LexPlain(p: string, pos: nat, n: nat)
    requires pos <= n <= |p|
    requires forall i :: pos <= i < n ==> p[i] != '*' && p[i] != '\\' && !(p[i] == '$' && i == |p| - 1)
    ensures Lex(p, pos) == Chars(p[pos..n]) + Lex(p, n)
    decreases n - pos
  {
    if pos < n {
      LexPlain(p, pos + 1, n);
      var c := p[pos];
      assert c != '*' && c != '\\' && !(c == '$' && pos == |p| - 1);
      LexLiteral(p, pos, c, pos + 1);
      CharsCons(p[pos..n], p[pos + 1..n]);
      ConsAssoc(Char(c), Chars(p[pos + 1..n]), Lex(p, n));
    } else {
      assert Chars(p[pos..n]) == [];
    }
  }

  lemma CharsCons(q: string, r: string)
    requires q != [] && r == q[1..]
    ensures Chars(q) == [Char(q[0])] + Chars(r)
  {
    assert Chars(q)[1..] == Chars(r);
  }

  lemma TailOfCons<T>(x: T, b: seq<T>)
    ensures ([x] + b)[0] == x && ([x] + b)[1..] == b
  {
  }

  lemma ConsAssoc<T>(x: T, b: seq<T>, c: seq<T>)
    ensures [x] + b + c == [x] + (b + c)
  {
  }

  /** Literal units match their characters, in order, at the start of the path. */
  lemma {:induction false} CharsThen(q: string, rest: seq<Item>, s: string, open: bool)
    ensures ItemsMatch(Chars(q) + rest, s, open) <==> StartsWith(s, q) && ItemsMatch(rest, s[|q|..], open)
    decreases |q|
  {
    if q == [] {
      assert Chars(q) + rest == rest;
    } else {
      var items := Chars(q) + rest;
      assert items[0] == Char(q[0]);
      assert items[1..] == Chars(q[1..]) + rest;
      if s != [] {
        CharsThen(q[1..], rest, s[1..], open);
        if |q| <= |s| {
          assert s[..|q|] == [s[0]] + s[1..][..|q| - 1];
          assert s[|q|..] == s[1..][|q| - 1..];
        }
        if StartsWith(s[1..], q[1..]) && s[0] == q[0] {
          assert s[..|q|] == [s[0]] + s[1..][..|q| - 1];
          assert q == [q[0]] + q[1..];
        }
      }
    }
  }

  /** A pattern without wildcards, escapes or a final '$' is a prefix rule: it matches exactly
      the paths that start with it, case-sensitively, followed by any run. */
  lemma PlainPatternIsPrefix(p: string, s: string)
    requires p != ""
    requires forall i :: 0 <= i < |p| ==> p[i] != '*' && p[i] != '\\'
    requires p[|p| - 1] != '$'
    ensures RuleMatches(p, s) <==> StartsWith(s, p) && AnyRun(s[|p|..])
  {
    LexPlain(p, 0, |p|);
    assert p[0..|p|] == p;
    assert Lex(p, 0) == Chars(p) + [];
    CharsThen(p, [], s, true);
  }

  /** A final '*' after plain characters means the same as leaving it out. */
  lemma FinalStarIsPrefix(q: string, s: string)
    requires forall i :: 0 <= i < |q| ==> q[i] != '*' && q[i] != '\\'
    ensures RuleMatches(q + "*", s) <==> StartsWith(s, q) && AnyRun(s[|q|..])
  {
    var p := q + "*";
    LexPlain(p, 0, |q|);
    assert p[0..|q|] == q;
    assert Lex(p, |q|) == [Star(true)];
    CharsThen(q, [Star(true)], s, false);
    if |q| <= |s| {
      var t := s[|q|..];
      if AnyRun(t) {
        assert t[..|t|] == t && t[|t|..] == [];
      }
    }
  }

  /** A final '$' after plain characters makes the rule match only that exact path. */
  lemma FinalDollarIsExact(q: string, s: string)
    requires forall i :: 0 <= i < |q| ==> q[i] != '*' && q[i] != '\\'
    ensures RuleMatches(q + "$", s) <==> s == q
  {
    var p := q + "$";
    LexPlain(p, 0, |q|);
    assert p[0..|q|] == q;
    assert Lex(p, |q|) == [Dollar];
    CharsThen(q, [Dollar], s, false);
    if s == q {
      assert s[..|q|] == q && s[|q|..] == [];
    }
    if StartsWith(s, q) && s[|q|..] == [] {
      assert s == s[..|q|] + s[|q|..];
    }
  }

  /** Items with no anchor, matched with an open end, go on matching when a run is added. */
  lemma {:induction false} OpenItemsExtend(items: seq<Item>, s: string, t: string)
    requires forall i :: 0 <= i < |items| ==> !items[i].Dollar?
    requires ItemsMatch(items, s, true) && AnyRun(t)
    ensures ItemsMatch(items, s + t, true)
    decreases |items|
  {
    if items == [] {
      assert forall i :: 0 <= i < |s + t| ==> (s + t)[i] == if i < |s| then s[i] else t[i - |s|];
    } else {
      match items[0]
      case Char(c) =>
        OpenItemsExtend(items[1..], s[1..], t);
        assert (s + t)[1..] == s[1..] + t;
      case Star(last) =>
        var k :| (if last then 0 else 1) <= k <= |s| && AnyRun(s[..k]) && ItemsMatch(items[1..], s[k..], true);
        OpenItemsExtend(items[1..], s[k..], t);
        assert (s + t)[..k] == s[..k];
        assert (s + t)[k..] == s[k..] + t;
    }
  }

  /** An unterminated rule is a prefix rule: whatever it matches it still matches with any run
      appended. */
  lemma OpenRuleExtends(p: string, s: string, t: string)
    requires p != "" && !Terminated(Lex(p, 0))
    requires RuleMatches(p, s) && AnyRun(t)
    ensures RuleMatches(p, s + t)
  {
    TerminalUnitsLast(p, 0);
    OpenItemsExtend(Lex(p, 0), s, t);
  }

  /** The empty pattern matches the empty path and nothing else. */
  lemma EmptyPatternMatchesOnlyEmpty(path: string)
    ensures TokensMatch(Compile(""), path) <==> path == ""
  {
    CompiledMatchesRule("", path);
  }

  // ---------------------------------------------------------------------------------------
  // The rule object

  /** A robots.txt rule: its type (allow or disallow, as the caller numbers them) and its
      compiled pattern. */
  class PathRule {
    var ruleType: int
    var pattern: seq<Token>
    ghost var source: string

    /** The compiled pattern is the one of the rule's text. */
    ghost predicate Valid()
      reads this
    {
      pattern == Compile(source)
    }

    constructor(ruleType: int, pattern: string)
      ensures this.ruleType == ruleType && this.source == pattern
      ensures this.pattern == Compile(pattern) && Valid()
    {
      this.ruleType := ruleType;
      var compiled := RobotsPatternToRegexp(pattern);
      this.pattern := compiled;
      this.source := pattern;
    }

    /** The whole path matches the compiled pattern. */
    predicate Matches(path: string)
      reads this
      ensures Valid() ==> (Matches(path) <==> RuleMatches(source, path))
    {
      CompiledMatchesRule(source, path);
      TokensMatch(pattern, path)
    }
  }

  /** matchesRobotsPattern: compile, then match the whole path. */
  method MatchesRobotsPattern(pattern: string, path: string) returns (b: bool)
    ensures b <==> RuleMatches(pattern, path)
  {
    var compiled := RobotsPatternToRegexp(pattern);
    CompiledMatchesRule(pattern, path);
    b := TokensMatch(compiled, path);
  }

  // ---------------------------------------------------------------------------------------
  // The documented translations

  /** The expression text of consecutive tokens is the concatenation of their texts. */
  lemma {:induction false} TokensTextConcat(a: seq<Token>, b: seq<Token>)
    ensures TokensText(a + b) == TokensText(a) + TokensText(b)
    decreases |a|
  {
    if a != [] {
      assert (a + b)[1..] == a[1..] + b;
      TokensTextConcat(a[1..], b);
    } else {
      assert a + b == b;
    }
  }

  lemma GifUnits(p: string)
    requires p == "/*.gif$"
    ensures Lex(p, 0) == Chars("/") + ([Star(false)] + (Chars(".gif") + [Dollar]))
  {
    LexPlain(p, 2, 6);
    assert p[2..6] == ".gif";
    assert Lex(p, 6) == [Dollar];
    LexWild(p, 1, Star(false));
    LexLiteral(p, 0, '/', 1);
    assert Chars("/") == [Char('/')];
  }

  /** The units of the pattern grouped: a literal, ".+", a literal and the anchor. */
  lemma GifGroups(items: seq<Item>)
    requires items == Chars("/") + ([Star(false)] + (Chars(".gif") + [Dollar]))
    ensures Group(items) == [Literal("/"), AnyPlus, Literal(".gif"), EndAnchor]
    ensures Terminated(items)
  {
    var tail := Chars(".gif") + ([Dollar] + []);
    assert [Dollar] + [] == [Dollar];
    GroupFlush(".gif", Dollar, []);
    GroupFlush("/", Star(false), tail);
    assert items[|items| - 1] == Dollar;
  }

  lemma GifTokens(p: string)
    requires p == "/*.gif$"
    ensures Compile(p) == [Literal("/"), AnyPlus, Literal(".gif"), EndAnchor]
  {
    GifUnits(p);
    GifGroups(Lex(p, 0));
  }

  lemma TokensTextCons(t: Token, ts: seq<Token>)
    ensures TokensText([t] + ts) == TokenText(t) + TokensText(ts)
  {
    assert ([t] + ts)[1..] == ts;
  }

  /** The expression text of four tokens. */
  lemma RegexOfFour(a: Token, b: Token, c: Token, d: Token)
    ensures Regex([a, b, c, d]) == "^" + (TokenText(a) + (TokenText(b) + (TokenText(c) + TokenText(d))))
  {
    var t3 := [d] + [];
    var t2 := [c] + t3;
    var t1 := [b] + t2;
    assert [a] + t1 == [a, b, c, d];
    TokensTextCons(d, []);
    TokensTextCons(c, t3);
    TokensTextCons(b, t2);
    TokensTextCons(a, t1);
    assert TokenText(d) + TokensText([]) == TokenText(d);
  }

  lemma GifString()
    ensures "^" + (("\\Q" + "/" + "\\E") + (".+" + (("\\Q" + ".gif" + "\\E") + "$"))) == "^\\Q/\\E.+\\Q.gif\\E$"
  {
  }

  lemma GifText()
    ensures Regex([Literal("/"), AnyPlus, Literal(".gif"), EndAnchor]) == "^\\Q/\\E.+\\Q.gif\\E$"
  {
    RegexOfFour(Literal("/"), AnyPlus, Literal(".gif"), EndAnchor);
    GifString();
  }

  // The pattern "/*.gif$" compiles to ^\Q/\E.+\Q.gif\E$.
  lemma GifPattern(p: string)
    requires p == "/*.gif$"
    ensures Regex(Compile(p)) == "^\\Q/\\E.+\\Q.gif\\E$"
  {
    GifTokens(p);
    GifText();
  }

  // The empty pattern compiles to ^$.
  lemma EmptyPattern(p: string)
    requires p == ""
    ensures Regex(Compile(p)) == "^$"
  {
    TokensTextCons(EndAnchor, []);
    assert [EndAnchor] + [] == [EndAnchor];
  }

  lemma EscapedStarTokens(p: string)
    requires p == "\\*.htm"
    ensures Compile(p) == [Literal("*.htm"), AnyStar]
  {
    LexPlain(p, 2, 6);
    assert p[2..6] == ".htm";
    LexLiteral(p, 0, '*', 2);
    assert Lex(p, 0) == Chars("*.htm") + [];
    GroupChars("*.htm", []);
  }

  // The pattern "\*.htm" compiles to ^\Q*.htm\E.* : the escaped star is a literal.
  lemma EscapedStarPattern(p: string)
    requires p == "\\*.htm"
    ensures Regex(Compile(p)) == "^\\Q*.htm\\E.*"
  {
    EscapedStarTokens(p);
    TokensTextCons(AnyStar, []);
    TokensTextCons(Literal("*.htm"), [AnyStar] + []);
    assert [Literal("*.htm")] + ([AnyStar] + []) == [Literal("*.htm"), AnyStar];
  }

  lemma FinalStarTokens(p: string)
    requires p == "/fish*"
    ensures Compile(p) == [Literal("/fish"), AnyStar]
  {
    LexPlain(p, 0, 5);
    assert p[0..5] == "/fish";
    assert Lex(p, 5) == [Star(true)];
    GroupFlush("/fish", Star(true), []);
    var items := Lex(p, 0);
    assert items[|items| - 1] == Star(true);
  }

  // The pattern "/fish*" compiles to ^\Q/fish\E.* with no further suffix.
  lemma FinalStarPattern(p: string)
    requires p == "/fish*"
    ensures Regex(Compile(p)) == "^\\Q/fish\\E.*"
  {
    FinalStarTokens(p);
    TokensTextCons(AnyStar, []);
    TokensTextCons(Literal("/fish"), [AnyStar] + []);
    assert [Literal("/fish")] + ([AnyStar] + []) == [Literal("/fish"), AnyStar];
  }

  lemma LoneBackslashTokens(p: string)
    requires p == "\\"
    ensures Compile(p) == [Literal("\\"), AnyStar]
  {
    LexLiteral(p, 0, '\\', 1);
    assert Lex(p, 0) == Chars("\\") + [];
    GroupChars("\\", []);
  }

  // The pattern made of one backslash compiles to ^\Q\\E.* : the backslash is a literal.
  lemma LoneBackslashPattern(p: string)
    requires p == "\\"
    ensures Regex(Compile(p)) == "^\\Q\\\\E.*"
  {
    LoneBackslashTokens(p);
    TokensTextCons(AnyStar, []);
    TokensTextCons(Literal("\\"), [AnyStar] + []);
    assert [Literal("\\")] + ([AnyStar] + []) == [Literal("\\"), AnyStar];
  }

  // Matching is anchored at the start and case-sensitive: "/fish" matches "/fish.html" but
  // neither "/Fish.html" nor "/a/fish".
  lemma FishIsAnchored(p: string, a: string, b: string, c: string)
    requires p == "/fish" && a == "/fish.html" && b == "/Fish.html" && c == "/a/fish"
    ensures RuleMatches(p, a) && !RuleMatches(p, b) && !RuleMatches(p, c)
  {
    PlainPatternIsPrefix(p, a);
    PlainPatternIsPrefix(p, b);
    PlainPatternIsPrefix(p, c);
    assert a[..5] == p;
    assert a[5..] == ".html";
    assert b[1] != p[1];
    assert c[1] != p[1];
  }
}

=== FILE: percent.dfy ===
/** Byte-level models of java.net.URLDecoder.decode(s, "UTF-8") and java.net.URLEncoder.encode,
    and the RFC 3986 percent-encoding (section 2.1 and 2.3 of RFC 3986) that the canonicalizer's
    rewriting of the encoder's output amounts to. Decoded text is kept as its UTF-8 bytes. */
module Percent {
  import opened Wrappers

  type byte = b: int | 0 <= b < 256

  /** The UTF-8 encoding of one character (a Unicode scalar value). */
  function Utf8(c: char): (r: seq<byte>)
    ensures 1 <= |r| <= 4
    ensures |r| == 1 <==> c as int < 0x80
    ensures |r| == 1 ==> r[0] == c as int
  {
    var n := c as int;
    if n < 0x80 then [n]
    else if n < 0x800 then [0xC0 + n / 64, 0x80 + n % 64]
    else if n < 0x10000 then [0xE0 + n / 4096, 0x80 + (n / 64) % 64, 0x80 + n % 64]
    else [0xF0 + n / 262144, 0x80 + (n / 4096) % 64, 0x80 + (n / 64) % 64, 0x80 + n % 64]
  }

  predicate IsHexDigit(c: char) {
    '0' <= c <= '9' || 'a' <= c <= 'f' || 'A' <= c <= 'F'
  }

  function HexValue(c: char): (d: nat)
    requires IsHexDigit(c)
    ensures d < 16
  {
    if '0' <= c <= '9' then c as int - '0' as int
    else if 'a' <= c <= 'f' then c as int - 'a' as int + 10
    else c as int - 'A' as int + 10
  }

  /** The upper-case hexadecimal digit that URLEncoder writes. */
  function HexChar(d: nat): (c: char)
    requires d < 16
    ensures IsHexDigit(c) && HexValue(c) == d
    ensures c != '%' && c != '+' && c != '*'
  {
    if d < 10 then ('0' as int + d) as char else ('A' as int + d - 10) as char
  }

  /** Integer.parseInt of the two characters after a '%' in radix 16, with URLDecoder's refusal
      of negative values: two hex digits, or a sign and one digit ("+F" is 15, "-0" is 0). */
  function EscapeValue(a: char, b: char): (r: Option<byte>)
    ensures IsHexDigit(a) && IsHexDigit(b) ==> r == Some(16 * HexValue(a) + HexValue(b))
    ensures !IsHexDigit(b) ==> r == None
  {
    if IsHexDigit(a) && IsHexDigit(b) then Some(16 * HexValue(a) + HexValue(b))
    else if a == '+' && IsHexDigit(b) then Some(HexValue(b))
    else if a == '-' && IsHexDigit(b) && HexValue(b) == 0 then Some(0)
    else None
  }

  function Prepend(p: seq<byte>, o: Option<seq<byte>>): Option<seq<byte>> {
    match o
    case None => None
    case Some(rest) => Some(p + rest)
  }

  /** URLDecoder.decode(s, "UTF-8"): '+' is a space, "%XY" is the byte XY, any other character
      stands for its UTF-8 bytes; a '%' without two valid digits after it makes the decoder throw
      (None). */
  function UrlDecode(s: string): Option<seq<byte>>
    decreases |s|
  {
    if s == [] then Some([])
    else if s[0] == '+' then Prepend([0x20], UrlDecode(s[1..]))
    else if s[0] == '%' then
      if |s| < 3 then None
      else match EscapeValue(s[1], s[2])
        case None => None
        case Some(v) => Prepend([v], UrlDecode(s[3..]))
    else Prepend(Utf8(s[0]), UrlDecode(s[1..]))
  }

  /** ALPHA / DIGIT / "-" / "." / "_": the unreserved characters of section 2.3 of RFC 3986
      other than "~", which URLEncoder also leaves alone. */
  predicate IsPlain(b: byte) {
    'a' as int <= b <= 'z' as int || 'A' as int <= b <= 'Z' as int || '0' as int <= b <= '9' as int
    || b == '-' as int || b == '.' as int || b == '_' as int
  }

  /** "%XY" with upper-case digits. */
  function Escape(b: byte): (r: string)
    ensures |r| == 3 && r[0] == '%' && r[1] != '%' && r[2] != '%'
    ensures '+' !in r && '*' !in r
  {
    ['%', HexChar(b / 16), HexChar(b % 16)]
  }

  /** URLEncoder's treatment of one byte: plain characters and '*' stay, a space becomes '+',
      everything else is escaped. */
  function EncoderByte(b: byte): string {
    if IsPlain(b) || b == '*' as int then [b as char]
    else if b == ' ' as int then "+"
    else Escape(b)
  }

  /** Percent-encoding of one byte in the sense of section 2.1 of RFC 3986: unreserved
      characters (with "~") stay, every other byte is written "%XY". */
  function Rfc3986Byte(b: byte): string {
    if IsPlain(b) || b == '~' as int then [b as char] else Escape(b)
  }

  /** f(bs[0]) + f(bs[1]) + ... */
  function ConcatMap(f: byte -> string, bs: seq<byte>): string
    decreases |bs|
  {
    if bs == [] then "" else f(bs[0]) + ConcatMap(f, bs[1..])
  }

  /** URLEncoder.encode of text whose bytes in the target charset are `bs`. */
  function UrlEncode(bs: seq<byte>): string {
    ConcatMap(EncoderByte, bs)
  }

  /** RFC 3986 percent-encoding of `bs`. */
  function Rfc3986Encode(bs: seq<byte>): string {
    ConcatMap(Rfc3986Byte, bs)
  }

  /** Encoding works byte by byte, so it distributes over concatenation. */
  lemma {:induction false} ConcatMapAppend(f: byte -> string, a: seq<byte>, b: seq<byte>)
    ensures ConcatMap(f, a + b) == ConcatMap(f, a) + ConcatMap(f, b)
    decreases |a|
  {
    if a == [] {
      assert a + b == b;
    } else {
      ConcatMapAppend(f, a[1..], b);
      assert (a + b)[0] == a[0] && (a + b)[1..] == a[1..] + b;
    }
  }

  /** The RFC 3986 encoding never contains '+', so it reads the same whether '+' means a space
      or a plus. */
  lemma {:induction false} Rfc3986EncodeHasNoPlus(bs: seq<byte>)
    ensures '+' !in Rfc3986Encode(bs)
    decreases |bs|
  {
    if bs != [] {
      Rfc3986EncodeHasNoPlus(bs[1..]);
    }
  }

  /** Round trip: URLDecoder gives back exactly the bytes that were RFC 3986 encoded. */
  lemma {:induction false} DecodeRfc3986Encode(bs: seq<byte>)
    ensures UrlDecode(Rfc3986Encode(bs)) == Some(bs)
    decreases |bs|
  {
    if bs != [] {
      var b, rest := bs[0], bs[1..];
      var t := Rfc3986Byte(b);
      var s := t + Rfc3986Encode(rest);
      assert Rfc3986Encode(bs) == s;
      DecodeRfc3986Encode(rest);
      if IsPlain(b) || b == '~' as int {
        assert s[0] == b as char && s[1..] == Rfc3986Encode(rest);
        assert Utf8(s[0]) == [b];
      } else {
        assert s[0] == '%' && s[1] == HexChar(b / 16) && s[2] == HexChar(b % 16);
        assert s[3..] == Rfc3986Encode(rest);
        assert EscapeValue(s[1], s[2]) == Some(b);
      }
      assert [b] + rest == bs;
    }
  }
}

=== FILE: strings.dfy ===
/** The java.lang.String operations that the crawler's URL, robots and parser code rely on:
    indexOf, contains, startsWith, replace, split, trim, toLowerCase, and the two "join" shapes
    that its StringBuilder loops produce. Characters are Unicode scalar values; only ASCII
    letters are case-mapped. */
module Strings {

  /** `pat` occurs in `s` starting at index `i`. */
  predicate OccursAt(s: string, pat: string, i: int) {
    0 <= i && i + |pat| <= |s| && s[i..i + |pat|] == pat
  }

  /** String.indexOf(pat, from): the first index at or after `from` where `pat` occurs, or -1. */
  function IndexOf(s: string, pat: string, from: nat): (r: int)
    requires |pat| > 0
    ensures -1 <= r
    ensures r >= 0 ==> from <= r && OccursAt(s, pat, r)
    ensures forall i :: from <= i && (r < 0 || i < r) ==> !OccursAt(s, pat, i)
    decreases |s| - from
  {
    if from + |pat| > |s| then -1
    else if s[from..from + |pat|] == pat then from
    else IndexOf(s, pat, from + 1)
  }

  /** String.contains(pat). */
  predicate Contains(s: string, pat: string)
    requires |pat| > 0
  {
    IndexOf(s, pat, 0) >= 0
  }

  /** String.startsWith(p). */
  predicate StartsWith(s: string, p: string) {
    |p| <= |s| && s[..|p|] == p
  }

  /** Searching for a one-character pattern is searching for the character. */
  lemma ContainsChar(s: string, c: char)
    ensures Contains(s, [c]) <==> c in s
  {
    if c in s {
      var i :| 0 <= i < |s| && s[i] == c;
      assert s[i..i + 1] == [c] && OccursAt(s, [c], i);
    }
    if Contains(s, [c]) {
      var r := IndexOf(s, [c], 0);
      assert s[r..r + 1] == [c] && s[r] == c;
    }
  }

  /** A slice of a string in which `pat` does not occur does not contain `pat` either. */
  lemma AbsentFromSlice(s: string, pat: string, i: nat, j: nat)
    requires |pat| > 0 && i <= j <= |s|
    requires !Contains(s, pat)
    ensures !Contains(s[i..j], pat)
  {
    var t := s[i..j];
    var k := IndexOf(t, pat, 0);
    if k >= 0 {
      assert OccursAt(t, pat, k);
      assert t[k..k + |pat|] == s[i + k..i + k + |pat|];
      assert OccursAt(s, pat, i + k);
      assert false;
    }
  }

  /** String.replace(pat, rep): every leftmost non-overlapping occurrence of `pat`, scanning
      from the start, is replaced by `rep`. */
  function ReplaceAll(s: string, pat: string, rep: string): string
    requires |pat| > 0
    decreases |s|
  {
    if |s| < |pat| then s
    else if s[..|pat|] == pat then rep + ReplaceAll(s[|pat|..], pat, rep)
    else [s[0]] + ReplaceAll(s[1..], pat, rep)
  }

  /** Replacing a pattern that does not occur changes nothing. */
  lemma {:induction false} ReplaceAbsent(s: string, pat: string, rep: string)
    requires |pat| > 0 && !Contains(s, pat)
    ensures ReplaceAll(s, pat, rep) == s
    decreases |s|
  {
    if |s| >= |pat| {
      assert !OccursAt(s, pat, 0);
      AbsentFromSlice(s, pat, 1, |s|);
      assert s[1..|s|] == s[1..];
      ReplaceAbsent(s[1..], pat, rep);
    }
  }

  /** An occurrence anywhere means String.contains is true. */
  lemma OccursContains(s: string, pat: string, i: int)
    requires |pat| > 0 && OccursAt(s, pat, i)
    ensures Contains(s, pat)
  {
  }

  /** Replacing by a text no longer than the pattern never lengthens the string. */
  lemma {:induction false} ReplaceNoLonger(s: string, pat: string, rep: string)
    requires |pat| > 0 && |rep| <= |pat|
    ensures |ReplaceAll(s, pat, rep)| <= |s|
    decreases |s|
  {
    if |s| >= |pat| {
      if s[..|pat|] == pat {
        ReplaceNoLonger(s[|pat|..], pat, rep);
      } else {
        ReplaceNoLonger(s[1..], pat, rep);
      }
    }
  }

  /** Replacing by a shorter text shortens the string when the pattern occurs: this is why the
      canonicalizer's "//" loop terminates. */
  lemma {:induction false} ReplaceShrinks(s: string, pat: string, rep: string)
    requires |pat| > 0 && |rep| < |pat|
    ensures |ReplaceAll(s, pat, rep)| <= |s|
    ensures Contains(s, pat) ==> |ReplaceAll(s, pat, rep)| < |s|
    decreases |s|
  {
    ReplaceNoLonger(s, pat, rep);
    if |s| >= |pat| && Contains(s, pat) {
      if s[..|pat|] == pat {
        ReplaceNoLonger(s[|pat|..], pat, rep);
      } else {
        var t := s[1..];
        var r := IndexOf(s, pat, 0);
        assert r >= 1 && OccursAt(s, pat, r);
        assert t[r - 1..r - 1 + |pat|] == s[r..r + |pat|];
        OccursContains(t, pat, r - 1);
        ReplaceShrinks(t, pat, rep);
      }
    }
  }

  /** A leading character other than the pattern's first one is copied unchanged. */
  lemma ReplaceSkipsChar(c: char, s: string, pat: string, rep: string)
    requires |pat| > 0 && c != pat[0]
    ensures ReplaceAll([c] + s, pat, rep) == [c] + ReplaceAll(s, pat, rep)
  {
    var t := [c] + s;
    assert t[1..] == s;
    if |t| >= |pat| {
      assert t[..|pat|][0] == c;
    }
  }

  /** A string that does not start with the pattern keeps its first character. */
  lemma ReplaceSkipsMismatch(s: string, pat: string, rep: string)
    requires |pat| > 0 && |s| >= |pat| && s[..|pat|] != pat
    ensures ReplaceAll(s, pat, rep) == [s[0]] + ReplaceAll(s[1..], pat, rep)
  {
  }

  /** A string without the pattern's first character is left alone. */
  lemma {:induction false} ReplaceWithoutFirstChar(s: string, pat: string, rep: string)
    requires |pat| > 0 && pat[0] !in s
    ensures ReplaceAll(s, pat, rep) == s
    decreases |s|
  {
    if s != [] {
      ReplaceWithoutFirstChar(s[1..], pat, rep);
      ReplaceSkipsChar(s[0], s[1..], pat, rep);
      assert [s[0]] + s[1..] == s;
    }
  }

  /** A text that starts with the pattern has that occurrence replaced first. */
  lemma ReplaceLeading(pat: string, s: string, rep: string)
    requires |pat| > 0
    ensures ReplaceAll(pat + s, pat, rep) == rep + ReplaceAll(s, pat, rep)
  {
    assert (pat + s)[..|pat|] == pat && (pat + s)[|pat|..] == s;
  }

  /** A prefix of the result either was copied from the input or holds a character of `rep`. */
  lemma {:induction false} PrefixThroughReplace(s: string, pat: string, rep: string, w: string)
    requires |pat| > 0 && rep != []
    requires |w| <= |ReplaceAll(s, pat, rep)| && ReplaceAll(s, pat, rep)[..|w|] == w
    ensures (|w| <= |s| && s[..|w|] == w) || (exists i :: 0 <= i < |w| && w[i] in rep)
    decreases |s|
  {
    if w != [] && |s| >= |pat| {
      var r := ReplaceAll(s, pat, rep);
      if s[..|pat|] == pat {
        assert r == rep + ReplaceAll(s[|pat|..], pat, rep);
        assert w[0] == r[..|w|][0] == rep[0];
      } else {
        assert r == [s[0]] + ReplaceAll(s[1..], pat, rep);
        assert r[..|w|][1..] == w[1..];
        PrefixThroughReplace(s[1..], pat, rep, w[1..]);
        if exists i :: 0 <= i < |w[1..]| && w[1..][i] in rep {
          var i :| 0 <= i < |w[1..]| && w[1..][i] in rep;
          assert w[i + 1] in rep;
        } else {
          assert s[..|w|] == [s[0]] + s[1..][..|w| - 1];
          assert w == [w[0]] + w[1..];
        }
      }
    }
  }

  /** An occurrence starts with the pattern's first character. */
  lemma OccursFirstChar(s: string, pat: string, i: int)
    requires |pat| > 0 && OccursAt(s, pat, i)
    ensures s[i] == pat[0]
  {
    assert s[i..i + |pat|][0] == s[i];
  }

  /** An occurrence past the end of `a` is an occurrence in `b`. */
  lemma OccursShift(a: string, b: string, pat: string, i: int)
    requires |a| <= i && OccursAt(a + b, pat, i)
    ensures OccursAt(b, pat, i - |a|)
  {
    assert (a + b)[i..i + |pat|] == b[i - |a|..i - |a| + |pat|];
  }

  /** When no character of `rep` occurs in `pat`, an occurrence at the front of the result of
      copying the first character and replacing in the rest was already in the input. */
  lemma NoNewOccurrenceAtFront(s: string, pat: string, rep: string)
    requires |pat| > 0 && rep != [] && s != []
    requires forall c :: c in rep ==> c !in pat
    ensures OccursAt([s[0]] + ReplaceAll(s[1..], pat, rep), pat, 0) ==> OccursAt(s, pat, 0)
  {
    var t := s[1..];
    var r := [s[0]] + ReplaceAll(t, pat, rep);
    if OccursAt(r, pat, 0) {
      assert r[..|pat|] == pat;
      assert ReplaceAll(t, pat, rep)[..|pat| - 1] == r[..|pat|][1..] == pat[1..];
      PrefixThroughReplace(t, pat, rep, pat[1..]);
      if !exists i :: 0 <= i < |pat[1..]| && pat[1..][i] in rep {
        assert s[0] == r[0] == pat[0];
        assert s[..|pat|] == [s[0]] + t[..|pat| - 1];
        assert pat == [pat[0]] + pat[1..];
      }
    }
  }

  /** When no character of a non-empty `rep` occurs in `pat`, no occurrence is left. */
  lemma {:induction false} ReplaceNoPatternLeft(s: string, pat: string, rep: string)
    requires |pat| > 0 && rep != []
    requires forall c :: c in rep ==> c !in pat
    ensures !Contains(ReplaceAll(s, pat, rep), pat)
    decreases |s|
  {
    var r := ReplaceAll(s, pat, rep);
    if |s| >= |pat| && s[..|pat|] == pat {
      var t := s[|pat|..];
      var rt := ReplaceAll(t, pat, rep);
      ReplaceNoPatternLeft(t, pat, rep);
      assert r == rep + rt;
      forall i | 0 <= i
        ensures !OccursAt(r, pat, i)
      {
        if i < |rep| {
          assert rep[i] in rep;
          if OccursAt(r, pat, i) {
            OccursFirstChar(r, pat, i);
          }
        } else if OccursAt(r, pat, i) {
          OccursShift(rep, rt, pat, i);
        }
      }
    } else if |s| >= |pat| {
      var t := s[1..];
      var rt := ReplaceAll(t, pat, rep);
      ReplaceNoPatternLeft(t, pat, rep);
      assert r == [s[0]] + rt;
      forall i | 0 <= i
        ensures !OccursAt(r, pat, i)
      {
        if i == 0 {
          NoNewOccurrenceAtFront(s, pat, rep);
        } else if OccursAt(r, pat, i) {
          OccursShift([s[0]], rt, pat, i);
        }
      }
    }
  }

  /** A character in neither the input nor `rep` is not in the result. */
  lemma {:induction false} ReplaceKeepsAbsentChar(s: string, pat: string, rep: string, c: char)
    requires |pat| > 0 && c !in s && c !in rep
    ensures c !in ReplaceAll(s, pat, rep)
    decreases |s|
  {
    if |s| >= |pat| {
      if s[..|pat|] == pat {
        ReplaceKeepsAbsentChar(s[|pat|..], pat, rep, c);
      } else {
        ReplaceKeepsAbsentChar(s[1..], pat, rep, c);
      }
    }
  }

  /** A prefix of a string that does not start with `p` does not start with `p` either. */
  lemma PrefixKeepsNoStart(s: string, e: nat, p: string)
    requires e <= |s| && !StartsWith(s, p)
    ensures !StartsWith(s[..e], p)
  {
    if |p| <= e {
      assert s[..e][..|p|] == s[..|p|];
    }
  }

  /** No two consecutive slashes. */
  predicate NoDoubleSlash(s: string) {
    forall i :: 0 <= i < |s| - 1 ==> !(s[i] == '/' && s[i + 1] == '/')
  }

  lemma NoDoubleSlashIff(s: string)
    ensures NoDoubleSlash(s) <==> !Contains(s, "//")
  {
    if !NoDoubleSlash(s) {
      var i :| 0 <= i < |s| - 1 && s[i] == '/' && s[i + 1] == '/';
      assert s[i..i + 2] == "//";
      OccursContains(s, "//", i);
    }
    if Contains(s, "//") {
      var r := IndexOf(s, "//", 0);
      assert s[r..r + 2] == "//";
      assert s[r..r + 2][0] == s[r] && s[r..r + 2][1] == s[r + 1];
    }
  }

  /** Replacing a slash-free pattern by a non-empty slash-free text creates no "//", and the
      result starts with a slash only if the input does. */
  lemma {:induction false} ReplaceKeepsNoDoubleSlash(s: string, pat: string, rep: string)
    requires |pat| > 0 && '/' !in pat && '/' !in rep && rep != []
    requires NoDoubleSlash(s)
    ensures NoDoubleSlash(ReplaceAll(s, pat, rep))
    ensures ReplaceAll(s, pat, rep) != [] && ReplaceAll(s, pat, rep)[0] == '/' ==> s != [] && s[0] == '/'
    decreases |s|
  {
    if |s| >= |pat| {
      if s[..|pat|] == pat {
        assert s[0] == pat[0];
        ReplaceKeepsNoDoubleSlash(s[|pat|..], pat, rep);
        var r := ReplaceAll(s[|pat|..], pat, rep);
        assert ReplaceAll(s, pat, rep) == rep + r;
        assert rep[|rep| - 1] != '/';
      } else {
        ReplaceKeepsNoDoubleSlash(s[1..], pat, rep);
      }
    }
  }

  /** Replacing a single character distributes over concatenation. */
  lemma {:induction false} ReplaceCharConcat(a: string, b: string, c: char, rep: string)
    ensures ReplaceAll(a + b, [c], rep) == ReplaceAll(a, [c], rep) + ReplaceAll(b, [c], rep)
    decreases |a|
  {
    if a != [] {
      assert (a + b)[1..] == a[1..] + b;
      assert (a + b)[..1] == a[..1];
      ReplaceCharConcat(a[1..], b, c, rep);
    } else {
      assert a + b == b;
    }
  }

  /** After replacing a character by a text that does not contain it, the character is gone. */
  lemma {:induction false} ReplaceCharRemoves(s: string, c: char, rep: string)
    requires c !in rep
    ensures c !in ReplaceAll(s, [c], rep)
    decreases |s|
  {
    if s != [] {
      ReplaceCharRemoves(s[1..], c, rep);
    }
  }

  /** String.split(c) with one plain character and no limit, before Java drops trailing empty
      strings: the pieces between the separators, always at least one. */
  function SplitAll(s: string, c: char): (r: seq<string>)
    ensures |r| >= 1
    ensures forall k :: 0 <= k < |r| ==> c !in r[k]
    decreases |s|
  {
    if s == [] then [""]
    else
      var rest := SplitAll(s[1..], c);
      if s[0] == c then [""] + rest
      else [[s[0]] + rest[0]] + rest[1..]
  }

  /** xs[0] + sep + xs[1] + ... + sep + xs[|xs| - 1]. */
  function Join(sep: string, xs: seq<string>): string
    decreases |xs|
  {
    if xs == [] then ""
    else if |xs| == 1 then xs[0]
    else xs[0] + sep + Join(sep, xs[1..])
  }

  lemma {:induction false} JoinSnoc(sep: string, xs: seq<string>, x: string)
    requires xs != []
    ensures Join(sep, xs + [x]) == Join(sep, xs) + sep + x
    decreases |xs|
  {
    if |xs| > 1 {
      assert (xs + [x])[1..] == xs[1..] + [x];
      JoinSnoc(sep, xs[1..], x);
    } else {
      assert (xs + [x])[1..] == [x];
    }
  }

  /** Splitting on a character and joining the pieces with it gives the string back. */
  lemma {:induction false} JoinSplitAll(s: string, c: char)
    ensures Join([c], SplitAll(s, c)) == s
    decreases |s|
  {
    if s != [] {
      JoinSplitAll(s[1..], c);
      var rest := SplitAll(s[1..], c);
      if s[0] != c {
        if |rest| > 1 {
          assert ([[s[0]] + rest[0]] + rest[1..])[1..] == rest[1..];
        }
      } else {
        assert ([""] + rest)[1..] == rest;
      }
    }
  }

  /** Text with a separator after a piece free of it splits into that piece and the rest. */
  lemma {:induction false} SplitAllPiece(x: string, rest: string, c: char)
    requires c !in x
    ensures SplitAll(x + [c] + rest, c) == [x] + SplitAll(rest, c)
    decreases |x|
  {
    if x == [] {
      assert ([] + [c] + rest)[1..] == rest;
    } else {
      SplitAllPiece(x[1..], rest, c);
      assert (x + [c] + rest)[1..] == x[1..] + [c] + rest;
      assert [x[0]] + x[1..] == x;
    }
  }

  /** Text without the separator is one piece. */
  lemma {:induction false} SplitAllNoSeparator(x: string, c: char)
    requires c !in x
    ensures SplitAll(x, c) == [x]
    decreases |x|
  {
    if x != [] {
      SplitAllNoSeparator(x[1..], c);
      assert [x[0]] + x[1..] == x;
    }
  }

  /** Joining pieces free of the separator and splitting again gives the pieces back, empty
      ones included. */
  lemma {:induction false} SplitAllJoin(xs: seq<string>, c: char)
    requires xs != []
    requires forall k :: 0 <= k < |xs| ==> c !in xs[k]
    ensures SplitAll(Join([c], xs), c) == xs
    decreases |xs|
  {
    if |xs| == 1 {
      SplitAllNoSeparator(xs[0], c);
    } else {
      var t := Join([c], xs[1..]);
      assert Join([c], xs) == xs[0] + [c] + t;
      assert c !in xs[0];
      SplitAllJoin(xs[1..], c);
      SplitAllPiece(xs[0], t, c);
      assert [xs[0]] + xs[1..] == xs;
    }
  }

  /** Removes the empty strings at the end, as String.split does when no limit is given. */
  function DropTrailingEmpty(xs: seq<string>): (r: seq<string>)
    ensures |r| <= |xs| && r == xs[..|r|]
    ensures r == [] || r[|r| - 1] != ""
    ensures forall k :: |r| <= k < |xs| ==> xs[k] == ""
    decreases |xs|
  {
    if xs != [] && xs[|xs| - 1] == "" then DropTrailingEmpty(xs[..|xs| - 1]) else xs
  }

  /** String.split(c) for one plain (non-regular-expression) character: the string itself when
      `c` does not occur, otherwise the pieces without the trailing empty ones. */
  function JavaSplit(s: string, c: char): (r: seq<string>)
    ensures forall k :: 0 <= k < |r| ==> c !in r[k]
  {
    if c !in s then [s] else DropTrailingEmpty(SplitAll(s, c))
  }

  /** Joining two or more separator-free pieces, the last not empty, and splitting with
      String.split gives the pieces back. */
  lemma JavaSplitJoin(xs: seq<string>, c: char)
    requires |xs| >= 2 && xs[|xs| - 1] != ""
    requires forall k :: 0 <= k < |xs| ==> c !in xs[k]
    ensures JavaSplit(Join([c], xs), c) == xs
  {
    var s := Join([c], xs);
    assert s == xs[0] + [c] + Join([c], xs[1..]);
    assert s[|xs[0]|] == c;
    SplitAllJoin(xs, c);
  }

  /** String.split(c, 2): at most two pieces, cut at the first `c`; empty pieces are kept. */
  function SplitOnce(s: string, c: char): (r: seq<string>)
    ensures |r| == 1 || |r| == 2
    ensures |r| == 1 <==> c !in s
    ensures |r| == 1 ==> r[0] == s
    ensures |r| == 2 ==> c !in r[0] && s == r[0] + [c] + r[1]
  {
    if c !in s then [s]
    else
      ContainsChar(s, c);
      var i := IndexOf(s, [c], 0);
      assert OccursAt(s, [c], i) && s[i..i + 1] == [c];
      assert forall j :: 0 <= j < i ==> !OccursAt(s, [c], j) && s[j..j + 1] == [s[j]];
      assert s == s[..i] + [c] + s[i + 1..];
      [s[..i], s[i + 1..]]
  }

  /** Removes the empty strings at the front. */
  function DropLeadingEmpty(xs: seq<string>): (r: seq<string>)
    ensures r == [] || r[0] != ""
    decreases |xs|
  {
    if xs != [] && xs[0] == "" then DropLeadingEmpty(xs[1..]) else xs
  }

  /** What the loop "if (sb.length() > 0) sb.append(sep); sb.append(x);" builds: the items
      joined by `sep`, where empty items before the first non-empty one leave no separator. */
  function JoinSkipLeadingEmpty(sep: string, xs: seq<string>): string {
    Join(sep, DropLeadingEmpty(xs))
  }

  /** One more turn of that loop. */
  lemma {:induction false} JoinSkipLeadingEmptySnoc(sep: string, xs: seq<string>, x: string)
    ensures JoinSkipLeadingEmpty(sep, xs + [x]) ==
      (var acc := JoinSkipLeadingEmpty(sep, xs); if acc == "" then x else acc + sep + x)
    decreases |xs|
  {
    if xs == [] {
      assert xs + [x] == [x];
    } else if xs[0] == "" {
      assert (xs + [x])[1..] == xs[1..] + [x];
      JoinSkipLeadingEmptySnoc(sep, xs[1..], x);
    } else {
      assert DropLeadingEmpty(xs + [x]) == xs + [x];
      JoinSnoc(sep, xs, x);
      assert Join(sep, xs) != "" by {
        if |xs| > 1 {
          assert Join(sep, xs) == xs[0] + sep + Join(sep, xs[1..]);
        }
      }
    }
  }

  /** Character.toLowerCase restricted to ASCII letters. */
  function LowerChar(c: char): char {
    if 'A' <= c <= 'Z' then (c as int + 32) as char else c
  }

  /** String.toLowerCase, ASCII letters only. */
  function ToLower(s: string): (r: string)
    ensures |r| == |s|
    ensures forall i :: 0 <= i < |s| ==> r[i] == LowerChar(s[i])
  {
    seq(|s|, i requires 0 <= i < |s| => LowerChar(s[i]))
  }

  /** No ASCII upper-case letter occurs in `s`. */
  predicate NoUpper(s: string) {
    forall i :: 0 <= i < |s| ==> !('A' <= s[i] <= 'Z')
  }

  /** Lower-casing leaves no upper-case letter and is idempotent. */
  lemma ToLowerIsLower(s: string)
    ensures NoUpper(ToLower(s))
    ensures ToLower(ToLower(s)) == ToLower(s)
  {
  }

  /** First index at or after `st` whose character is above U+0020 (String.trim's first loop). */
  function TrimStart(s: string, st: nat): (r: nat)
    requires st <= |s|
    ensures st <= r <= |s|
    decreases |s| - st
  {
    if st < |s| && s[st] <= ' ' then TrimStart(s, st + 1) else st
  }

  /** End index after dropping trailing characters up to U+0020 (String.trim's second loop). */
  function TrimEnd(s: string, st: nat, len: nat): (r: nat)
    requires st <= len <= |s|
    ensures st <= r <= len
    decreases len
  {
    if st < len && s[len - 1] <= ' ' then TrimEnd(s, st, len - 1) else len
  }

  /** String.trim: the slice of `s` without its leading and trailing characters up to U+0020. */
  function Trim(s: string): string {
    var st := TrimStart(s, 0);
    s[st..TrimEnd(s, st, |s|)]
  }

  /** The decimal digit for 0 <= d < 10. */
  function DigitChar(d: nat): char
    requires d < 10
  {
    ('0' as int + d) as char
  }

  /** Integer.toString for a non-negative number. */
  function NatToString(n: nat): (r: string)
    ensures |r| >= 1
    ensures forall i :: 0 <= i < |r| ==> '0' <= r[i] <= '9'
    decreases n
  {
    if n < 10 then [DigitChar(n)] else NatToString(n / 10) + [DigitChar(n % 10)]
  }
}

=== FILE: weburl.dfy ===
/** WebURL: a URL string together with the domain, sub-domain and path that setURL cuts out of
    it, its attribute map, and equality and hashing by the URL string alone. The list of
    two-label public suffixes (TLDList) is a parameter. */
module WebUrls {
  import opened Wrappers
  import opened Strings

  /** What setURL derives from the URL string. */
  datatype UrlPieces = UrlPieces(domain: string, subDomain: string, path: string)

  /** Two characters after the first "//"; 1 when there is none (indexOf gives -1). */
  function DomainStart(url: string): nat {
    IndexOf(url, "//", 0) + 2
  }

  /** The first '/' after the domain start when it lies strictly after it, else the end. */
  function DomainEnd(url: string): nat {
    var st := DomainStart(url);
    var e := IndexOf(url, "/", st);
    if e > st then e else |url|
  }

  /** The domain setURL keeps of a host: the host itself for at most two labels, else the last
      two labels, or the last three when the last two form a listed suffix. */
  function HostDomain(host: string, tlds: set<string>): string {
    var parts := JavaSplit(host, '.');
    var n := |parts|;
    if n <= 2 then host
    else
      var lastTwo := parts[n - 2] + "." + parts[n - 1];
      if lastTwo in tlds then parts[n - 3] + "." + lastTwo else lastTwo
  }

  /** How many labels at the end belong to the domain (for hosts of more than two labels). */
  function DomainLabels(parts: seq<string>, tlds: set<string>): nat
    requires |parts| > 2
  {
    if parts[|parts| - 2] + "." + parts[|parts| - 1] in tlds then 3 else 2
  }

  /** The sub-domain: for more than two labels, the leading labels joined by '.' with leading
      empty labels skipped, as the "+=" loop builds it. */
  function HostSubDomain(host: string, tlds: set<string>): string {
    var parts := JavaSplit(host, '.');
    if |parts| <= 2 then "" else JoinSkipLeadingEmpty(".", parts[..|parts| - DomainLabels(parts, tlds)])
  }

  /** The text after the host, cut before its first '?'. */
  function PathAfterHost(rest: string): string {
    var q := IndexOf(rest, "?", 0);
    if q >= 0 then rest[..q] else rest
  }

  /** setURL's decomposition; None where url.substring(start, end) throws. */
  function Decompose(url: string, tlds: set<string>): Option<UrlPieces> {
    var st, en := DomainStart(url), DomainEnd(url);
    if st > en then None
    else
      var host := url[st..en];
      Some(UrlPieces(HostDomain(host, tlds), HostSubDomain(host, tlds), PathAfterHost(url[en..])))
  }

  /** The host text setURL splits into labels. */
  function HostText(url: string): string
    requires DomainStart(url) <= DomainEnd(url)
  {
    url[DomainStart(url)..DomainEnd(url)]
  }

  /** Only the empty string makes setURL throw; otherwise the host region ends at the end of the
      string or at a '/' it does not contain. */
  lemma DecomposeDefined(url: string, tlds: set<string>)
    ensures Decompose(url, tlds).None? <==> url == ""
    ensures url != "" ==> DomainStart(url) <= DomainEnd(url) <= |url|
    ensures url != "" && DomainEnd(url) < |url| ==> url[DomainEnd(url)] == '/' && '/' !in HostText(url)
  {
    var st := DomainStart(url);
    var i := IndexOf(url, "//", 0);
    var e := IndexOf(url, "/", st);
    if url != "" {
      assert st <= |url|;
      if e > st {
        assert url[e..e + 1] == "/";
        forall j | st <= j < e
          ensures url[j] != '/'
        {
          assert !OccursAt(url, "/", j);
          assert url[j..j + 1] == [url[j]];
        }
      }
    }
  }

  /** A host of at most two labels is the domain, with no sub-domain. */
  lemma ShortHost(host: string, tlds: set<string>)
    requires |JavaSplit(host, '.')| <= 2
    ensures HostDomain(host, tlds) == host && HostSubDomain(host, tlds) == ""
  {
  }

  /** A longer host: the domain is its last two labels, or three when the last two form a listed
      suffix, and the sub-domain joins the labels before them. */
  lemma LongHost(host: string, tlds: set<string>)
    requires |JavaSplit(host, '.')| > 2
    ensures var parts := JavaSplit(host, '.');
      var k := |parts| - DomainLabels(parts, tlds);
      && HostDomain(host, tlds) == Join(".", parts[k..])
      && HostSubDomain(host, tlds) == JoinSkipLeadingEmpty(".", parts[..k])
  {
    var parts := JavaSplit(host, '.');
    var n := |parts|;
    assert parts[n - 2..] == [parts[n - 2], parts[n - 1]];
    assert parts[n - 2..][1..] == [parts[n - 1]];
    assert Join(".", parts[n - 2..]) == parts[n - 2] + "." + parts[n - 1];
    if DomainLabels(parts, tlds) == 3 {
      assert parts[n - 3..][1..] == parts[n - 2..];
      assert Join(".", parts[n - 3..]) == parts[n - 3] + "." + Join(".", parts[n - 2..]);
    }
  }

  /** Joining two non-empty runs of labels. */
  lemma {:induction false} JoinAppend(sep: string, a: seq<string>, b: seq<string>)
    requires a != [] && b != []
    ensures Join(sep, a + b) == Join(sep, a) + sep + Join(sep, b)
    decreases |a|
  {
    if |a| == 1 {
      assert (a + b)[1..] == b;
    } else {
      assert (a + b)[1..] == a[1..] + b;
      JoinAppend(sep, a[1..], b);
    }
  }

  /** Splitting a string with no empty label keeps every piece. */
  lemma SplitWithoutEmptyLabels(s: string, c: char)
    requires forall k :: 0 <= k < |SplitAll(s, c)| ==> SplitAll(s, c)[k] != ""
    ensures JavaSplit(s, c) == SplitAll(s, c)
  {
    if c !in s {
      SplitAllNoSeparator(s, c);
    }
  }

  /** For hosts without empty labels, sub-domain and domain put back together give the host. */
  lemma HostRoundTrip(host: string, tlds: set<string>)
    requires forall k :: 0 <= k < |SplitAll(host, '.')| ==> SplitAll(host, '.')[k] != ""
    ensures var sub, domain := HostSubDomain(host, tlds), HostDomain(host, tlds);
      if sub == "" then domain == host else sub + "." + domain == host
  {
    SplitWithoutEmptyLabels(host, '.');
    JoinSplitAll(host, '.');
    var parts := JavaSplit(host, '.');
    var n := |parts|;
    if n > 2 {
      LongHost(host, tlds);
      var k := n - DomainLabels(parts, tlds);
      if k > 0 {
        assert parts == parts[..k] + parts[k..];
        JoinAppend(".", parts[..k], parts[k..]);
        assert parts[..k][0] != "";
        assert DropLeadingEmpty(parts[..k]) == parts[..k];
        assert Join(".", parts[..k]) != "" by {
          if k > 1 {
            assert Join(".", parts[..k]) == parts[0] + "." + Join(".", parts[..k][1..]);
          }
        }
      } else {
        assert parts[..k] == [];
        assert parts[k..] == parts;
      }
    } else {
      ShortHost(host, tlds);
    }
  }

  /** The path is what follows the host up to its first '?', which it does not contain. */
  lemma PathPart(rest: string)
    ensures var path := PathAfterHost(rest);
      && '?' !in path
      && StartsWith(rest, path)
      && (|path| == |rest| || rest[|path|] == '?')
  {
    var q := IndexOf(rest, "?", 0);
    var path := PathAfterHost(rest);
    if q >= 0 {
      assert rest[q..q + 1] == "?";
      forall j | 0 <= j < q
        ensures path[j] != '?'
      {
        assert !OccursAt(rest, "?", j);
        assert rest[j..j + 1] == [rest[j]];
      }
    } else {
      ContainsChar(rest, '?');
    }
    assert rest[..|path|] == path;
  }

  /** With no '/' after the domain start, the path is empty. */
  lemma NoSlashNoPath(url: string, tlds: set<string>)
    requires url != "" && IndexOf(url, "/", DomainStart(url)) <= DomainStart(url)
    ensures Decompose(url, tlds).Some? && Decompose(url, tlds).value.path == ""
  {
    DecomposeDefined(url, tlds);
    assert url[|url|..] == "";
  }

  /** Two's-complement 32-bit wrap-around of Java int arithmetic. */
  function Int32(x: int): (r: int)
    ensures -0x8000_0000 <= r < 0x8000_0000
  {
    (x + 0x8000_0000) % 0x1_0000_0000 - 0x8000_0000
  }

  /** A UTF-16 code unit, the element Java strings are made of. */
  type CodeUnit = x: int | 0 <= x < 0x1_0000

  /** The UTF-16 encoding of one character: itself below U+10000, otherwise a high surrogate
      (D800-DBFF) followed by a low surrogate (DC00-DFFF) from which the character comes back. */
  function CharUnits(c: char): (units: seq<CodeUnit>)
    ensures c as int < 0x1_0000 ==> units == [c as int]
    ensures c as int >= 0x1_0000 ==>
      && |units| == 2
      && 0xD800 <= units[0] < 0xDC00 && 0xDC00 <= units[1] < 0xE000
      && 0x1_0000 + (units[0] as int - 0xD800) * 0x400 + (units[1] as int - 0xDC00) == c as int
  {
    if c as int < 0x1_0000 then [c as int]
    else
      var v := c as int - 0x1_0000;
      [0xD800 + v / 0x400, 0xDC00 + v % 0x400]
  }

  /** The UTF-16 code units of a string, as a Java String holds them. */
  function Utf16(s: string): (units: seq<CodeUnit>)
    ensures |s| <= |units| <= 2 * |s|
    decreases |s|
  {
    if s == [] then [] else Utf16(s[..|s| - 1]) + CharUnits(s[|s| - 1])
  }

  /** h = 31 * h + u in int arithmetic over code units. */
  function UnitsHash(units: seq<CodeUnit>): (h: int)
    ensures -0x8000_0000 <= h < 0x8000_0000
    decreases |units|
  {
    if units == [] then 0 else Int32(31 * UnitsHash(units[..|units| - 1]) + units[|units| - 1])
  }

  /** String.hashCode: the int hash of the string's UTF-16 code units. */
  function StringHash(s: string): (h: int)
    ensures -0x8000_0000 <= h < 0x8000_0000
  {
    UnitsHash(Utf16(s))
  }

  /** The polynomial u[0]*31^(n-1) + ... + u[n-1] without wrap-around. */
  function PolyHash(units: seq<CodeUnit>): int
    decreases |units|
  {
    if units == [] then 0 else 31 * PolyHash(units[..|units| - 1]) + units[|units| - 1]
  }

  /** Wrapping in between or only at the end gives the same hash. */
  lemma Int32Step(x: int, c: int)
    ensures Int32(31 * Int32(x) + c) == Int32(31 * x + c)
  {
    var k := (x + 0x8000_0000) / 0x1_0000_0000;
    assert Int32(x) == x - 0x1_0000_0000 * k;
    assert 31 * Int32(x) + c == 31 * x + c - 0x1_0000_0000 * (31 * k);
    ModShift(31 * x + c + 0x8000_0000, 31 * k);
  }

  /** Shifting by a multiple of 2^32 does not change the remainder. */
  lemma ModShift(a: int, j: int)
    ensures (a - 0x1_0000_0000 * j) % 0x1_0000_0000 == a % 0x1_0000_0000
  {
  }

  /** The hash of the code units is their polynomial hash taken modulo 2^32, as a signed value. */
  lemma {:induction false} UnitsHashIsPolyHash(units: seq<CodeUnit>)
    ensures UnitsHash(units) == Int32(PolyHash(units))
    decreases |units|
  {
    if units != [] {
      var init := units[..|units| - 1];
      UnitsHashIsPolyHash(init);
      Int32Step(PolyHash(init), units[|units| - 1]);
    }
  }

  /** String.hashCode is the polynomial hash of the UTF-16 code units modulo 2^32, as a signed value. */
  lemma StringHashIsPolyHash(s: string)
    ensures StringHash(s) == Int32(PolyHash(Utf16(s)))
  {
    UnitsHashIsPolyHash(Utf16(s));
  }

  /** A character outside the Basic Multilingual Plane is hashed as its two surrogates:
      U+1F600 is D83D DE00, and its hash is 31 * 0xD83D + 0xDE00. */
  lemma SupplementaryHash()
    ensures Utf16("\U{1F600}") == [0xD83D, 0xDE00]
    ensures StringHash("\U{1F600}") == 1772899
  {
    assert "\U{1F600}"[..0] == "";
    assert Utf16("\U{1F600}") == CharUnits('\U{1F600}');
    UnitsHashPair(0xD83D, 0xDE00);
    Int32InRange(1772899);
  }

  /** Two characters of the Basic Multilingual Plane are two code units. */
  lemma Utf16Pair(x: char, y: char)
    requires x as int < 0x1_0000 && y as int < 0x1_0000
    ensures Utf16([x, y]) == [x as int, y as int]
  {
    assert [x, y][..1] == [x] && [x][..0] == [];
  }

  /** The hash of two code units. */
  lemma UnitsHashPair(a: CodeUnit, b: CodeUnit)
    ensures UnitsHash([a, b]) == Int32(31 * a + b)
  {
    assert [a][..0] == [];
    assert UnitsHash([a]) == Int32(31 * UnitsHash([]) + a);
    Int32InRange(a);
    assert [a, b][..1] == [a];
    assert UnitsHash([a, b]) == Int32(31 * UnitsHash([a]) + b);
  }

  /** A value already in int range is not changed by the wrap-around. */
  lemma Int32InRange(x: int)
    requires -0x8000_0000 <= x < 0x8000_0000
    ensures Int32(x) == x
  {
    assert 0 <= x + 0x8000_0000 < 0x1_0000_0000;
  }

  /** Equal hashes do not mean equal URLs: "Aa" and "BB" collide. */
  lemma HashCollision()
    ensures StringHash("Aa") == StringHash("BB") && "Aa" != "BB"
  {
    Utf16Pair('A', 'a');
    Utf16Pair('B', 'B');
    UnitsHashPair(65, 97);
    UnitsHashPair(66, 66);
  }

  /** The label part of setURL: the domain, and the sub-domain built label by label. */
  method SplitDomain(host: string, tlds: set<string>) returns (domain: string, subDomain: string)
    ensures domain == HostDomain(host, tlds) && subDomain == HostSubDomain(host, tlds)
  {
    domain := host;
    subDomain := "";
    var parts := JavaSplit(host, '.');
    if |parts| > 2 {
      domain := parts[|parts| - 2] + "." + parts[|parts| - 1];
      var limit := 2;
      if domain in tlds {
        domain := parts[|parts| - 3] + "." + domain;
        limit := 3;
      }
      for i := 0 to |parts| - limit
        invariant subDomain == JoinSkipLeadingEmpty(".", parts[..i])
      {
        JoinSkipLeadingEmptySnoc(".", parts[..i], parts[i]);
        assert parts[..i + 1] == parts[..i] + [parts[i]];
        if subDomain != "" {
          subDomain := subDomain + ".";
        }
        subDomain := subDomain + parts[i];
      }
      assert limit == DomainLabels(parts, tlds);
    }
  }

  class WebURL {
    var url: Option<string>
    var domain: Option<string>
    var subDomain: Option<string>
    var path: Option<string>
    var attributes: Option<map<string, string>>

    /** A new WebURL: every field null. */
    constructor()
      ensures url == None && domain == None && subDomain == None && path == None && attributes == None
    {
      url := None;
      domain := None;
      subDomain := None;
      path := None;
      attributes := None;
    }

    /** setURL: stores the URL, then cuts out domain, sub-domain and path. On the empty string
        the substring call throws after the URL was stored (ok is false) and the other fields
        keep their values. */
    method SetURL(newUrl: string, tlds: set<string>) returns (ok: bool)
      modifies this
      ensures url == Some(newUrl) && attributes == old(attributes)
      ensures ok <==> Decompose(newUrl, tlds).Some?
      ensures ok ==> var p := Decompose(newUrl, tlds).value;
        domain == Some(p.domain) && subDomain == Some(p.subDomain) && path == Some(p.path)
      ensures !ok ==> domain == old(domain) && subDomain == old(subDomain) && path == old(path)
    {
      url := Some(newUrl);
      var domainStartIdx := IndexOf(newUrl, "//", 0) + 2;
      var domainEndIdx := IndexOf(newUrl, "/", domainStartIdx);
      domainEndIdx := if domainEndIdx > domainStartIdx then domainEndIdx else |newUrl|;
      assert domainStartIdx == DomainStart(newUrl) && domainEndIdx == DomainEnd(newUrl);
      if domainStartIdx > domainEndIdx {
        return false;
      }
      var host := newUrl[domainStartIdx..domainEndIdx];
      var d, sub := SplitDomain(host, tlds);
      domain := Some(d);
      subDomain := Some(sub);
      var p := newUrl[domainEndIdx..];
      var pathEndIdx := IndexOf(p, "?", 0);
      if pathEndIdx >= 0 {
        p := p[..pathEndIdx];
      }
      path := Some(p);
      ok := true;
    }

    /** getAttribute: the attribute's value, or "" when there is no map or no such name. */
    function GetAttribute(name: string): (r: string)
      reads this
      ensures attributes.None? || name !in attributes.value ==> r == ""
      ensures attributes.Some? && name in attributes.value ==> r == attributes.value[name]
    {
      match attributes
      case None => ""
      case Some(m) => if name in m then m[name] else ""
    }

    /** equals: the same object, or another WebURL with the same non-null URL string. */
    predicate Equals(o: WebURL?)
      reads this, o
    {
      this == o || (o != null && url.Some? && url == o.url)
    }

    /** hashCode: the URL string's hash; None where a null URL makes it throw. */
    function HashCode(): (h: Option<int>)
      reads this
      ensures h.None? <==> url.None?
      ensures h.Some? ==> -0x8000_0000 <= h.value < 0x8000_0000
    {
      if url.None? then None else Some(StringHash(url.value))
    }
  }

  /** Equality of distinct objects depends on the URL strings alone, and an object with a null
      URL equals no other object. */
  lemma EqualsByUrl(a: WebURL, b: WebURL?)
    ensures a.Equals(a)
    ensures a != b ==> (a.Equals(b) <==> b != null && a.url.Some? && a.url == b.url)
    ensures a.url.None? && a != b ==> !a.Equals(b)
    ensures a.Equals(b) && a.url.Some? && b != null ==> b.Equals(a)
  {
  }

  /** Equal objects have equal hashes, and an object with a URL hashes without throwing. */
  lemma EqualsAgreesWithHash(a: WebURL, b: WebURL)
    ensures a.Equals(b) ==> a.HashCode() == b.HashCode()
    ensures a.url.Some? ==> a.HashCode() == Some(StringHash(a.url.value))
  {
  }
}

=== FILE: wrappers.dfy ===
/** The optional-value datatype used wherever the Java code returns or stores `null`. */
module Wrappers {

  datatype Option<+T> = None | Some(value: T) {

    /** The wrapped value, or `default` when there is none. */
    function GetOr(default: T): T {
      match this
      case Some(v) => v
      case None => default
    }
  }
}
